=== FILE: README.md ===
# DigiComp5 desktop simulation — a Dafny model

DigiComp5 is a training desktop in the browser. It has a Google-Drive clone, a share dialog, a mail app, toasts and operating-system style notifications. A scored tutorial of six tasks watches what the learner does.

This project models the logic behind those screens. It covers:

- the Drive's file list: trash, restore, delete forever, copy, rename, star, activity log, ownership transfer, upload progress;
- what the Drive displays: search, the five views, the folders-first sort;
- click and shift-click selection, the recently-opened list, and the share bookkeeping;
- the tutorial's score, hint and final evaluation;
- the desktop's back/forward history, window records and inbox;
- the share dialog and its person pills;
- the breadcrumb trail;
- the window frame's drag and resize arithmetic;
- the details panel, the storage gauge, the toast and notification queues, and the mail window;
- inline renaming in the list and grid views;
- the colour of a collaborator's avatar and cursor.

The model follows React's own shape:

- A state setter called with `prev => next` is a function from the old value to the new one.
- A component whose handlers change several pieces of state is a `class`. Each handler is a method whose `modifies` clause names exactly the fields it writes.
- Callbacks into the parent component are results of those methods: navigation requests, toasts, mail drafts, share requests.
- The clock and random ids are parameters: `now`, `newIds`, and times in milliseconds.

Modules, one per source file plus shared helpers:

- `Types`, `Strings`, `Fixtures`: the records of `types.ts`; the JavaScript string operations the components use; the starting data of `constants.tsx`.
- `DriveFiles`, `DriveView`, `DriveSelect`, `GoogleDrive`: `components/GoogleDrive.tsx`.
- `Tutorial`, `Desktop`: `App.tsx`.
- `ShareModal`, `PersonPill`, `Breadcrumbs`, `BrowserWindow`, `DetailsPanel`, `StorageIndicator`, `MailApp`, `FileItems`, `CollaboratorColors`: the components of the same names.
- `KeyedQueue`, `ToastContext`, `NotificationContext`: the two providers in `contexts/`.

## Model

| member | source | states |
|---|---|---|
| Types.FindById | components/GoogleDrive.tsx:113 | `find` by id: `None` exactly when no file has the id; otherwise the first file carrying it |
| Fixtures.InitialFilesShape | constants.tsx:148-185 | fixture check: the six starting files have distinct ids; only file 6 has a parent, and that parent is the folder Photos |
| Strings.Lower | components/GoogleDrive.tsx:210 | `toLowerCase` keeps the length, maps each character, and leaves no ASCII capital |
| Strings.LowerIdempotent | components/GoogleDrive.tsx:210 | lower-casing twice equals lower-casing once |
| Strings.InitialOf | components/PersonPill.tsx:19 | `charAt(0).toUpperCase()`: empty for the empty string, otherwise one character, the first one upper-cased |
| Strings.ContainsAt | components/GoogleDrive.tsx:210 | `includes` holds if and only if the substring occurs at some position |
| Strings.Trim | components/FileListItem.tsx:37 | `trim` returns a middle slice; everything cut off on either side is JavaScript white space; the result neither starts nor ends with white space |
| Strings.TrimIdempotent | components/FileListItem.tsx:37-38 | trimming twice equals trimming once |
| Strings.TrimAllWhitespace | components/DetailsPanel.tsx:40 | a blank string trims to "", which JavaScript treats as false |
| Strings.NatToString | components/GoogleDrive.tsx:96 | a count prints as a non-empty string of decimal digits with no leading zero |
| Strings.Join | App.tsx:140 | `join` of no parts is empty, of one part is that part, and of more parts is the first part, the separator, then the join of the rest |
| Strings.JoinSnoc | App.tsx:140 | joining one more part appends the separator and that part |
| Strings.JoinLength | App.tsx:140 | the joined text is as long as all parts together plus one separator between each two |
| Strings.NatToStringValue | components/GoogleDrive.tsx:96 | the decimal text of a count reads back as that count |
| Strings.IntToString | components/DetailsPanel.tsx:24 | a non-negative count prints as its digits; a negative one as a minus sign and the digits of its magnitude |
| Strings.StrCompare | components/GoogleDrive.tsx:229 | the stand-in for `localeCompare` returns -1, 0 or 1, and 0 exactly for equal strings |
| Strings.StrCompareAntisymmetric | components/GoogleDrive.tsx:229 | swapping the arguments negates the comparison |
| Strings.StrCompareTransitive | components/GoogleDrive.tsx:229 | "sorts no later than" is transitive |
| DriveFiles.ItemsAction | components/GoogleDrive.tsx:90-91 | same length; files whose id is listed get the update; every other file is unchanged |
| DriveFiles.LogActivity | components/GoogleDrive.tsx:79-88 | the listed files get `{action, now}` prepended to their history and nothing else changes; other files are untouched |
| DriveFiles.SetTrash | components/GoogleDrive.tsx:96-97 | delete and restore set the trash flag and the modification time on exactly the selected files; others are unchanged |
| DriveFiles.RestoreUndoesDelete | components/GoogleDrive.tsx:96-97 | restoring right after deleting gives back every trash flag; only the selected files' modification time differs |
| DriveFiles.DeleteForever | components/GoogleDrive.tsx:98-99 | keeps exactly the unselected files, in their original order; the length drops by the number of selected files present |
| DriveFiles.DeleteForeverExact | components/GoogleDrive.tsx:98-99 | after deleting forever, no selected id remains, and an unselected id remains if and only if it was there |
| DriveFiles.ToggleStar | components/GoogleDrive.tsx:104-106 | each selected file's star flag is flipped on its own; others are unchanged |
| DriveFiles.ToggleStarTwice | components/GoogleDrive.tsx:106 | starring the same selection twice restores the list |
| DriveFiles.StarActionLabel | components/GoogleDrive.tsx:105-107 | the logged text is "Starred item" if and only if the first selected file exists and was unstarred; otherwise "Unstarred item" |
| DriveFiles.CopyOf | components/GoogleDrive.tsx:116-122 | a copy has the fresh id, the name "Copy of …", one 'Created as a copy' entry and the new time; every other field is the original's |
| DriveFiles.MakeCopies | components/GoogleDrive.tsx:110-125 | the `forEach` loop pushes exactly the copies `CopiesFor` describes: one per selected id found, in selection order |
| DriveFiles.CopiesShape | components/GoogleDrive.tsx:110-126 | one copy per selected id that exists; each copy is `CopyOf` the file that id finds, under the fresh id at the same position as that id |
| DriveFiles.CopiesOfSelected | components/GoogleDrive.tsx:113-119 | every copy is the copy of the file a selected id finds, under the fresh id paired with that id |
| DriveFiles.CopiesInOrder | components/GoogleDrive.tsx:113-121 | when every selected id exists, `CopiesFor` holds one copy per id and the k-th copy is the copy of the k-th selected file under the k-th fresh id |
| DriveFiles.CountFound | components/GoogleDrive.tsx:113-119 | the number of ids that find a file equals the number of ids exactly when all find one, and is zero exactly when none does |
| DriveFiles.CopiesHaveFreshIds | components/GoogleDrive.tsx:115-118 | when the fresh ids are not in use, no copy reuses the id of an existing file |
| DriveFiles.Rename | components/GoogleDrive.tsx:131-132 | only the renamed file changes, and only its name and modification time |
| DriveFiles.RenameLabel | components/GoogleDrive.tsx:134 | the activity reads `Renamed to "`, the new name, and a closing quote |
| DriveFiles.TransferOwnership | components/GoogleDrive.tsx:294-296 | only the file with that id changes, and only its owner |
| DriveFiles.TransferLabel | components/GoogleDrive.tsx:292-297 | the activity names the file's former owner and the new one; a file that is not there prints its former owner as "undefined" |
| DriveFiles.NewFolder | components/GoogleDrive.tsx:142-153 | the new folder carries the fresh id, the typed name and the creation time; it is owned by the user, lives in the current folder, is empty, unstarred and not in the trash, with one 'Created' entry and no preview, progress or versions |
| DriveFiles.CreatedFolderAppended | components/GoogleDrive.tsx:141-155 | after `setFiles` and `logActivity` the list ends with the folder under its typed name, its 'Created' entry twice; earlier files with other ids are untouched |
| DriveFiles.NewUpload | components/GoogleDrive.tsx:163-178 | the upload carries the fresh id, the picked name and size and the creation time; it is a document in the current folder with one 'Created' entry and the placeholder preview, uploading at 0 percent |
| DriveFiles.TickFile | components/GoogleDrive.tsx:181-192 | a tick adds 10 percent to the matching in-progress file, capped at 100; reaching 100 ends the upload; any other record is unchanged |
| DriveFiles.UploadTick | components/GoogleDrive.tsx:180-194 | one interval run applies the tick to every record, keeping the length |
| DriveFiles.Ticks | components/GoogleDrive.tsx:180-194 | repeated ticks change only the progress and the uploading flag, never restart an upload, and leave other files alone |
| DriveFiles.UploadProgression | components/GoogleDrive.tsx:180-194 | a fresh upload reads 10·n percent after n < 10 ticks; from the tenth tick on it reads 100 and is no longer uploading |
| DriveView.SearchResults | components/GoogleDrive.tsx:210 | the non-trashed files whose lower-cased name includes the lower-cased query, in file order, each as often as in the list |
| DriveView.FilterView | components/GoogleDrive.tsx:212-222 | trash, shared, starred and drive views keep exactly the files their rule admits, in file order, each as often as in the list |
| DriveView.FindLast | components/GoogleDrive.tsx:217-218 | a `Map` built from the files returns the last file with the id, or nothing when no file has it |
| DriveView.RecentItems | components/GoogleDrive.tsx:216-219 | the recent ids resolved to files; ids no file carries are dropped; every resolvable id appears |
| DriveView.RecentItemsAppend | components/GoogleDrive.tsx:217-218 | resolving two id lists one after the other is resolving their concatenation, so the order of the ids is kept |
| DriveView.RecentItemsSingle | components/GoogleDrive.tsx:217-218 | one id resolves to the last file carrying it (the `Map` keeps the last), or to nothing |
| DriveView.RecentItemsResolved | components/GoogleDrive.tsx:217-218 | when every recent id resolves, the k-th entry is the last file carrying the k-th id |
| DriveView.ViewItems | components/GoogleDrive.tsx:211-222 | a view lists only Drive files; the filtering views keep file order and every file they match; the recent view only files whose ids were opened |
| DriveView.Compare | components/GoogleDrive.tsx:224-226 | a folder sorts before a non-folder, and a non-folder after a folder |
| DriveView.DescendingNegates | components/GoogleDrive.tsx:229-230 | between two folders or two non-folders, descending is ascending negated |
| DriveView.CompareAntisymmetric | components/GoogleDrive.tsx:224-231 | the comparator is antisymmetric, so any two items are ordered one way or the other |
| DriveView.LeTransitive | components/GoogleDrive.tsx:224-231 | the comparator is transitive in both directions |
| DriveView.SortItems | components/GoogleDrive.tsx:224-231 | the sort returns a permutation of its input, ordered by the comparator |
| DriveView.CompareZero | components/GoogleDrive.tsx:224-231 | the comparator returns 0 exactly for two folders or two non-folders with the same sort column |
| DriveView.InsertKeepsTies | components/GoogleDrive.tsx:224-231 | inserting an item puts it behind every item it ties with |
| DriveView.SortStable | components/GoogleDrive.tsx:224-231 | the sort is stable: the items tied with any item keep their relative order |
| DriveView.FoldersFirst | components/GoogleDrive.tsx:224-226 | in a sorted list every folder precedes every non-folder |
| DriveView.DisplayedContents | components/GoogleDrive.tsx:208-232 | a query shows the search matches in file order, unsorted; otherwise the view's files are shown sorted and folders first; the recent view is sorted too |
| DriveView.DisplayedItems | components/GoogleDrive.tsx:208-232 | what is shown comes from the Drive; a search never shows a trashed file; without a search the list is sorted |
| DriveView.NextSort | components/GoogleDrive.tsx:199 | the clicked key becomes current; the direction is descending if and only if that key was current and ascending |
| DriveView.NextSortTwice | components/GoogleDrive.tsx:199 | two clicks on the current key give the configuration back |
| DriveSelect.FindIndex | components/GoogleDrive.tsx:238-239 | `findIndex`: -1 exactly when the id is absent; otherwise the first index carrying it |
| DriveSelect.SliceIndex | components/GoogleDrive.tsx:242 | how `slice` resolves an index: a negative one counts from the end, and the result is clamped to [0, length] |
| DriveSelect.JsSlice | components/GoogleDrive.tsx:242 | `slice` equals the plain subsequence for indices in range, and is empty when the resolved end is not after the resolved start |
| DriveSelect.RangeSlice | components/GoogleDrive.tsx:240-242 | the slice between two found positions, taken in either order, holds items of the list and, for two valid positions, is exactly the items between them |
| DriveSelect.RangeIds | components/GoogleDrive.tsx:238-242 | a shift-click range never names an id that is not displayed, and is never longer than the list |
| DriveSelect.RangeBetween | components/GoogleDrive.tsx:237-243 | with both ends displayed, a shift-click selects every displayed id between them, both included |
| DriveSelect.RangeStaleAnchor | components/GoogleDrive.tsx:238-242 | with an anchor no longer displayed, the range is empty, or just the clicked id when it is the last item |
| DriveSelect.Without | components/GoogleDrive.tsx:245 | `filter(x => x !== id)` keeps every other id, in order and as often as it occurred, and drops every copy of the id |
| DriveSelect.ToggleSelected | components/GoogleDrive.tsx:245 | ctrl-click flips the id's membership and leaves every other id's membership alone |
| DriveSelect.ToggleSelectedTwice | components/GoogleDrive.tsx:245 | two ctrl-clicks on an unselected item give the selection back |
| DriveSelect.Click | components/GoogleDrive.tsx:237-250 | shift with an anchor selects the range and keeps the anchor; ctrl toggles the id and keeps every other id as it was; a plain click selects only the item; both set the anchor to the item |
| DriveSelect.ClickSelectsDisplayed | components/GoogleDrive.tsx:234-251 | a click never selects an id that is not displayed |
| DriveSelect.PushRecent | components/GoogleDrive.tsx:258 | the opened id comes first; behind it the earlier ids stay in their order, each as often as before, and the opened id no more |
| DriveSelect.PushRecentProperties | components/GoogleDrive.tsx:258 | the recent list never holds an id twice; re-opening the newest item changes nothing |
| DriveSelect.SelectedFiles | components/GoogleDrive.tsx:201 | the selected files in file order, not selection order, each as often as in the list |
| DriveSelect.NewUsers | components/GoogleDrive.tsx:270 | the invited users whose address is not yet shared, in invitation order, each as often as invited |
| DriveSelect.ShareMerge | components/GoogleDrive.tsx:269-272 | the old share list is kept unchanged as a prefix, so an existing role is never updated |
| DriveSelect.ShareMergeProperties | components/GoogleDrive.tsx:268-272 | every invited address ends up shared; nobody else is added; addresses stay distinct |
| DriveSelect.LocalPart | components/GoogleDrive.tsx:204 | `split('@')[0]` is the prefix before the first '@' |
| DriveSelect.Editors | components/GoogleDrive.tsx:203 | the editors of the share list, in list order, each as often as listed |
| DriveSelect.ActiveCollaborators | components/GoogleDrive.tsx:202-206 | exactly the editors, in share-list order: the k-th collaborator is the k-th editor, named by the local part of the address |
| DriveSelect.KnownName | components/GoogleDrive.tsx:277 | only colegA and colegB get names; everyone else is "Unknown" |
| DriveSelect.NewEditors | components/GoogleDrive.tsx:274-278 | the invited editors whose address is not yet a collaborator's, in invitation order, each as often as invited |
| DriveSelect.NewCollaborators | components/GoogleDrive.tsx:274-278 | the invited editors not yet collaborating, in invitation order, with their known names |
| DriveSelect.CollaboratorsMerge | components/GoogleDrive.tsx:275-280 | the old collaborator list is kept as a prefix |
| DriveSelect.CollaboratorsMergeCovers | components/GoogleDrive.tsx:273-280 | every invited editor becomes a collaborator; every new collaborator is an invited editor |
| DriveSelect.Names | components/GoogleDrive.tsx:284 | the names of the files, in order |
| DriveSelect.ShareActivity | components/GoogleDrive.tsx:281 | the logged text is "Shared with " and the invited addresses joined by ", "; with no invitee it is the bare prefix, with one exactly that address |
| DriveSelect.ShareActivitySnoc | components/GoogleDrive.tsx:281 | one more invitee appends ", " and that address to the logged text |
| DriveSelect.InvitationDraft | components/GoogleDrive.tsx:282-286 | the mail goes to the invited addresses, carries the message, and its subject is "Invitation to collaborate on: " and the selected names joined by ", " |
| GoogleDrive.ContextMenuEntries | components/GoogleDrive.tsx:306-322 | the trash view offers Restore and Delete forever; other views offer exactly Preview, Share, Make a copy, Rename, Version history, Star or Unstar by the item's flag, and Delete. Each entry carries the `disabled` flag the options are built with (set on Preview and Version history for a folder, on Rename for a multiple selection), which ContextMenu does not honour |
| GoogleDrive.LiveAsWritten | components/ContextMenu.tsx:34-45 | ContextMenu makes every entry a clickable button, whatever its flag |
| GoogleDrive.LiveIntended | components/GoogleDrive.tsx:314-318 | an entry is clickable exactly when its `disabled` flag is not set |
| GoogleDrive.DisabledEntriesStayLive | components/ContextMenu.tsx:8 | as written, Preview and Version history on a folder and Rename with several items selected can be clicked, though their flags say they should not |
| GoogleDrive.IntendedLiveEntries | components/GoogleDrive.tsx:306-322 | honouring the flags, both trash entries and Share, Make a copy, Star and Delete can be clicked; Preview and Version history only for a file, and Rename only for at most one selected item |
| GoogleDrive.MenuTargets | components/GoogleDrive.tsx:301-304 | the ids a menu action should act on: the old selection when it holds the item, otherwise the selection of a click on the item |
| GoogleDrive.MenuTargetsHoldItem | components/GoogleDrive.tsx:301-304 | the right-clicked item is always a target, except for a shift-range from or to an item not displayed |
| GoogleDrive.MenuTargetsAsWritten | components/GoogleDrive.tsx:313-321 | as written: the stored actions read the selection of the render before the right-click |
| GoogleDrive.StaleMenuDeleteMissesItem | components/GoogleDrive.tsx:96 | with nothing selected, Delete on a right-clicked file trashes nothing and reports 0 items, where the intended targets trash that file |
| GoogleDrive.Drive.constructor | components/GoogleDrive.tsx:39-48 | the first render: nothing selected, My Drive, empty search, sorted by name ascending |
| GoogleDrive.Drive.Remount | components/GoogleDrive.tsx:39-48 | mounting again restores every first-render value; the file, share and collaborator lists are kept |
| GoogleDrive.Drive.DeleteItems | components/GoogleDrive.tsx:96 | the selected files go to the trash; the toast counts the selected ids |
| GoogleDrive.Drive.RestoreItems | components/GoogleDrive.tsx:97 | the selected files leave the trash; the toast counts the selected ids |
| GoogleDrive.Drive.DeleteItemsForever | components/GoogleDrive.tsx:98-103 | the selected files are dropped and the selection is emptied, with a warning toast |
| GoogleDrive.Drive.StarItems | components/GoogleDrive.tsx:104-108 | each star flips, then one entry is logged whose text was decided before the flip |
| GoogleDrive.Drive.CopyItems | components/GoogleDrive.tsx:110-129 | the originals stay as they were; the copies are appended after them; the toast counts the copies |
| GoogleDrive.Drive.RenameFile | components/GoogleDrive.tsx:131-136 | the file is renamed and logged as 'Renamed to "…"'; renaming ends |
| GoogleDrive.Drive.CancelRename | components/GoogleDrive.tsx:137 | renaming ends |
| GoogleDrive.Drive.CreateFolder | components/GoogleDrive.tsx:139-158 | a cancelled or empty prompt creates nothing; otherwise the folder is appended and logged 'Created' a second time |
| GoogleDrive.Drive.UploadFile | components/GoogleDrive.tsx:160-179 | a picked file is appended as an upload at 0 percent; no file, no change |
| GoogleDrive.Drive.UploadIntervalTick | components/GoogleDrive.tsx:180-194 | one interval run ticks the upload; the tick that reaches 100 also logs 'Uploaded item' and toasts |
| GoogleDrive.Drive.SortBy | components/GoogleDrive.tsx:199 | the sort configuration follows `NextSort` |
| GoogleDrive.Drive.Displayed | components/GoogleDrive.tsx:208-232 | the current list shows only Drive files, no trashed file during a search, and is sorted otherwise |
| GoogleDrive.Drive.SelectFile | components/GoogleDrive.tsx:234-251 | renaming stops; 'Selected' is logged on the item; the selection follows `Click` over the items displayed at the click |
| GoogleDrive.Drive.DoubleClick | components/GoogleDrive.tsx:253-261 | a folder asks to navigate into it and changes nothing else; a file is previewed, pushed onto the recent list and logged 'Opened item' |
| GoogleDrive.Drive.OpenShareModal | components/GoogleDrive.tsx:263-266 | the dialog opens only with something selected |
| GoogleDrive.Drive.Share | components/GoogleDrive.tsx:268-287 | the share and collaborator lists merge; the files log the share; an invitation draft goes to the mail app; addresses stay distinct |
| GoogleDrive.Drive.ShareLists | components/GoogleDrive.tsx:269-280 | `setSharedWith` appends only new addresses and `onCollaboratorsChange` only new editors; addresses stay distinct |
| GoogleDrive.Drive.TransferOwnershipTo | components/GoogleDrive.tsx:289-299 | acts only with exactly one file selected: it changes the owner and logs the former one |
| GoogleDrive.Drive.ChangeView | components/GoogleDrive.tsx:326-329 | the view changes and navigation returns to the root; the search clears exactly when the view differs from the old one or the current folder was not the root, since the clearing effect (lines 75-77) runs only when the view or the folder changes |
| GoogleDrive.Drive.FolderChanged | components/GoogleDrive.tsx:75-77 | a change of the current folder clears the search |
| GoogleDrive.Drive.KeyDown | components/GoogleDrive.tsx:56-71 | typing in a field does nothing; Delete trashes a non-empty selection and asks for the "N item(s) moved to Trash." toast; F2 renames a single selection; Ctrl/Cmd+F focuses search |
| GoogleDrive.Drive.OpenContextMenu | components/GoogleDrive.tsx:301-324 | right-clicking an unselected item selects it as a click would, so the selection becomes `MenuTargets`; the entries reflect the selection before that |
| Tutorial.MaxScore | App.tsx:39 | MAX_SCORE, the sum of the six tasks' points, is 100 |
| Tutorial.Score | App.tsx:73-82 | the score never exceeds the sum of the points |
| Tutorial.Earned | App.tsx:75-78 | a task earns its points when done and nothing otherwise |
| Tutorial.ScoreAtMostMax | App.tsx:29-39 | the tutorial's score is at most 100 |
| Tutorial.FullScoreIffAllCompleted | App.tsx:73-82 | when every task is worth points, the full score is reached if and only if every task is done |
| Tutorial.TutorialFullScore | App.tsx:29-39 | a score of 100 means all six tasks are done, and back |
| Tutorial.Task3ImpliesTask2 | App.tsx:31-32 | setting colegA to Viewer also completes sharing with colegA |
| Tutorial.Task5ImpliesTask4 | App.tsx:33-34 | setting colegB to Editor also completes sharing with colegB |
| Tutorial.FirstUncompleted | App.tsx:89 | `find`: nothing exactly when every task is done; otherwise the first task not done |
| Tutorial.ShowHint | App.tsx:85-93 | with every task done the hint stays; otherwise it becomes the first unfinished task's hint id |
| Tutorial.CompletedCount | App.tsx:127-133 | the completed count never exceeds the number of tasks |
| Tutorial.AllCompletedCount | App.tsx:130-133 | the count equals the number of tasks if and only if every task is done |
| Tutorial.DetailLines | App.tsx:130-138 | one detail line per task, in task order |
| Tutorial.DetailLine | App.tsx:133-137 | a line names the task and its points, or "0 puncte (nefinalizat)" for a task not done |
| Tutorial.Justification | App.tsx:140 | the heading followed by the tasks' detail lines joined by line breaks; with no task just the heading, with one task the heading and that task's line |
| Tutorial.JustificationSnoc | App.tsx:140 | one more task adds a line break and that task's line at the end |
| Tutorial.Evaluate | App.tsx:124-140 | the loop yields the score, the completed count and the justification of the task list |
| Tutorial.CheckEvaluation | App.tsx:124-154 | the result's score is the tutorial score out of 100; it counts the completed tasks out of six, and the score is 100 exactly when all six are done |
| Desktop.InitialNavState | App.tsx:158 | the history starts at the root with both buttons disabled |
| Desktop.Navigate | App.tsx:161-165 | navigating leaves a valid history whose last entry, the current one, is the folder, behind the entries up to the old cursor |
| Desktop.GoBack | App.tsx:167 | going back keeps the history, never moves before the first entry, and moves one step when it can |
| Desktop.GoForward | App.tsx:168 | going forward keeps the history, never moves past the last entry, and moves one step when it can |
| Desktop.CurrentFolder | App.tsx:175 | the current folder is an entry of the history |
| Desktop.BackDisabled | App.tsx:268 | the back button is disabled exactly when going back would change nothing |
| Desktop.ForwardDisabled | App.tsx:269 | the forward button is disabled exactly when going forward would change nothing |
| Desktop.NavigateSpec | App.tsx:161-165 | navigate drops the entries after the cursor, appends the folder and makes it current; forward is then disabled |
| Desktop.MoveSpec | App.tsx:167-168 | back and forward keep the cursor in the history and move it by one; a disabled button does nothing |
| Desktop.BackThenForward | App.tsx:167-168 | back then forward returns to the same place |
| Desktop.Toggle | App.tsx:180 | toggling flips only the open flag |
| Desktop.ToggleTwice | App.tsx:180 | toggling twice restores the window record |
| Desktop.AddEmail | App.tsx:171-173 | the draft becomes an unread mail in front of the inbox |
| Desktop.UnreadCount | App.tsx:213 | the unread count is at most the inbox size |
| Desktop.AddEmailUnread | App.tsx:171-173 | adding a mail raises the unread count by exactly one |
| Desktop.Shell.constructor | App.tsx:43-45 | the shell starts at the root with an empty inbox and the three default window records |
| Desktop.Shell.NavigateTo | App.tsx:161-165 | the Drive's current folder becomes the navigated folder |
| Desktop.Shell.Back | App.tsx:167 | the history follows goBack and stays valid |
| Desktop.Shell.Forward | App.tsx:168 | the history follows goForward and stays valid |
| Desktop.Shell.ReceiveEmail | App.tsx:171-173 | the inbox gains the mail and one more unread |
| Desktop.Shell.OpenBrowser | App.tsx:256-271 | the Drive window opens, keeping its place; opening a closed window mounts the Drive afresh, so its own state starts over while the file, share and collaborator lists stay |
| Desktop.Shell.CloseBrowser | App.tsx:178 | the Drive window closes, keeping its place |
| Desktop.Shell.ToggleFileExplorer | App.tsx:180 | the explorer window toggles |
| Desktop.Shell.CloseFileExplorer | App.tsx:181 | the explorer window closes |
| Desktop.Shell.ToggleMailApp | App.tsx:183 | the mail window toggles |
| Desktop.Shell.CloseMailApp | App.tsx:184 | the mail window closes |
| Desktop.Shell.CopyRestrictedLink | App.tsx:277 | copying the restricted link completes the sixth task |
| Desktop.Shell.ShowHintNow | App.tsx:85-93 | the hint follows `ShowHint` over the current game state |
| Desktop.Shell.ResetInactivity | App.tsx:96-102 | the hint disappears |
| Desktop.Shell.HintClick | App.tsx:105-108 | the hint shown is cleared at once by the reset that follows it |
| Desktop.Shell.HintClickIntended | App.tsx:105-108 | the hint of the first unfinished task is shown, and stays |
| Desktop.HintClickDiscardsHint | App.tsx:85-93 | while a task is unfinished, `showHint` finds a hint, which the as-written click then discards |
| Desktop.Shell.CheckEvaluationNow | App.tsx:124-154 | the evaluation of the current state, with its score, details and completed count, is stored for the result window and returned |
| ShareModal.RemoveEmail | components/ShareModal.tsx:65-67 | the entries with that address go; the others stay in order, each as often as in the list |
| ShareModal.ChangeRole | components/ShareModal.tsx:93-95 | only the matching entry's role changes; the addresses stay the same |
| ShareModal.MatchSuggestion | components/ShareModal.tsx:70-71 | the first suggestion whose address equals the input ignoring case, or nothing when none does |
| ShareModal.MatchIgnoresCase | components/ShareModal.tsx:69-76 | example: "COLEGA@GMAIL.COM" finds colegA |
| ShareModal.MatchSecondColleague | components/ShareModal.tsx:69-76 | example: "colegb@gmail.com" finds colegB, past colegA |
| ShareModal.MatchUnknownAddress | components/ShareModal.tsx:69-76 | example: an address that is no colleague's finds nothing |
| ShareModal.MatchCaseInsensitive | components/ShareModal.tsx:70-71 | two inputs that differ only in case find the same suggestion |
| ShareModal.FilteredSuggestions | components/ShareModal.tsx:84-91 | empty for an empty input; otherwise the suggestions that mention the input and are neither waiting nor shared, in order and each as often as in the list |
| ShareModal.WithExpiration | components/ShareModal.tsx:113-116 | each entry keeps its address and role; it expires on the date when expiration is on, and never otherwise |
| ShareModal.Title | components/ShareModal.tsx:139 | the file's name in quotes for one file; otherwise the number of items |
| ShareModal.CopyLink | components/ShareModal.tsx:131-137 | the tutorial is told if and only if access is Restricted; the toast always follows |
| ShareModal.CompleteSend | components/ShareModal.tsx:112-128 | with nobody waiting nothing is shared; otherwise it shares the entries with their expiry, toasts, and notifies with the count |
| ShareModal.ShareDialog.constructor | components/ShareModal.tsx:22-32 | the dialog starts empty, with the default message, Restricted access, and not dirty |
| ShareModal.ShareDialog.MarkDirty | components/ShareModal.tsx:38-42 | the form becomes dirty once someone waits or the message changed, and stays dirty |
| ShareModal.ShareDialog.AddPerson | components/ShareModal.tsx:54-63 | appends only an address neither waiting nor shared; otherwise sets the error and leaves the list; addresses stay distinct and unshared |
| ShareModal.ShareDialog.RemovePerson | components/ShareModal.tsx:65-67 | removal keeps the dialog's invariant |
| ShareModal.ShareDialog.RoleChange | components/ShareModal.tsx:93-95 | a role change keeps the invariant and touches no address |
| ShareModal.ShareDialog.TypeInput | components/ShareModal.tsx:171 | typing stores the text and clears the error |
| ShareModal.ShareDialog.EditMessage | components/ShareModal.tsx:208 | editing the message keeps the invariant, so a changed message marks the form dirty |
| ShareModal.ShareDialog.AddFromInput | components/ShareModal.tsx:69-76 | a case-insensitive match adds the canonical address as a viewer and clears the input; an address already there sets that error; anything else sets the invalid-address error; in both error cases the input stays |
| ShareModal.ShareDialog.AddFromSuggestion | components/ShareModal.tsx:78-82 | the suggestion is added as a viewer through the same checks, and the list closes |
| ShareModal.ShareDialog.Send | components/ShareModal.tsx:104-111 | a send is ignored while another is pending; otherwise sending starts and the current form is captured |
| ShareModal.ShareDialog.Filtered | components/ShareModal.tsx:84-91 | nothing shows for an empty input, and no shown suggestion is waiting or already shared with |
| ShareModal.ShareDialog.SendDisabled | components/ShareModal.tsx:263 | an enabled Send button means someone is waiting and nothing is being sent |
| ShareModal.ShareDialog.CanTransferOwnership | components/ShareModal.tsx:165 | "Make owner" is offered only when exactly one file is shared |
| ShareModal.ShareDialog.SendTimerFires | components/ShareModal.tsx:112-128 | the delayed part completes the captured form, ends sending and closes |
| ShareModal.ShareDialog.Close | components/ShareModal.tsx:44-52 | the dialog closes if it is clean or the user confirms |
| ShareModal.ShareDialog.TransferOwnershipClick | components/ShareModal.tsx:97-102 | on confirmation the transfer is requested and the dialog closes; otherwise nothing happens |
| ShareModal.ShareDialog.ChooseAccess | components/ShareModal.tsx:230 | the general access becomes the chosen one |
| ShareModal.ShareDialog.CopyLinkClick | components/ShareModal.tsx:131-137 | the click's outcome is `CopyLink` of the current access |
| PersonPill.FindSuggestion | components/PersonPill.tsx:17 | the first suggestion with exactly that address, or nothing |
| PersonPill.DisplayName | components/PersonPill.tsx:17-18 | a listed address shows the contact's name; any other shows the address |
| PersonPill.PillInitial | components/PersonPill.tsx:19 | the display name's first character, upper-cased |
| PersonPill.ColleaguePills | components/PersonPill.tsx:17-19 | example: colegA's pill reads "Coleg A" with "C"; an unlisted address shows itself with its upper-cased first letter |
| PersonPill.MenuOptions | components/PersonPill.tsx:50-57 | Viewer and Editor first, then "Make owner" if and only if the person is an editor and transfers are allowed, and nothing more |
| PersonPill.Pill.constructor | components/PersonPill.tsx:14 | the menu starts closed |
| PersonPill.Pill.ToggleMenu | components/PersonPill.tsx:44 | the role button flips the menu |
| PersonPill.Pill.Choose | components/PersonPill.tsx:32-55 | an offered entry requests its role change or the transfer, and the menu closes |
| PersonPill.Pill.RemoveClick | components/PersonPill.tsx:61 | the remove button asks to drop the person's address |
| PersonPill.Pill.ClickOutside | components/PersonPill.tsx:22-30 | a click outside closes the menu |
| Breadcrumbs.SelfParentNeverEnds | components/Breadcrumbs.tsx:19-27 | a folder that is its own parent makes the loop endless |
| Breadcrumbs.BuildPath | components/Breadcrumbs.tsx:16-29 | no id or an unknown id gives an empty path; otherwise the path ends at the current folder, links each folder to its parent, starts at a folder without a known parent, and holds only files of the Drive; every folder after the first has a set (non-empty) parent id |
| BrowserWindow.DragFollowsPointer | components/BrowserWindow.tsx:58-84 | while dragging, the window moves exactly as far as the pointer has since the drag began |
| BrowserWindow.DragOffset | components/BrowserWindow.tsx:62-65 | the recorded offset added to the window's corner gives the pointer |
| BrowserWindow.DragTo | components/BrowserWindow.tsx:79-84 | the window is placed so the pointer keeps its offset from the corner |
| BrowserWindow.Resize | components/BrowserWindow.tsx:99-112 | the corrected step: when the left or top edge moves, the opposite edge stays where it was when the resize began |
| BrowserWindow.ResizeRules | components/BrowserWindow.tsx:87-116 | 'r' and 'b' clamp at 480 and 400; 'l' and 't' move the edge only while the size stays above the minimum; handles without a side leave that dimension alone |
| BrowserWindow.ResizeKeepsMinimum | components/BrowserWindow.tsx:97-112 | a window that starts at least 480 by 400 never becomes smaller |
| BrowserWindow.LeftResizeDrifts | components/BrowserWindow.tsx:99-104 | as written, two left-edge moves leave the right edge 50 pixels off, where the corrected step keeps it |
| BrowserWindow.ResizeAsWritten | components/BrowserWindow.tsx:99-112 | as written: on the first move of a resize it agrees with the corrected step, and it never goes below the minimum size |
| BrowserWindow.Frame.constructor | components/BrowserWindow.tsx:33-43 | the frame starts at the given place and size, neither dragging nor resizing |
| BrowserWindow.Frame.DragStart | components/BrowserWindow.tsx:58-66 | a press on a button starts nothing; otherwise the pointer's offset is recorded |
| BrowserWindow.Frame.ResizeStart | components/BrowserWindow.tsx:68-76 | the handle, the pointer, the size and the position are recorded |
| BrowserWindow.Frame.MouseMove | components/BrowserWindow.tsx:78-118 | a drag moves the window; a resize sets size and position, overriding the drag |
| BrowserWindow.Frame.MouseUp | components/BrowserWindow.tsx:120-123 | both the drag and the resize end |
| DetailsPanel.DiffSeconds | components/DetailsPanel.tsx:22 | whole seconds, rounded down |
| DetailsPanel.Bucket | components/DetailsPanel.tsx:22-32 | seconds below 60, minutes below an hour, hours below a day, the date from a day on; each unit is the floor |
| DetailsPanel.ElapsedText | components/DetailsPanel.tsx:24-32 | seconds, minutes and hours read as the count followed by "s ago", "m ago" and "h ago"; only the date has no relative text |
| DetailsPanel.FormatRelativeTime | components/DetailsPanel.tsx:19-33 | under a minute the text is the floored seconds and "s ago", under an hour the floored minutes and "m ago", under a day the floored hours and "h ago"; from a day on the date |
| DetailsPanel.RelativeTimeExamples | components/DetailsPanel.tsx:19-33 | examples: 59.999 s reads "59s ago", 90 s reads "1m ago", 7500 s reads "2h ago", one day is a date |
| DetailsPanel.CommentAction | components/DetailsPanel.tsx:41 | the logged text is `Commented: "`, exactly the comment, and a closing quote |
| DetailsPanel.TotalSize | components/DetailsPanel.tsx:116 | the total of nothing is 0, and no file is larger than the total |
| DetailsPanel.TotalSizeAppend | components/DetailsPanel.tsx:116 | the total size adds up over a split selection |
| DetailsPanel.CommentBox.constructor | components/DetailsPanel.tsx:37 | the box starts empty |
| DetailsPanel.CommentBox.Edit | components/DetailsPanel.tsx:126 | typing stores the text |
| DetailsPanel.CommentBox.KeyDown | components/DetailsPanel.tsx:39-44 | Enter with a non-blank comment logs the trimmed text on every selected id and clears the box; anything else changes nothing |
| StorageIndicator.TotalStorageBytes | components/StorageIndicator.tsx:22 | constant check: the quota is 16106127360 bytes |
| StorageIndicator.UsedStorage | components/StorageIndicator.tsx:25-27 | used storage is at most the total size and at least the size of every file outside the trash |
| StorageIndicator.Live | components/StorageIndicator.tsx:26 | exactly the files outside the trash, each as often as in the list |
| StorageIndicator.UsedStorageIsLiveTotal | components/StorageIndicator.tsx:25-27 | used storage is the total size of the files outside the trash |
| StorageIndicator.TrashingFreesItsSize | components/StorageIndicator.tsx:26 | trashing one file lowers used storage by exactly its size |
| StorageIndicator.Pow1024 | components/StorageIndicator.tsx:15 | every power of 1024 is at least 1 |
| StorageIndicator.UnitIndex | components/StorageIndicator.tsx:14 | the unit is the largest power of 1024 not above the size |
| StorageIndicator.FormatBytes | components/StorageIndicator.tsx:9-16 | zero reads "0 Bytes"; otherwise the unit fits the size, negative decimals become 0, and past TB the unit is "undefined" |
| StorageIndicator.QuotaIsInGigabytes | components/StorageIndicator.tsx:9-16 | constant check: the quota is written in GB |
| KeyedQueue.RemoveId | contexts/ToastContext.tsx:30 | the entries with that id go, the others stay in order, and an absent id changes nothing |
| KeyedQueue.AppendKeepsOrder | contexts/ToastContext.tsx:24-25 | appending with the counter's value keeps ids strictly increasing and below the counter |
| KeyedQueue.RemoveKeepsOrder | contexts/ToastContext.tsx:29-31 | removal keeps ids strictly increasing and below the counter |
| KeyedQueue.UseContext | contexts/ToastContext.tsx:43-48 | a hook outside its provider throws its message; inside, it gives the provider's value |
| ToastContext.ToastStore.constructor | contexts/ToastContext.tsx:12-19 | no toasts; the counter at 0 |
| ToastContext.ToastStore.AddToast | contexts/ToastContext.tsx:23-26 | one toast with the next id goes to the end; ids stay unique and increasing |
| ToastContext.ToastStore.RemoveToast | contexts/ToastContext.tsx:29-31 | the toasts with that id go; an absent id is a no-op |
| ToastContext.UseToast | contexts/ToastContext.tsx:43-49 | outside a provider it throws "useToast must be used within a ToastProvider" |
| NotificationContext.NotificationStore.constructor | contexts/WindowsNotificationContext.tsx:12-18 | no notifications; the counter at 0 |
| NotificationContext.NotificationStore.AddNotification | contexts/WindowsNotificationContext.tsx:20-23 | one notification with the next id goes to the end; ids stay unique and increasing |
| NotificationContext.NotificationStore.RemoveNotification | contexts/WindowsNotificationContext.tsx:25-27 | those with that id go; an absent id is a no-op |
| NotificationContext.UseWindowsNotification | contexts/WindowsNotificationContext.tsx:39-45 | outside a provider it throws its message |
| MailApp.MarkRead | components/MailAppWindowContent.tsx:17-19 | the mails with that id become read; every other mail is unchanged |
| MailApp.SelectEmails | components/MailAppWindowContent.tsx:16-19 | a read mail leaves the inbox alone; an unread one is marked read |
| MailApp.SelectTwice | components/MailAppWindowContent.tsx:13-21 | selecting the same mail twice equals selecting it once |
| MailApp.MarkReadLowersUnread | components/MailAppWindowContent.tsx:16-19 | marking read never raises the unread count, and lowers it when that mail was unread |
| MailApp.InitialSelection | components/MailAppWindowContent.tsx:11 | the newest mail, or none for an empty inbox |
| MailApp.MailWindow.constructor | components/MailAppWindowContent.tsx:11 | the window opens on the initial selection |
| MailApp.MailWindow.SelectEmail | components/MailAppWindowContent.tsx:13-21 | the mail opens; the inbox follows `SelectEmails`; the unread count does not rise |
| FileItems.RenameDecision | components/FileListItem.tsx:36-42 | renames to the trimmed draft if and only if it is neither blank nor the current name; otherwise cancels |
| FileItems.RenameSettles | components/FileGridItem.tsx:36-42 | a produced name is already trimmed, and submitting it again cancels |
| FileItems.HintNamesOneId | components/FileListItem.tsx:57 | a hint target names at most one file id |
| FileItems.OverlayOffset | components/FileGridItem.tsx:77 | the overlay sits 100 minus the progress percent down, or 100 with no progress |
| FileItems.ItemView.constructor | components/FileListItem.tsx:26 | the draft starts as the item's name |
| FileItems.ItemView.Rerender | components/FileListItem.tsx:25-26 | a new `item` prop replaces the item, and the draft keeps its text |
| FileItems.ItemView.Edit | components/FileListItem.tsx:87 | typing stores the draft |
| FileItems.ItemView.Blur | components/FileListItem.tsx:88 | leaving the field submits the draft |
| FileItems.ItemView.RenameKeyDown | components/FileListItem.tsx:44-50 | Enter submits; Escape cancels and restores the name; other keys do nothing |
| FileItems.ItemView.KeyDown | components/FileGridItem.tsx:65-67 | Enter opens the item if and only if it is not being renamed |
| CollaboratorColors.ColorIndex | components/CollaboratorCursor.tsx:10-13 | the palette index is below 5; what it depends on is stated by SumAppend, SumIgnoresOrder and ColorsIgnoreOrder |
| CollaboratorColors.AvatarColor | components/CollaboratorAvatar.tsx:13-16 | the avatar colour is always one of the five palette entries |
| CollaboratorColors.CursorColor | components/CollaboratorCursor.tsx:10-13 | the cursor colour is always one of the five palette entries |
| CollaboratorColors.AvatarInitial | components/CollaboratorAvatar.tsx:19 | the avatar letter is the name's first character upper-cased, or nothing |
| CollaboratorColors.EmptyNameColors | components/CollaboratorAvatar.tsx:8-15 | example: an empty name gets 'bg-red-500' and '#FF6B6B' |
| CollaboratorColors.AvatarMatchesCursor | components/CollaboratorCursor.tsx:8-12 | a collaborator's avatar and cursor take the same place in their palettes |
| CollaboratorColors.SumAppend | components/CollaboratorAvatar.tsx:14 | `CharCodeSum`, the reduce over the name's characters, adds up over concatenation: every character counts once |
| CollaboratorColors.SumIgnoresOrder | components/CollaboratorAvatar.tsx:14 | `CharCodeSum` depends only on the multiset of characters |
| CollaboratorColors.ColorsIgnoreOrder | components/CollaboratorCursor.tsx:11-12 | names made of the same characters get the same avatar and cursor colours |

## Left out

- Timers are left out; only their steps are modelled. These are the upload interval, the 15-second inactivity timer, the toast and notification auto-close, the 1.5-second send delay, and the 200 ms debounce of the window state. The step of each is a method (`UploadIntervalTick`, `ShowHintNow`, `SendTimerFires`); when it runs is not modelled.
- Clock and random ids: `new Date()`, `Date.now()`, `toISOString` and `Math.random()` become parameters (`now`, `id`, `newIds`, `nowMs`). The model does not ensure that fresh ids are actually fresh; `CopiesHaveFreshIds` assumes it.
- Persistence and cross-window messaging: `usePersistentState`, `localStorage` and `postMessage` are not modelled. `CheckEvaluationNow` returns the result instead of posting it.
- Browser dialogs and the clipboard: `prompt` and `window.confirm` answers are parameters. The clipboard write is not modelled.
- Rendering, animation, theme, the list/grid view toggle, the details-panel tab, the context-menu position and hiding, and focus handling are not modelled.
- Typing into the search box, the expiration checkbox and date, the download checkbox, and the suggestion list's focus and blur are plain state writes and are not separate methods.
- The crumb buttons are not modelled. They call `onNavigate(null)` or `onNavigate(folder.id)`.
- The random motion of `CollaboratorCursor` is not modelled.
- `localeCompare` is modelled as lexicographic order on character codes (`StrCompare`). It is a total order, but not the browser's locale collation.
- Case mapping covers ASCII letters only.
- `CharCodeSum` counts a character outside the Basic Multilingual Plane once; JavaScript's `split('')` splits it into two UTF-16 units.
- StorageIndicator.FormatBytes: the scaled number (`toFixed`, `parseFloat`) and `usagePercentage` are floating point and are left out. The unit is computed exactly, as the largest power of 1024 not above the size, where the source takes the floor of a ratio of floating-point logarithms.
- DetailsPanel.ElapsedText: the locale date text (`toLocaleDateString`) is not modelled, and an unparsable date (NaN) is not modelled. Instants arrive as integer milliseconds.
- Breadcrumbs.BuildPath requires that the parent chain ends within as many steps as there are files. On a cyclic chain the source's loop never ends (`SelfParentNeverEnds`).
- The "Please select an access level" branch of `handleSend` is left out. Every entry carries a role, so it cannot fire.
- ToastContext.ToastStore: `toastId` and `notificationId` are module-level counters shared by every provider. The model gives each store its own counter, for one provider per kind.
- GoogleDrive.Drive: `handleStarItems` ignores the clicked star's id (`onStar(item.id)`) and acts on the selection; the model's `StarItems` takes no id, as the source does.
- GoogleDrive.Drive.OpenContextMenu returns the entries' texts and flags, not their actions. Which entries can be clicked is stated apart, by `LiveAsWritten` and `LiveIntended` (see Findings). An action chosen later is the Drive method of the same name, acting on the selection the right-click left (`MenuTargets`). The source acts on the selection from before the click (see Findings).
- BrowserWindow.Frame.MouseMove uses the corrected `Resize` (see Findings). The as-written step is `ResizeAsWritten`. The saving of position and size to the parent (`onStateChange`) is not modelled.

## Findings

| source | as written | input that shows it | evidently intended | confidence | as-written member | corrected member |
|---|---|---|---|---|---|---|
| components/BrowserWindow.tsx:99-112 | the left and top edges place the window at `clientX - (initialPos.x - position.x)`, where `position` is the position at the time of the move. The handler is re-created with each render, so earlier moves of the same resize have already shifted it. | A window at (100, 100), 800×600, is resized from its left edge: pressed at (100, 300), moved to (50, 300), then to (40, 300). After the second move it is 860 wide at x = −10, so its right edge sits at 850 instead of 900. | The position recorded when the resize began, so the opposite edge stays fixed. | medium; not executed | BrowserWindow.LeftResizeDrifts | BrowserWindow.Resize |
| components/GoogleDrive.tsx:301-323 | `showContextMenu` stores the actions of the render in which the right-click happened; `handleDeleteItems`, `handleRestoreItems`, `handleDeleteForever`, `handleStarItems`, `handleCopyItems` and `openShareModal` read that render's `selectedFileIds`, from before the click selected the item | Nothing selected; right-click file A, which selects A, then choose Delete. Nothing is trashed and the toast says "0 item(s) moved to Trash.". | The actions act on the selection the right-click leaves, so A goes to the trash. | medium; not executed | GoogleDrive.StaleMenuDeleteMissesItem | GoogleDrive.MenuTargets |
| components/ContextMenu.tsx:8 | the options are typed `{ label; action }`, and every option is rendered as a button that runs its action (lines 34-45); the `disabled` flags set at GoogleDrive.tsx:314-318 are never read | A folder is right-clicked and Preview chosen: `handleDoubleClick` runs and the folder opens. With two items selected, Rename starts renaming the clicked one. | Entries whose flag is set cannot be clicked. | medium; not executed | GoogleDrive.DisabledEntriesStayLive | GoogleDrive.LiveIntended |
| App.tsx:105-108 | `handleHintClick` calls `showHint`, which sets the hint, and then `resetInactivityTimer`, which sets it to `null`; the two updates are batched, so `null` wins | Any task unfinished; the hint button is clicked. No hint appears. | The comment on line 107 says the reset is there only to restart the timer, so the hint should be shown. | low; not executed | Desktop.HintClickDiscardsHint | Desktop.Shell.HintClickIntended |

=== FILE: breadcrumbs.dfy ===
/** The breadcrumb trail above the Drive listing (components/Breadcrumbs.tsx): the folders
    from the outermost one down to the current folder, found by following parent links. */
module Breadcrumbs {
  import opened Types

  /** JavaScript truthiness of a `string | null` folder id: `null` and "" are false. */
  predicate IsSet(id: Option<string>)
  {
    id.Some? && id.value != ""
  }

  /** Following parent links from `id` stops (at an unset id or one no file carries)
      within `fuel` steps. A parent chain with a cycle never stops, and then the loop of
      the breadcrumbs never ends. */
  predicate ChainEnds(files: seq<FileItem>, id: Option<string>, fuel: nat)
    decreases fuel
  {
    if !IsSet(id) || FindById(files, id.value).None? then true
    else fuel > 0 && ChainEnds(files, FindById(files, id.value).value.parentId, fuel - 1)
  }

  /** A folder that is its own parent makes the chain endless: no fuel is enough. */
  lemma {:induction false} SelfParentNeverEnds(files: seq<FileItem>, id: string, fuel: nat)
    requires id != "" && FindById(files, id).Some? && FindById(files, id).value.parentId == Some(id)
    ensures !ChainEnds(files, Some(id), fuel)
    decreases fuel
  {
    if fuel > 0 {
      SelfParentNeverEnds(files, id, fuel - 1);
    }
  }

  /** Each folder of the path is the parent of the next one. */
  predicate Linked(path: seq<FileItem>)
  {
    forall i :: 0 < i < |path| ==> path[i].parentId == Some(path[i - 1].id)
  }

  /** Each folder of the path is the file `find` gives for its id. */
  predicate FoundIn(path: seq<FileItem>, files: seq<FileItem>)
  {
    forall i :: 0 <= i < |path| ==> path[i] in files && FindById(files, path[i].id) == Some(path[i])
  }

  /** Unshifting the parent of the path's first folder keeps both properties. */
  lemma Unshift(files: seq<FileItem>, f: FileItem, path: seq<FileItem>)
    requires Linked(path) && FoundIn(path, files)
    requires f in files && FindById(files, f.id) == Some(f)
    requires path != [] ==> path[0].parentId == Some(f.id)
    ensures Linked([f] + path) && FoundIn([f] + path, files)
  {
    var r := [f] + path;
    forall i | 0 < i < |r| ensures r[i].parentId == Some(r[i - 1].id) {
      assert r[i] == path[i - 1];
      if i > 1 { assert r[i - 1] == path[i - 2]; }
    }
    forall i | 0 <= i < |r| ensures r[i] in files && FindById(files, r[i].id) == Some(r[i]) {
      if i > 0 { assert r[i] == path[i - 1]; }
    }
  }

  /** The path: the loop unshifts each folder it finds and moves to that folder's parent,
      stopping at an unset id or at an id no file carries. */
  method BuildPath(allFiles: seq<FileItem>, currentFolderId: Option<string>) returns (path: seq<FileItem>)
    requires ChainEnds(allFiles, currentFolderId, |allFiles|)
    ensures !IsSet(currentFolderId) ==> path == []
    ensures IsSet(currentFolderId) && FindById(allFiles, currentFolderId.value).None? ==> path == []
    ensures IsSet(currentFolderId) && FindById(allFiles, currentFolderId.value).Some? ==>
              path != [] && path[|path| - 1] == FindById(allFiles, currentFolderId.value).value
    ensures forall i :: 0 < i < |path| ==> path[i].parentId == Some(path[i - 1].id)
    ensures forall i :: 0 < i < |path| ==> IsSet(path[i].parentId)
    ensures path != [] ==> !IsSet(path[0].parentId) || FindById(allFiles, path[0].parentId.value).None?
    ensures forall i :: 0 <= i < |path| ==> path[i] in allFiles && FindById(allFiles, path[i].id) == Some(path[i])
  {
    path := [];
    var currentId := currentFolderId;
    ghost var fuel: nat := |allFiles|;
    while IsSet(currentId)
      invariant ChainEnds(allFiles, currentId, fuel)
      invariant path == [] ==> currentId == currentFolderId
      invariant path != [] ==> IsSet(currentFolderId) && FindById(allFiles, currentFolderId.value).Some?
                               && path[|path| - 1] == FindById(allFiles, currentFolderId.value).value
                               && currentId == path[0].parentId
      invariant Linked(path) && FoundIn(path, allFiles)
      invariant forall i :: 0 <= i < |path| ==> path[i].id != ""
      decreases fuel
    {
      var folder := FindById(allFiles, currentId.value);
      if folder.Some? {
        var f := folder.value;
        assert f in allFiles && f.id == currentId.value;
        Unshift(allFiles, f, path);
        path := [f] + path;
        currentId := f.parentId;
        fuel := fuel - 1;
      } else {
        break;
      }
    }
    forall i | 0 < i < |path| ensures IsSet(path[i].parentId) {
      assert path[i].parentId == Some(path[i - 1].id) && path[i - 1].id != "";
    }
  }
}

=== FILE: browser_window.dfy ===
/** The movable, resizable window frame (components/BrowserWindow.tsx): dragging by the
    title bar and resizing from any edge or corner, never below 480 by 400 pixels. */
module BrowserWindow {
  import opened Types

  const MinWidth: int := 480
  const MinHeight: int := 400

  function Max(a: int, b: int): int { if a < b then b else a }

  /** dragInfo: whether a drag runs, and the pointer's offset from the window's corner. */
  datatype DragInfo = DragInfo(isDragging: bool, offset: Point)

  /** resizeInfo: the handle ("t", "b", "l", "r" or a corner such as "tl"), the pointer and
      the size when the resize started, and the window's position then. */
  datatype ResizeInfo = ResizeInfo(isResizing: bool, handle: string, initialPos: Point, initialSize: Size,
                                   windowPos: Point)

  /** The offset recorded by onDragStart. */
  function DragOffset(position: Point, client: Point): (r: Point)
    ensures Point(position.x + r.x, position.y + r.y) == client
  {
    Point(client.x - position.x, client.y - position.y)
  }

  /** The position a mouse move gives while dragging. */
  function DragTo(d: DragInfo, client: Point): (r: Point)
    ensures Point(r.x + d.offset.x, r.y + d.offset.y) == client
  {
    Point(client.x - d.offset.x, client.y - d.offset.y)
  }

  /** While dragging, the window moves exactly as far as the pointer since the drag began. */
  lemma DragFollowsPointer(position: Point, start: Point, client: Point)
    ensures DragTo(DragInfo(true, DragOffset(position, start)), client)
            == Point(position.x + (client.x - start.x), position.y + (client.y - start.y))
  {
  }

  /** The size and position one mouse move gives while resizing. The left and top edges
      place the window at `client - (initialPos - anchor)`; `anchor` is the window position
      that formula reads. */
  function ResizeFrom(r: ResizeInfo, anchor: Point, client: Point): (Size, Point)
  {
    var dx := client.x - r.initialPos.x;
    var dy := client.y - r.initialPos.y;
    var w1 := if 'r' in r.handle then Max(MinWidth, r.initialSize.width + dx) else r.initialSize.width;
    var h1 := if 'b' in r.handle then Max(MinHeight, r.initialSize.height + dy) else r.initialSize.height;
    var leftMoves := 'l' in r.handle && r.initialSize.width - dx > MinWidth;
    var topMoves := 't' in r.handle && r.initialSize.height - dy > MinHeight;
    var w := if leftMoves then r.initialSize.width - dx else w1;
    var x := if leftMoves then client.x - (r.initialPos.x - anchor.x) else anchor.x;
    var h := if topMoves then r.initialSize.height - dy else h1;
    var y := if topMoves then client.y - (r.initialPos.y - anchor.y) else anchor.y;
    (Size(w, h), Point(x, y))
  }

  /** onMouseMove as written: the anchor is the window's position at the time of the move,
      which earlier moves of the same resize have already shifted. */
  function ResizeAsWritten(r: ResizeInfo, position: Point, client: Point): (res: (Size, Point))
    ensures position == r.windowPos ==> res == Resize(r, client)
    ensures r.initialSize.width >= MinWidth && r.initialSize.height >= MinHeight ==>
              res.0.width >= MinWidth && res.0.height >= MinHeight
  {
    ResizeFrom(r, position, client)
  }

  /** onMouseMove as intended: the anchor is the window's position when the resize began. */
  function Resize(r: ResizeInfo, client: Point): (res: (Size, Point))
    ensures var dx := client.x - r.initialPos.x;
            'l' in r.handle && r.initialSize.width - dx > MinWidth ==>
              res.1.x + res.0.width == r.windowPos.x + r.initialSize.width
    ensures var dy := client.y - r.initialPos.y;
            't' in r.handle && r.initialSize.height - dy > MinHeight ==>
              res.1.y + res.0.height == r.windowPos.y + r.initialSize.height
  {
    ResizeFrom(r, r.windowPos, client)
  }

  /** The clamps and edge rules of one resize step, whatever the anchor. */
  lemma ResizeRules(r: ResizeInfo, anchor: Point, client: Point)
    ensures var (size, pos) := ResizeFrom(r, anchor, client);
            var dx := client.x - r.initialPos.x;
            var dy := client.y - r.initialPos.y;
            && ('r' in r.handle && 'l' !in r.handle ==> size.width == Max(MinWidth, r.initialSize.width + dx) >= MinWidth)
            && ('b' in r.handle && 't' !in r.handle ==> size.height == Max(MinHeight, r.initialSize.height + dy) >= MinHeight)
            && ('l' in r.handle && r.initialSize.width - dx > MinWidth ==>
                  size.width == r.initialSize.width - dx > MinWidth && pos.x == anchor.x + dx)
            && ('l' in r.handle && 'r' !in r.handle && r.initialSize.width - dx <= MinWidth ==>
                  size.width == r.initialSize.width && pos.x == anchor.x)
            && ('t' in r.handle && r.initialSize.height - dy > MinHeight ==>
                  size.height == r.initialSize.height - dy > MinHeight && pos.y == anchor.y + dy)
            && ('t' in r.handle && 'b' !in r.handle && r.initialSize.height - dy <= MinHeight ==>
                  size.height == r.initialSize.height && pos.y == anchor.y)
            && ('l' !in r.handle && 'r' !in r.handle ==> size.width == r.initialSize.width && pos.x == anchor.x)
            && ('t' !in r.handle && 'b' !in r.handle ==> size.height == r.initialSize.height && pos.y == anchor.y)
  {
  }

  /** A resize that starts no smaller than the minimum never goes below it. */
  lemma ResizeKeepsMinimum(r: ResizeInfo, anchor: Point, client: Point)
    requires r.initialSize.width >= MinWidth && r.initialSize.height >= MinHeight
    ensures ResizeFrom(r, anchor, client).0.width >= MinWidth
    ensures ResizeFrom(r, anchor, client).0.height >= MinHeight
  {
  }

  /** Two moves of the left edge, as written: the window ends 60 pixels wider but its right
      edge has moved 50 pixels left, because the second move counts the first one's shift
      again. The intended step keeps the right edge where it was. */
  lemma LeftResizeDrifts()
    ensures var r := ResizeInfo(true, "l", Point(100, 300), Size(800, 600), Point(100, 100));
            var (size1, pos1) := ResizeAsWritten(r, Point(100, 100), Point(50, 300));
            var (size2, pos2) := ResizeAsWritten(r, pos1, Point(40, 300));
            && pos1.x + size1.width == 900
            && size2.width == 860 && pos2.x == -10
            && pos2.x + size2.width == 850
            && Resize(r, Point(40, 300)).1.x + Resize(r, Point(40, 300)).0.width == 900
  {
  }

  /** The window frame's state. */
  class Frame {
    var size: Size
    var position: Point
    var drag: DragInfo
    var resize: ResizeInfo

    constructor (initialPosition: Point, initialSize: Size)
      ensures size == initialSize && position == initialPosition
      ensures !drag.isDragging && !resize.isResizing
    {
      size, position := initialSize, initialPosition;
      drag := DragInfo(false, Point(0, 0));
      resize := ResizeInfo(false, "", Point(0, 0), Size(0, 0), Point(0, 0));
    }

    /** onDragStart: a press on one of the title bar's buttons starts nothing. */
    method DragStart(onButton: bool, client: Point)
      modifies this`drag
      ensures onButton ==> drag == old(drag)
      ensures !onButton ==> drag == DragInfo(true, DragOffset(position, client))
    {
      if onButton {
        return;
      }
      drag := DragInfo(true, DragOffset(position, client));
    }

    /** onResizeStart: the handle, the pointer, the size and the position are recorded. */
    method ResizeStart(handle: string, client: Point)
      modifies this`resize
      ensures resize == ResizeInfo(true, handle, client, size, position)
    {
      resize := ResizeInfo(true, handle, client, size, position);
    }

    /** onMouseMove: a drag moves the window; a resize sets both size and position, and
        its position wins over the drag's. */
    method MouseMove(client: Point)
      modifies this`size, this`position
      ensures old(resize.isResizing) ==> (size, position) == Resize(resize, client)
      ensures !resize.isResizing && drag.isDragging ==> position == DragTo(drag, client) && size == old(size)
      ensures !resize.isResizing && !drag.isDragging ==> position == old(position) && size == old(size)
    {
      if drag.isDragging {
        position := DragTo(drag, client);
      }
      if resize.isResizing {
        var (newSize, newPos) := Resize(resize, client);
        size, position := newSize, newPos;
      }
    }

    /** onMouseUp: both the drag and the resize end. */
    method MouseUp()
      modifies this`drag, this`resize
      ensures !drag.isDragging && !resize.isResizing
      ensures drag == old(drag).(isDragging := false) && resize == old(resize).(isResizing := false)
    {
      drag := drag.(isDragging := false);
      resize := resize.(isResizing := false);
    }
  }
}

=== FILE: collaborator_colors.dfy ===
/** The colours of a collaborator's avatar (components/CollaboratorAvatar.tsx) and cursor
    (components/CollaboratorCursor.tsx): both pick from a palette of five by the sum of the
    name's character codes. */
module CollaboratorColors {
  import opened Strings

  const AvatarColors: seq<string> := ["bg-red-500", "bg-green-500", "bg-purple-500", "bg-yellow-500", "bg-indigo-500"]

  const CursorColors: seq<string> := ["#FF6B6B", "#4ECDC4", "#45B7D1", "#F7D842", "#A9A9A9"]

  /** `name.split('').reduce((sum, c) => sum + c.charCodeAt(0), 0)`. */
  function CharCodeSum(name: string): nat
  {
    if name == [] then 0 else name[0] as nat + CharCodeSum(name[1..])
  }

  /** The palette position both components use. */
  function ColorIndex(name: string): (i: nat)
    ensures i < 5 && i == CharCodeSum(name) % 5
  {
    CharCodeSum(name) % 5
  }

  /** getColorForName of the avatar. */
  function AvatarColor(name: string): (r: string)
    ensures r in AvatarColors && r == AvatarColors[ColorIndex(name)]
  {
    AvatarColors[ColorIndex(name)]
  }

  /** getColorForName of the cursor. */
  function CursorColor(name: string): (r: string)
    ensures r in CursorColors && r == CursorColors[ColorIndex(name)]
  {
    CursorColors[ColorIndex(name)]
  }

  /** The letter on the avatar: the name's first character, upper-cased; nothing for an
      empty name. */
  function AvatarInitial(name: string): (r: string)
    ensures name == [] ==> r == []
    ensures name != [] ==> r == [UpperChar(name[0])]
  {
    InitialOf(name)
  }

  /** An empty name takes the first colour of each palette. */
  lemma EmptyNameColors()
    ensures AvatarColor("") == "bg-red-500" && CursorColor("") == "#FF6B6B"
  {
  }

  /** A collaborator's avatar and cursor sit at the same place in their palettes. */
  lemma AvatarMatchesCursor(name: string)
    ensures exists i :: 0 <= i < 5 && AvatarColor(name) == AvatarColors[i] && CursorColor(name) == CursorColors[i]
  {
    var i := ColorIndex(name);
    assert AvatarColor(name) == AvatarColors[i] && CursorColor(name) == CursorColors[i];
  }

  /** The sum of two names written one after the other is the sum of their sums: the
      reduce adds each character's code exactly once. */
  lemma {:induction false} SumAppend(a: string, b: string)
    ensures CharCodeSum(a + b) == CharCodeSum(a) + CharCodeSum(b)
  {
    if a != [] {
      assert (a + b)[1..] == a[1..] + b;
      SumAppend(a[1..], b);
    } else {
      assert a + b == b;
    }
  }

  /** Taking one character out of a name lowers its sum by that character's code. */
  lemma {:induction false} SumWithout(s: string, i: nat)
    requires i < |s|
    ensures CharCodeSum(s) == s[i] as nat + CharCodeSum(s[..i] + s[i + 1..])
  {
    if i > 0 {
      SumWithout(s[1..], i - 1);
      assert s[1..][..i - 1] + s[1..][i..] == (s[..i] + s[i + 1..])[1..];
    } else {
      assert s[..0] + s[1..] == s[1..];
    }
  }

  /** The sum depends only on which characters occur how often, not on their order. */
  lemma {:induction false} SumIgnoresOrder(a: string, b: string)
    requires multiset(a) == multiset(b)
    ensures CharCodeSum(a) == CharCodeSum(b)
    decreases |a|
  {
    if a == [] {
      assert |b| == |multiset(b)| == 0;
    } else {
      assert a[0] in multiset(b);
      var i :| 0 <= i < |b| && b[i] == a[0];
      SumWithout(b, i);
      var rest := b[..i] + b[i + 1..];
      assert b == b[..i] + [b[i]] + b[i + 1..];
      assert multiset(b) == multiset(rest) + multiset{a[0]} by {
        assert b[..i] + b[i + 1..] == rest;
        assert multiset(b) == multiset(b[..i]) + multiset{b[i]} + multiset(b[i + 1..]);
      }
      assert multiset(a) == multiset{a[0]} + multiset(a[1..]) by {
        assert a == [a[0]] + a[1..];
      }
      assert multiset(a[1..]) == multiset(rest) by {
        forall c ensures multiset(a[1..])[c] == multiset(rest)[c] {
          assert multiset(a)[c] == multiset(b)[c];
        }
      }
      SumIgnoresOrder(a[1..], rest);
    }
  }

  /** Names made of the same characters get the same avatar and cursor colours. */
  lemma ColorsIgnoreOrder(a: string, b: string)
    requires multiset(a) == multiset(b)
    ensures AvatarColor(a) == AvatarColor(b) && CursorColor(a) == CursorColor(b)
  {
    SumIgnoresOrder(a, b);
  }
}

=== FILE: desktop.dfy ===
/** The desktop shell (App.tsx): the Drive window's back/forward history, the three
    window records, the mail inbox, and the tutorial state the shell keeps. */
module Desktop {
  import opened Types
  import opened DriveSelect
  import opened GoogleDrive
  import opened Tutorial

  /** browserNavState: the visited folders (`None` is the root) and a cursor into them. */
  datatype NavState = NavState(history: seq<Option<string>>, currentIndex: int)

  /** The cursor points into the history. */
  predicate ValidNav(s: NavState)
  {
    0 <= s.currentIndex < |s.history|
  }

  /** The history the shell starts with: the root folder only. */
  const InitialNav: NavState := NavState([None], 0)

  /** navigate: the entries after the cursor are dropped, the folder is appended and
      becomes current. */
  function Navigate(s: NavState, folderId: Option<string>): (r: NavState)
    ensures ValidNav(r) && r.currentIndex == |r.history| - 1 && r.history[r.currentIndex] == folderId
    ensures 0 <= s.currentIndex < |s.history| ==> r.history[..r.currentIndex] == s.history[..s.currentIndex + 1]
  {
    var newHistory := JsSlice(s.history, 0, s.currentIndex + 1) + [folderId];
    NavState(newHistory, |newHistory| - 1)
  }

  /** goBack: one step back, never before the first entry. */
  function GoBack(s: NavState): (r: NavState)
    ensures r.history == s.history && 0 <= r.currentIndex
    ensures s.currentIndex > 0 ==> r.currentIndex == s.currentIndex - 1
  {
    s.(currentIndex := if 0 < s.currentIndex - 1 then s.currentIndex - 1 else 0)
  }

  /** goForward: one step forward, never past the last entry. */
  function GoForward(s: NavState): (r: NavState)
    ensures r.history == s.history && r.currentIndex <= |s.history| - 1
    ensures s.currentIndex < |s.history| - 1 ==> r.currentIndex == s.currentIndex + 1
  {
    s.(currentIndex := if |s.history| - 1 < s.currentIndex + 1 then |s.history| - 1 else s.currentIndex + 1)
  }

  /** currentFolderId. */
  function CurrentFolder(s: NavState): (r: Option<string>)
    requires ValidNav(s)
    ensures r in s.history
  {
    s.history[s.currentIndex]
  }

  /** isBackDisabled. */
  predicate BackDisabled(s: NavState): (r: bool)
    ensures s.currentIndex >= 0 ==> (r <==> GoBack(s) == s)
  {
    s.currentIndex == 0
  }

  /** isForwardDisabled. */
  predicate ForwardDisabled(s: NavState): (r: bool)
    ensures s.currentIndex <= |s.history| - 1 ==> (r <==> GoForward(s) == s)
  {
    s.currentIndex == |s.history| - 1
  }

  /** The history starts valid, at the root, with both buttons disabled. */
  lemma InitialNavState()
    ensures ValidNav(InitialNav) && CurrentFolder(InitialNav) == None
    ensures BackDisabled(InitialNav) && ForwardDisabled(InitialNav)
  {
  }

  /** navigate keeps the entries up to the cursor, makes the folder current, and leaves
      nothing to go forward to. */
  lemma NavigateSpec(s: NavState, folderId: Option<string>)
    requires ValidNav(s)
    ensures var t := Navigate(s, folderId);
            && ValidNav(t)
            && t.history == s.history[..s.currentIndex + 1] + [folderId]
            && CurrentFolder(t) == folderId
            && ForwardDisabled(t)
            && !BackDisabled(t)
  {
  }

  /** goBack and goForward keep the cursor inside the history, move it by one, and do
      nothing when their button is disabled. */
  lemma MoveSpec(s: NavState)
    requires ValidNav(s)
    ensures ValidNav(GoBack(s)) && ValidNav(GoForward(s))
    ensures GoBack(s).history == s.history && GoForward(s).history == s.history
    ensures BackDisabled(s) <==> GoBack(s) == s
    ensures ForwardDisabled(s) <==> GoForward(s) == s
    ensures !BackDisabled(s) ==> GoBack(s).currentIndex == s.currentIndex - 1
    ensures !ForwardDisabled(s) ==> GoForward(s).currentIndex == s.currentIndex + 1
  {
  }

  /** Going back and then forward returns to the same folder. */
  lemma BackThenForward(s: NavState)
    requires ValidNav(s) && !BackDisabled(s)
    ensures GoForward(GoBack(s)) == s
  {
  }

  /** A window record of the shell: open or not, and where it was last placed. */
  datatype WindowState = WindowState(isOpen: bool, pos: Point, size: Size)

  const InitialBrowserWindow: WindowState := WindowState(true, Point(150, 50), Size(1200, 720))
  const InitialExplorerWindow: WindowState := WindowState(false, Point(250, 150), Size(900, 600))
  const InitialMailWindow: WindowState := WindowState(false, Point(350, 100), Size(800, 640))

  /** `prev => ({ ...prev, isOpen: !prev.isOpen })`; opening and closing set the flag. */
  function Toggle(w: WindowState): (r: WindowState)
    ensures r.isOpen != w.isOpen && r.pos == w.pos && r.size == w.size
  {
    w.(isOpen := !w.isOpen)
  }

  /** Toggling twice restores the window record. */
  lemma ToggleTwice(w: WindowState)
    ensures Toggle(Toggle(w)) == w
  {
  }

  /** handleAddEmail: the draft becomes an unread e-mail in front of the inbox. */
  function AddEmail(prev: seq<Email>, draft: MailDraft, id: string, now: string): (r: seq<Email>)
    ensures |r| == |prev| + 1 && r[1..] == prev
    ensures r[0] == Email(id, draft.to, draft.subject, draft.body, now, false)
  {
    [Email(id, draft.to, draft.subject, draft.body, now, false)] + prev
  }

  /** unreadEmailCount. */
  function UnreadCount(emails: seq<Email>): (n: nat)
    ensures n <= |emails|
  {
    if emails == [] then 0 else (if emails[0].read then 0 else 1) + UnreadCount(emails[1..])
  }

  /** Every added e-mail raises the unread count by exactly one. */
  lemma AddEmailUnread(prev: seq<Email>, draft: MailDraft, id: string, now: string)
    ensures UnreadCount(AddEmail(prev, draft, id, now)) == UnreadCount(prev) + 1
  {
    assert AddEmail(prev, draft, id, now)[1..] == prev;
  }

  /** While a task is unfinished, the hint button's own `showHint` finds a hint, which the
      batched reset then discards: `HintClick` ends with none, `HintClickIntended` with it. */
  lemma HintClickDiscardsHint(s: GameState)
    requires !AllCompleted(Tasks, s)
    ensures ShowHint(None, Tasks, s).Some? && ShowHint(None, Tasks, s) != None
  {
  }

  class Shell {
    const drive: Drive
    var nav: NavState
    var emails: seq<Email>
    var browserWindow: WindowState
    var explorerWindow: WindowState
    var mailWindow: WindowState
    var hasCopiedLink: bool
    var hintTarget: Option<string>
    var evaluation: Option<EvaluationResult>

    /** The navigation cursor stays inside the history. */
    predicate Valid()
      reads this
    {
      ValidNav(nav)
    }

    /** The shell's first render, with the default window records. */
    constructor (drive: Drive)
      ensures Valid() && this.drive == drive
      ensures nav == InitialNav && emails == [] && !hasCopiedLink && hintTarget == None && evaluation == None
      ensures browserWindow == InitialBrowserWindow && explorerWindow == InitialExplorerWindow
      ensures mailWindow == InitialMailWindow
    {
      this.drive := drive;
      nav, emails := InitialNav, [];
      browserWindow, explorerWindow, mailWindow := InitialBrowserWindow, InitialExplorerWindow, InitialMailWindow;
      hasCopiedLink, hintTarget, evaluation := false, None, None;
    }

    /** What the task predicates see. */
    function Game(): GameState
      reads this, drive
    {
      GameState(drive.files, drive.sharedWith, hasCopiedLink)
    }

    /** The folder the Drive shows. */
    function CurrentFolderId(): Option<string>
      reads this
      requires Valid()
    {
      CurrentFolder(nav)
    }

    method NavigateTo(folderId: Option<string>)
      requires Valid()
      modifies this`nav
      ensures Valid() && nav == Navigate(old(nav), folderId) && CurrentFolderId() == folderId
    {
      NavigateSpec(nav, folderId);
      nav := Navigate(nav, folderId);
    }

    method Back()
      requires Valid()
      modifies this`nav
      ensures Valid() && nav == GoBack(old(nav))
    {
      MoveSpec(nav);
      nav := GoBack(nav);
    }

    method Forward()
      requires Valid()
      modifies this`nav
      ensures Valid() && nav == GoForward(old(nav))
    {
      MoveSpec(nav);
      nav := GoForward(nav);
    }

    method ReceiveEmail(draft: MailDraft, id: string, now: string)
      modifies this`emails
      ensures emails == AddEmail(old(emails), draft, id, now)
      ensures UnreadCount(emails) == UnreadCount(old(emails)) + 1
    {
      AddEmailUnread(emails, draft, id, now);
      emails := AddEmail(emails, draft, id, now);
    }

    /** The Drive is mounted only while its window is open, so opening a closed window
        mounts it afresh: its own state starts over and the desktop's lists stay. */
    method OpenBrowser()
      modifies this`browserWindow, drive
      ensures browserWindow == old(browserWindow).(isOpen := true)
      ensures old(browserWindow.isOpen) ==> unchanged(drive)
      ensures !old(browserWindow.isOpen) ==> drive.AtFirstRender()
      ensures drive.files == old(drive.files) && drive.sharedWith == old(drive.sharedWith)
      ensures drive.collaborators == old(drive.collaborators)
      ensures old(drive.Valid()) ==> drive.Valid()
    {
      if !browserWindow.isOpen {
        drive.Remount();
      }
      browserWindow := browserWindow.(isOpen := true);
    }

    /** Closing the window unmounts the Drive; what it held is gone once it is opened again. */
    method CloseBrowser()
      modifies this`browserWindow
      ensures browserWindow == old(browserWindow).(isOpen := false)
    {
      browserWindow := browserWindow.(isOpen := false);
    }

    method ToggleFileExplorer()
      modifies this`explorerWindow
      ensures explorerWindow == Toggle(old(explorerWindow))
    {
      explorerWindow := Toggle(explorerWindow);
    }

    method CloseFileExplorer()
      modifies this`explorerWindow
      ensures explorerWindow == old(explorerWindow).(isOpen := false)
    {
      explorerWindow := explorerWindow.(isOpen := false);
    }

    method ToggleMailApp()
      modifies this`mailWindow
      ensures mailWindow == Toggle(old(mailWindow))
    {
      mailWindow := Toggle(mailWindow);
    }

    method CloseMailApp()
      modifies this`mailWindow
      ensures mailWindow == old(mailWindow).(isOpen := false)
    {
      mailWindow := mailWindow.(isOpen := false);
    }

    /** `onCopyRestrictedLink`: completes the last task for good. */
    method CopyRestrictedLink()
      modifies this`hasCopiedLink
      ensures hasCopiedLink && IsCompleted(Tasks[5], Game())
    {
      hasCopiedLink := true;
    }

    /** showHint, as the inactivity timer runs it. */
    method ShowHintNow()
      modifies this`hintTarget
      ensures hintTarget == ShowHint(old(hintTarget), Tasks, Game())
    {
      hintTarget := ShowHint(hintTarget, Tasks, Game());
    }

    /** resetInactivityTimer: the hint disappears (rescheduling the timer is not modelled). */
    method ResetInactivity()
      modifies this`hintTarget
      ensures hintTarget == None
    {
      hintTarget := None;
    }

    /** handleHintClick as written: showHint and then resetInactivityTimer, whose
        updates are batched, so the reset's `null` is the value that stays. */
    method HintClick()
      modifies this`hintTarget
      ensures hintTarget == None
    {
      ShowHintNow();
      ResetInactivity();
    }

    /** handleHintClick as meant: the hint is shown, and only the inactivity timer
        starts over (the timer itself is not modelled). */
    method HintClickIntended()
      modifies this`hintTarget
      ensures hintTarget == ShowHint(old(hintTarget), Tasks, Game())
      ensures !AllCompleted(Tasks, Game()) ==> hintTarget.Some?
    {
      ShowHintNow();
    }

    /** handleCheckEvaluation: the result is stored for the result window and returned
        for the parent window. */
    method CheckEvaluationNow() returns (result: EvaluationResult)
      modifies this`evaluation
      ensures result.score == Score(Tasks, Game()) && result.maxScore == 100
      ensures result.details == Justification(Tasks, Game())
      ensures result.tasksCompleted == CompletedCount(Tasks, Game()) && result.totalTasks == 6
      ensures evaluation == Some(result)
    {
      var game := Game();
      result := CheckEvaluation(game);
      evaluation := Some(result);
    }
  }
}

=== FILE: details_panel.dfy ===
/** The details side panel of the Drive (components/DetailsPanel.tsx): relative times in
    the activity list, the comment box, and the total size of a multiple selection. */
module DetailsPanel {
  import opened Types
  import opened Strings

  /** Whole seconds between two instants given in milliseconds, rounded down as
      `Math.floor(ms / 1000)` does. */
  function DiffSeconds(nowMs: int, dateMs: int): (s: int)
    ensures 1000 * s <= nowMs - dateMs < 1000 * (s + 1)
  {
    (nowMs - dateMs) / 1000
  }

  /** How long ago something happened, as formatRelativeTime chooses to say it. */
  datatype Elapsed = SecondsAgo(seconds: int) | MinutesAgo(minutes: nat) | HoursAgo(hours: nat) | OnDate

  /** The bucket of a difference in seconds: seconds under a minute (a date in the future
      gives a negative count), whole minutes under an hour, whole hours under a day, and
      the calendar date from one day on. */
  function Bucket(diff: int): (r: Elapsed)
    ensures r.SecondsAgo? <==> diff < 60
    ensures r.SecondsAgo? ==> r.seconds == diff
    ensures r.MinutesAgo? <==> 60 <= diff < 3600
    ensures r.MinutesAgo? ==> 60 * r.minutes <= diff < 60 * (r.minutes + 1)
    ensures r.HoursAgo? <==> 3600 <= diff < 86400
    ensures r.HoursAgo? ==> 3600 * r.hours <= diff < 3600 * (r.hours + 1)
    ensures r.OnDate? <==> diff >= 86400
  {
    if diff < 60 then SecondsAgo(diff)
    else
      var minutes := diff / 60;
      if minutes < 60 then MinutesAgo(minutes)
      else
        var hours := minutes / 60;
        assert 3600 * hours <= diff < 3600 * (hours + 1) by {
          assert 60 * minutes <= diff < 60 * minutes + 60;
          assert 60 * hours <= minutes < 60 * hours + 60;
        }
        if hours < 24 then HoursAgo(hours) else OnDate
  }

  /** The text of a relative time; a date is written by the browser's locale formatting,
      which is not part of this model. */
  function ElapsedText(e: Elapsed): (r: Option<string>)
    ensures r.None? <==> e.OnDate?
    ensures e.SecondsAgo? ==> r == Some(IntToString(e.seconds) + "s ago")
    ensures e.MinutesAgo? ==> r == Some(NatToString(e.minutes) + "m ago")
    ensures e.HoursAgo? ==> r == Some(NatToString(e.hours) + "h ago")
  {
    match e
    case SecondsAgo(n) => Some(IntToString(n) + "s ago")
    case MinutesAgo(n) => Some(NatToString(n) + "m ago")
    case HoursAgo(n) => Some(NatToString(n) + "h ago")
    case OnDate => None
  }

  /** formatRelativeTime. */
  function FormatRelativeTime(nowMs: int, dateMs: int): (r: Option<string>)
    ensures r.None? <==> nowMs - dateMs >= 86_400_000
    ensures nowMs - dateMs < 60_000 ==> r == Some(IntToString((nowMs - dateMs) / 1000) + "s ago")
    ensures 60_000 <= nowMs - dateMs < 3_600_000 ==> r == Some(NatToString((nowMs - dateMs) / 60_000) + "m ago")
    ensures 3_600_000 <= nowMs - dateMs < 86_400_000 ==> r == Some(NatToString((nowMs - dateMs) / 3_600_000) + "h ago")
  {
    var x := nowMs - dateMs;
    var s := DiffSeconds(nowMs, dateMs);
    var e := Bucket(s);
    assert s < 60 <==> x < 60_000;
    assert s < 3600 <==> x < 3_600_000;
    assert s < 86400 <==> x < 86_400_000;
    if e.MinutesAgo? then
      assert 60_000 * e.minutes <= 1000 * s && 1000 * (s + 1) <= 60_000 * (e.minutes + 1);
      DivUnique(x, 60_000, e.minutes);
      ElapsedText(e)
    else if e.HoursAgo? then
      assert 3_600_000 * e.hours <= 1000 * s && 1000 * (s + 1) <= 3_600_000 * (e.hours + 1);
      DivUnique(x, 3_600_000, e.hours);
      ElapsedText(e)
    else
      ElapsedText(e)
  }

  /** The quotient of `Math.floor(x / d)` is the only `q` with `d * q <= x < d * (q + 1)`. */
  lemma DivUnique(x: int, d: int, q: int)
    requires d > 0 && d * q <= x < d * (q + 1)
    ensures x / d == q
  {
    var k := x / d;
    assert d * k <= x < d * (k + 1);
    MulCancel(d, q, k + 1);
    MulCancel(d, k, q + 1);
  }

  lemma MulCancel(d: int, a: int, b: int)
    requires d > 0 && d * a < d * b
    ensures a < b
  {
  }

  /** Some typical readings: 59.9 seconds is still seconds, 90 seconds is one minute,
      two hours and a bit is two hours, a day or more is a date. */
  lemma RelativeTimeExamples()
    ensures FormatRelativeTime(59_999, 0) == Some("59s ago")
    ensures FormatRelativeTime(90_000, 0) == Some("1m ago")
    ensures FormatRelativeTime(7_500_000, 0) == Some("2h ago")
    ensures FormatRelativeTime(86_400_000, 0).None?
  {
    assert DiffSeconds(59_999, 0) == 59;
    assert NatToString(59) == "59";
    assert IntToString(59) + "s ago" == "59s ago";
    assert DiffSeconds(90_000, 0) == 90;
    assert Bucket(90) == MinutesAgo(1);
    assert NatToString(1) + "m ago" == "1m ago";
    assert DiffSeconds(7_500_000, 0) == 7500;
    assert Bucket(7500) == HoursAgo(2);
    assert NatToString(2) + "h ago" == "2h ago";
  }

  /** The activity a comment is logged as. */
  function CommentAction(comment: string): (r: string)
    ensures |r| == |comment| + 13 && r[12..|r| - 1] == comment
    ensures r[..12] == "Commented: \"" && r[|r| - 1] == '"'
  {
    "Commented: \"" + comment + "\""
  }

  /** The total size shown for several selected files. */
  function TotalSize(files: seq<FileItem>): (r: nat)
    ensures files == [] ==> r == 0
    ensures forall i :: 0 <= i < |files| ==> files[i].size <= r
  {
    if files == [] then 0 else files[0].size + TotalSize(files[1..])
  }

  /** The total of a list split in two is the sum of the parts' totals. */
  lemma {:induction false} TotalSizeAppend(a: seq<FileItem>, b: seq<FileItem>)
    ensures TotalSize(a + b) == TotalSize(a) + TotalSize(b)
  {
    if a != [] {
      assert (a + b)[1..] == a[1..] + b;
      TotalSizeAppend(a[1..], b);
    } else {
      assert a + b == b;
    }
  }

  /** The comment box of the activity tab. */
  class CommentBox {
    var comment: string

    constructor ()
      ensures comment == []
    {
      comment := [];
    }

    method Edit(value: string)
      modifies this`comment
      ensures comment == value
    {
      comment := value;
    }

    /** handleCommentSubmit: Enter with something besides blanks logs the trimmed comment
        on every selected file and empties the box; any other key changes nothing. */
    method KeyDown(key: string, selectedFiles: seq<FileItem>) returns (log: Option<(seq<string>, string)>)
      modifies this`comment
      ensures key == "Enter" && Trim(old(comment)) != [] ==>
                log == Some((Ids(selectedFiles), CommentAction(Trim(old(comment))))) && comment == []
      ensures !(key == "Enter" && Trim(old(comment)) != []) ==> log.None? && comment == old(comment)
    {
      if key == "Enter" && Trim(comment) != [] {
        log := Some((Ids(selectedFiles), CommentAction(Trim(comment))));
        comment := [];
      } else {
        log := None;
      }
    }
  }
}

=== FILE: drive_files.dfy ===
/** The Drive's operations on its list of file records (components/GoogleDrive.tsx):
    every React `setFiles(prev => next)` updater is a function from the old list to
    the new one. Time stamps (`new Date().toISOString()`) arrive as `now`, and the
    ids made from the clock and `Math.random()` arrive as `newIds`. */
module DriveFiles {
  import opened Types

  /** `files.map(file => ids.includes(file.id) ? { ...file, ...update(file) } : file)`,
      the shape shared by handleItemsAction, logActivity, rename and ownership transfer. */
  function ItemsAction(files: seq<FileItem>, ids: seq<string>, update: FileItem -> FileItem): (r: seq<FileItem>)
    ensures |r| == |files|
    ensures forall i :: 0 <= i < |files| && files[i].id !in ids ==> r[i] == files[i]
    ensures forall i :: 0 <= i < |files| && files[i].id in ids ==> r[i] == update(files[i])
  {
    seq(|files|, i requires 0 <= i < |files| => if files[i].id in ids then update(files[i]) else files[i])
  }

  /** logActivity: the selected files get `{action, date: now}` in front of their history. */
  function LogActivity(files: seq<FileItem>, ids: seq<string>, action: string, now: string): (r: seq<FileItem>)
    ensures |r| == |files|
    ensures forall i :: 0 <= i < |files| ==> r[i].id == files[i].id
    ensures forall i :: 0 <= i < |files| && files[i].id !in ids ==> r[i] == files[i]
    ensures forall i :: 0 <= i < |files| && files[i].id in ids ==>
              r[i].activity == [ActivityLog(action, now)] + files[i].activity
              && r[i] == files[i].(activity := r[i].activity)
  {
    ItemsAction(files, ids, (f: FileItem) => f.(activity := [ActivityLog(action, now)] + f.activity))
  }

  /** handleDeleteItems (`flag` true) and handleRestoreItems (`flag` false). */
  function SetTrash(files: seq<FileItem>, ids: seq<string>, flag: bool, now: string): (r: seq<FileItem>)
    ensures |r| == |files|
    ensures forall i :: 0 <= i < |files| && files[i].id !in ids ==> r[i] == files[i]
    ensures forall i :: 0 <= i < |files| && files[i].id in ids ==>
              r[i].isInTrash == flag && r[i].modified == now
              && r[i] == files[i].(isInTrash := flag, modified := now)
  {
    ItemsAction(files, ids, (f: FileItem) => f.(isInTrash := flag, modified := now))
  }

  /** Restoring what was just moved to the trash gives back every trash flag,
      provided none of the selected files was in the trash before. */
  lemma RestoreUndoesDelete(files: seq<FileItem>, ids: seq<string>, now: string, later: string)
    requires forall i :: 0 <= i < |files| && files[i].id in ids ==> !files[i].isInTrash
    ensures var r := SetTrash(SetTrash(files, ids, true, now), ids, false, later);
            |r| == |files|
            && forall i :: 0 <= i < |files| ==>
                 r[i].isInTrash == files[i].isInTrash
                 && (files[i].id !in ids ==> r[i] == files[i])
                 && (files[i].id in ids ==> r[i] == files[i].(modified := later))
  {
  }

  /** Number of files whose id is among `ids`. */
  function CountIn(files: seq<FileItem>, ids: seq<string>): (n: nat)
    ensures n <= |files|
  {
    if files == [] then 0 else (if files[0].id in ids then 1 else 0) + CountIn(files[1..], ids)
  }

  /** handleDeleteForever: `files.filter(f => !selectedFileIds.includes(f.id))`. */
  function DeleteForever(files: seq<FileItem>, ids: seq<string>): (r: seq<FileItem>)
    ensures forall f :: f in r <==> f in files && f.id !in ids
    ensures Embeds(r, files)
    ensures |r| == |files| - CountIn(files, ids)
  {
    if files == [] then []
    else
      var rest := DeleteForever(files[1..], ids);
      if files[0].id in ids then
        rest
      else
        var r := [files[0]] + rest;
        assert r[1..] == rest;
        r
  }

  /** Deleting forever removes every selected file and nothing that was not selected. */
  lemma DeleteForeverExact(files: seq<FileItem>, ids: seq<string>, id: string)
    ensures id in ids ==> !HasId(DeleteForever(files, ids), id)
    ensures id !in ids ==> (HasId(DeleteForever(files, ids), id) <==> HasId(files, id))
  {
    var r := DeleteForever(files, ids);
    if HasId(r, id) {
      var i :| 0 <= i < |r| && r[i].id == id;
      assert r[i] in r;
    }
    if id !in ids && HasId(files, id) {
      var i :| 0 <= i < |files| && files[i].id == id;
      assert files[i] in files;
      var j :| 0 <= j < |r| && r[j] == files[i];
    }
  }

  /** handleStarItems: every selected file's star flag is flipped on its own. */
  function ToggleStar(files: seq<FileItem>, ids: seq<string>): (r: seq<FileItem>)
    ensures |r| == |files|
    ensures forall i :: 0 <= i < |files| && files[i].id !in ids ==> r[i] == files[i]
    ensures forall i :: 0 <= i < |files| && files[i].id in ids ==>
              r[i] == files[i].(isStarred := !files[i].isStarred)
  {
    ItemsAction(files, ids, (f: FileItem) => f.(isStarred := !f.isStarred))
  }

  /** Toggling the same selection twice restores the list. */
  lemma ToggleStarTwice(files: seq<FileItem>, ids: seq<string>)
    ensures ToggleStar(ToggleStar(files, ids), ids) == files
  {
    var r := ToggleStar(ToggleStar(files, ids), ids);
    assert forall i :: 0 <= i < |files| ==> r[i] == files[i];
  }

  /** The activity text logged by handleStarItems: it is decided by the first
      selected file alone, and is 'Unstarred item' when that file is not found. */
  function StarActionLabel(files: seq<FileItem>, selected: seq<string>): (r: string)
    ensures r == "Starred item" <==>
              selected != [] && FindById(files, selected[0]).Some? && !FindById(files, selected[0]).value.isStarred
    ensures r == "Starred item" || r == "Unstarred item"
  {
    var first := if selected == [] then None else FindById(files, selected[0]);
    if first.Some? && !first.value.isStarred then "Starred item" else "Unstarred item"
  }

  /** The record handleCopyItems builds for one original. */
  function CopyOf(original: FileItem, newId: string, now: string): (c: FileItem)
    ensures c.id == newId && c.name == "Copy of " + original.name
    ensures c.activity == [ActivityLog("Created as a copy", now)] && c.modified == now
    ensures c.(id := original.id, name := original.name, modified := original.modified,
               activity := original.activity) == original
  {
    original.(id := newId, name := "Copy of " + original.name, modified := now,
              activity := [ActivityLog("Created as a copy", now)])
  }

  /** One step of the forEach loop in handleCopyItems. */
  function CopyStep(files: seq<FileItem>, id: string, newId: string, now: string): seq<FileItem>
  {
    match FindById(files, id)
    case Some(o) => [CopyOf(o, newId, now)]
    case None => []
  }

  /** The copies of the selected ids that exist in `files`, in selection order;
      the i-th selected id gets the i-th fresh id. */
  function CopiesFor(files: seq<FileItem>, ids: seq<string>, newIds: seq<string>, now: string): seq<FileItem>
    requires |newIds| == |ids|
  {
    if ids == [] then []
    else
      var n := |ids| - 1;
      CopiesFor(files, ids[..n], newIds[..n], now) + CopyStep(files, ids[n], newIds[n], now)
  }

  /** CopiesFor grows one selected id at a time from the end, as the loop does. */
  lemma CopiesForSnoc(files: seq<FileItem>, ids: seq<string>, newIds: seq<string>, now: string, i: nat)
    requires |newIds| == |ids| && i < |ids|
    ensures CopiesFor(files, ids[..i + 1], newIds[..i + 1], now)
            == CopiesFor(files, ids[..i], newIds[..i], now) + CopyStep(files, ids[i], newIds[i], now)
  {
    assert ids[..i + 1][..i] == ids[..i] && newIds[..i + 1][..i] == newIds[..i];
  }

  /** handleCopyItems' loop: push a copy for every selected id found in `files`. */
  method MakeCopies(files: seq<FileItem>, ids: seq<string>, newIds: seq<string>, now: string)
    returns (copies: seq<FileItem>)
    requires |newIds| == |ids|
    ensures copies == CopiesFor(files, ids, newIds, now)
  {
    copies := [];
    var i := 0;
    while i < |ids|
      invariant 0 <= i <= |ids|
      invariant copies == CopiesFor(files, ids[..i], newIds[..i], now)
    {
      var original := FindById(files, ids[i]);
      if original.Some? {
        copies := copies + [CopyOf(original.value, newIds[i], now)];
      }
      CopiesForSnoc(files, ids, newIds, now, i);
      i := i + 1;
    }
    assert ids[..i] == ids && newIds[..i] == newIds;
  }

  /** Number of selected ids that name an existing file. */
  function CountFound(files: seq<FileItem>, ids: seq<string>): (n: nat)
    ensures n <= |ids|
    ensures n == |ids| <==> forall k :: 0 <= k < |ids| ==> HasId(files, ids[k])
    ensures n == 0 <==> forall k :: 0 <= k < |ids| ==> !HasId(files, ids[k])
  {
    if ids == [] then 0
    else CountFound(files, ids[..|ids| - 1]) + (if HasId(files, ids[|ids| - 1]) then 1 else 0)
  }

  /** One copy per selected id that exists; each copy is an original of `files`
      under a fresh id taken from `newIds`, renamed "Copy of ..." with a single
      'Created as a copy' history entry. */
  lemma {:induction false} CopiesShape(files: seq<FileItem>, ids: seq<string>, newIds: seq<string>, now: string)
    requires |newIds| == |ids|
    ensures |CopiesFor(files, ids, newIds, now)| == CountFound(files, ids)
    ensures forall c :: c in CopiesFor(files, ids, newIds, now) ==>
              c.id in newIds && exists i :: 0 <= i < |files| && c == CopyOf(files[i], c.id, now)
    ensures forall c :: c in CopiesFor(files, ids, newIds, now) ==>
              exists j :: 0 <= j < |ids| && HasId(files, ids[j]) && c == CopyOf(FindById(files, ids[j]).value, newIds[j], now)
  {
    CopiesOfSelected(files, ids, newIds, now);
    if ids != [] {
      var n := |ids| - 1;
      CopiesShape(files, ids[..n], newIds[..n], now);
      var pre := CopiesFor(files, ids[..n], newIds[..n], now);
      var step := CopyStep(files, ids[n], newIds[n], now);
      var found := FindById(files, ids[n]);
      assert found.Some? <==> HasId(files, ids[n]);
      assert |step| == if found.Some? then 1 else 0;
      forall c: FileItem | c in pre + step
        ensures c.id in newIds && exists i :: 0 <= i < |files| && c == CopyOf(files[i], c.id, now)
      {
        if c in pre {
          assert c.id in newIds[..n];
        } else {
          var i :| 0 <= i < |files| && files[i] == found.value;
          assert c == CopyOf(files[i], newIds[n], now);
        }
      }
    }
  }

  /** Every copy is the copy of a selected file under the fresh id paired with its id. */
  lemma {:induction false} CopiesOfSelected(files: seq<FileItem>, ids: seq<string>, newIds: seq<string>, now: string)
    requires |newIds| == |ids|
    ensures forall c :: c in CopiesFor(files, ids, newIds, now) ==>
              exists j :: 0 <= j < |ids| && HasId(files, ids[j]) && c == CopyOf(FindById(files, ids[j]).value, newIds[j], now)
  {
    if ids != [] {
      var n := |ids| - 1;
      CopiesOfSelected(files, ids[..n], newIds[..n], now);
      var pre := CopiesFor(files, ids[..n], newIds[..n], now);
      var step := CopyStep(files, ids[n], newIds[n], now);
      forall c: FileItem | c in pre + step
        ensures exists j :: 0 <= j < |ids| && HasId(files, ids[j]) && c == CopyOf(FindById(files, ids[j]).value, newIds[j], now)
      {
        if c in pre {
          var j :| 0 <= j < n && HasId(files, ids[..n][j]) && c == CopyOf(FindById(files, ids[..n][j]).value, newIds[..n][j], now);
          assert ids[..n][j] == ids[j] && newIds[..n][j] == newIds[j];
        } else {
          assert c == CopyOf(FindById(files, ids[n]).value, newIds[n], now);
        }
      }
    }
  }

  /** When every selected id exists, the k-th copy is the copy of the k-th selected file
      under the k-th fresh id. */
  lemma {:induction false} CopiesInOrder(files: seq<FileItem>, ids: seq<string>, newIds: seq<string>, now: string)
    requires |newIds| == |ids|
    requires forall k :: 0 <= k < |ids| ==> FindById(files, ids[k]).Some?
    ensures |CopiesFor(files, ids, newIds, now)| == |ids|
    ensures forall k :: 0 <= k < |ids| ==>
              CopiesFor(files, ids, newIds, now)[k] == CopyOf(FindById(files, ids[k]).value, newIds[k], now)
  {
    if ids != [] {
      var n := |ids| - 1;
      var ids', newIds' := ids[..n], newIds[..n];
      assert forall k :: 0 <= k < |ids'| ==> FindById(files, ids'[k]).Some? by {
        forall k | 0 <= k < |ids'| ensures FindById(files, ids'[k]).Some? { assert ids'[k] == ids[k]; }
      }
      CopiesInOrder(files, ids', newIds', now);
      var pre := CopiesFor(files, ids', newIds', now);
      var last := CopyOf(FindById(files, ids[n]).value, newIds[n], now);
      var r := pre + [last];
      assert CopyStep(files, ids[n], newIds[n], now) == [last];
      assert CopiesFor(files, ids, newIds, now) == pre + CopyStep(files, ids[n], newIds[n], now);
      forall k | 0 <= k < |ids| ensures r[k] == CopyOf(FindById(files, ids[k]).value, newIds[k], now) {
        if k < n {
          var id, newId := ids'[k], newIds'[k];
          assert id == ids[k] && newId == newIds[k];
          assert r[k] == pre[k] == CopyOf(FindById(files, id).value, newId, now);
        } else {
          assert r[k] == last;
        }
      }
    }
  }

  /** When the fresh ids are not ids of existing files, no copy reuses an existing id. */
  lemma CopiesHaveFreshIds(files: seq<FileItem>, ids: seq<string>, newIds: seq<string>, now: string)
    requires |newIds| == |ids|
    requires forall k :: 0 <= k < |newIds| ==> !HasId(files, newIds[k])
    ensures forall c :: c in CopiesFor(files, ids, newIds, now) ==> !HasId(files, c.id)
  {
    CopiesShape(files, ids, newIds, now);
  }

  /** handleRenameFile's update of the renamed file (the activity entry is logged separately). */
  function Rename(files: seq<FileItem>, fileId: string, newName: string, now: string): (r: seq<FileItem>)
    ensures |r| == |files|
    ensures forall i :: 0 <= i < |files| && files[i].id != fileId ==> r[i] == files[i]
    ensures forall i :: 0 <= i < |files| && files[i].id == fileId ==>
              r[i] == files[i].(name := newName, modified := now)
  {
    ItemsAction(files, [fileId], (f: FileItem) => f.(name := newName, modified := now))
  }

  /** The activity text of a rename: `Renamed to "<name>"`. */
  function RenameLabel(newName: string): (r: string)
    ensures |r| == |newName| + 13
    ensures r[..12] == "Renamed to \"" && r[12..|r| - 1] == newName && r[|r| - 1] == '"'
  {
    "Renamed to \"" + newName + "\""
  }

  /** handleTransferOwnership's update of the single selected file. */
  function TransferOwnership(files: seq<FileItem>, fileId: string, newOwner: string): (r: seq<FileItem>)
    ensures |r| == |files|
    ensures forall i :: 0 <= i < |files| && files[i].id != fileId ==> r[i] == files[i]
    ensures forall i :: 0 <= i < |files| && files[i].id == fileId ==> r[i] == files[i].(owner := newOwner)
  {
    ItemsAction(files, [fileId], (f: FileItem) => f.(owner := newOwner))
  }

  /** The activity text of a transfer; an unknown file's former owner prints as "undefined". */
  function TransferLabel(files: seq<FileItem>, fileId: string, newOwner: string): (r: string)
    ensures HasId(files, fileId) ==>
              r == "Transferred ownership from " + FindById(files, fileId).value.owner + " to " + newOwner
    ensures !HasId(files, fileId) ==> r == "Transferred ownership from undefined to " + newOwner
  {
    var former := match FindById(files, fileId)
                  case Some(f) => f.owner
                  case None => "undefined";
    "Transferred ownership from " + former + " to " + newOwner
  }

  /** The folder handleCreateFolder appends (before logActivity adds a second 'Created'). */
  function NewFolder(id: string, name: string, parentId: Option<string>, now: string): (f: FileItem)
    ensures f.kind == Folder && f.owner == CurrentUser && f.parentId == parentId
    ensures !f.isInTrash && !f.isStarred && f.size == 0 && !f.isUploading
    ensures f.id == id && f.name == name && f.modified == now
    ensures f.activity == [ActivityLog("Created", now)]
    ensures f.previewUrl.None? && f.uploadProgress.None? && f.versions.None?
  {
    FileItem(id, name, Folder, CurrentUser, now, None, parentId, false, 0, false,
             [ActivityLog("Created", now)], false, None, None)
  }

  /** The document handleFileUpload appends: uploading, at 0 percent. */
  function NewUpload(id: string, name: string, size: nat, parentId: Option<string>, now: string): (f: FileItem)
    ensures f.kind == Doc && f.owner == CurrentUser && f.parentId == parentId && f.size == size
    ensures f.id == id && f.name == name && f.modified == now
    ensures !f.isInTrash && !f.isStarred && f.activity == [ActivityLog("Created", now)]
    ensures f.isUploading && f.uploadProgress == Some(0)
    ensures f.previewUrl == Some("https://i.imgur.com/4z1q2h1.png") && f.versions.None?
  {
    FileItem(id, name, Doc, CurrentUser, now, Some("https://i.imgur.com/4z1q2h1.png"), parentId, false, size, false,
             [ActivityLog("Created", now)], true, Some(0), None)
  }

  /** What handleCreateFolder leaves: the old files, where only one carrying the same id
      logs a 'Created', then the new folder with the typed name, its 'Created' entry
      logged twice. */
  lemma CreatedFolderAppended(files: seq<FileItem>, id: string, name: string, parentId: Option<string>, now: string)
    ensures var r := LogActivity(files + [NewFolder(id, name, parentId, now)], [id], "Created", now);
            |r| == |files| + 1
            && r[|files|].id == id && r[|files|].name == name && r[|files|].kind == Folder
            && r[|files|].parentId == parentId && r[|files|].modified == now
            && r[|files|].activity == [ActivityLog("Created", now), ActivityLog("Created", now)]
            && forall i :: 0 <= i < |files| && files[i].id != id ==> r[i] == files[i]
  {
    var s := files + [NewFolder(id, name, parentId, now)];
    assert s[|files|] == NewFolder(id, name, parentId, now);
    assert forall i :: 0 <= i < |files| ==> s[i] == files[i];
  }

  /** One tick of the upload interval on one record. */
  function TickFile(f: FileItem, id: string): (g: FileItem)
    ensures f.id != id || f.uploadProgress.None? || f.uploadProgress.value >= 100 ==> g == f
    ensures f.id == id && f.uploadProgress.Some? && f.uploadProgress.value < 100 ==>
              g.uploadProgress == Some(if f.uploadProgress.value + 10 >= 100 then 100 else f.uploadProgress.value + 10)
              && g.isUploading == (f.uploadProgress.value + 10 < 100 && f.isUploading)
              && g == f.(uploadProgress := g.uploadProgress, isUploading := g.isUploading)
  {
    if f.id == id && f.uploadProgress.Some? && f.uploadProgress.value < 100 then
      var p := f.uploadProgress.value + 10;
      if p >= 100 then f.(uploadProgress := Some(100), isUploading := false)
      else f.(uploadProgress := Some(p))
    else f
  }

  /** One tick of the upload interval: +10 percent, capped at 100, which ends the upload. */
  function UploadTick(files: seq<FileItem>, id: string): (r: seq<FileItem>)
    ensures |r| == |files|
    ensures forall i :: 0 <= i < |files| ==> r[i] == TickFile(files[i], id)
  {
    seq(|files|, i requires 0 <= i < |files| => TickFile(files[i], id))
  }

  /** The tick that takes the upload to 100 percent; it also stops the interval and
      logs 'Uploaded item'. */
  predicate UploadFinishes(files: seq<FileItem>, id: string)
  {
    exists i :: 0 <= i < |files| && files[i].id == id && files[i].uploadProgress.Some?
                && 90 <= files[i].uploadProgress.value < 100
  }

  /** `n` ticks of the interval on one record. */
  function Ticks(f: FileItem, id: string, n: nat): (r: FileItem)
    ensures r == f.(uploadProgress := r.uploadProgress, isUploading := r.isUploading)
    ensures r.isUploading ==> f.isUploading
    ensures f.id != id ==> r == f
  {
    if n == 0 then f else TickFile(Ticks(f, id, n - 1), id)
  }

  /** A fresh upload reads 10 percent per tick and is still uploading until the
      tenth tick, which reaches 100 percent and ends it; later ticks change nothing. */
  lemma {:induction false} UploadProgression(f: FileItem, n: nat)
    requires f.uploadProgress == Some(0) && f.isUploading
    ensures n < 10 ==> Ticks(f, f.id, n) == f.(uploadProgress := Some(10 * n))
    ensures n >= 10 ==> Ticks(f, f.id, n) == f.(uploadProgress := Some(100), isUploading := false)
  {
    if n > 0 {
      UploadProgression(f, n - 1);
    }
  }
}

=== FILE: drive_select.dfy ===
/** Selection, the recently-opened list and the share bookkeeping of the Drive
    (components/GoogleDrive.tsx: `handleFileSelect`, `handleDoubleClick`,
    `handleShare`, `selectedFiles`, `activeCollaborators`). */
module DriveSelect {
  import opened Types
  import opened Strings

  /** `items.findIndex(item => item.id === id)`: -1 when absent. */
  function FindIndex(items: seq<FileItem>, id: string): (r: int)
    ensures -1 <= r < |items|
    ensures r == -1 <==> !HasId(items, id)
    ensures r >= 0 ==> items[r].id == id && forall j :: 0 <= j < r ==> items[j].id != id
  {
    IndexFrom(items, id, 0)
  }

  /** The search of `findIndex` from position `from` on. */
  function IndexFrom(items: seq<FileItem>, id: string, from: nat): (r: int)
    requires from <= |items|
    ensures r == -1 || from <= r < |items|
    ensures r == -1 <==> forall j :: from <= j < |items| ==> items[j].id != id
    ensures r >= 0 ==> items[r].id == id && forall j :: from <= j < r ==> items[j].id != id
    decreases |items| - from
  {
    if from == |items| then -1
    else if items[from].id == id then from
    else IndexFrom(items, id, from + 1)
  }

  /** How `Array.prototype.slice` resolves an index: negative counts from the end,
      then clamped to the length. */
  function SliceIndex(len: nat, k: int): (r: nat)
    ensures r <= len
    ensures 0 <= k <= len ==> r == k
    ensures k > len ==> r == len
    ensures k < 0 ==> r == if len + k < 0 then 0 else len + k
  {
    if k < 0 then (if len + k < 0 then 0 else len + k)
    else if k > len then len
    else k
  }

  /** `s.slice(start, end)`. */
  function JsSlice<T>(s: seq<T>, start: int, end: int): (r: seq<T>)
    ensures 0 <= start <= end <= |s| ==> r == s[start..end]
    ensures SliceIndex(|s|, end) <= SliceIndex(|s|, start) ==> r == []
    ensures forall x :: x in r ==> x in s
    ensures |r| <= |s|
  {
    var a, b := SliceIndex(|s|, start), SliceIndex(|s|, end);
    if b <= a then [] else s[a..b]
  }

  /** `items.slice(start, end + 1)` between two `findIndex` results, taken in either order. */
  function RangeSlice(items: seq<FileItem>, a: int, b: int): (r: seq<FileItem>)
    ensures forall x :: x in r ==> x in items
    ensures |r| <= |items|
    ensures 0 <= a < |items| && 0 <= b < |items| ==>
              r == items[(if a < b then a else b)..(if a < b then b else a) + 1]
  {
    var start := if a < b then a else b;
    var end := if a < b then b else a;
    JsSlice(items, start, end + 1)
  }

  /** The ids selected by a shift-click: from the anchor to the clicked item, both included. */
  function RangeIds(items: seq<FileItem>, anchor: string, id: string): (r: seq<string>)
    ensures |r| <= |items|
    ensures forall x :: x in r ==> HasId(items, x)
  {
    var s := RangeSlice(items, FindIndex(items, anchor), FindIndex(items, id));
    forall x | x in Ids(s) ensures HasId(items, x) {
      var k :| 0 <= k < |s| && Ids(s)[k] == x;
      assert s[k] in s;
      var m :| 0 <= m < |items| && items[m] == s[k];
      assert items[m].id == x;
    }
    Ids(s)
  }

  /** With both ends displayed, the range is every displayed id between them. */
  lemma RangeBetween(items: seq<FileItem>, anchor: string, id: string)
    requires HasId(items, anchor) && HasId(items, id)
    ensures var i, j := FindIndex(items, anchor), FindIndex(items, id);
            var lo, hi := if i < j then i else j, if i < j then j else i;
            && RangeIds(items, anchor, id) == Ids(items[lo..hi + 1])
            && |RangeIds(items, anchor, id)| == hi - lo + 1
            && anchor in RangeIds(items, anchor, id) && id in RangeIds(items, anchor, id)
  {
    RangeOfIndices(items, FindIndex(items, anchor), FindIndex(items, id));
  }

  /** The range between two positions of the list holds every item between them and both
      ends. */
  lemma RangeOfIndices(items: seq<FileItem>, i: int, j: int)
    requires 0 <= i < |items| && 0 <= j < |items|
    ensures var lo, hi := if i < j then i else j, if i < j then j else i;
            && Ids(RangeSlice(items, i, j)) == Ids(items[lo..hi + 1])
            && |Ids(RangeSlice(items, i, j))| == hi - lo + 1
            && items[i].id in Ids(RangeSlice(items, i, j)) && items[j].id in Ids(RangeSlice(items, i, j))
  {
    var lo, hi := if i < j then i else j, if i < j then j else i;
    var slice := items[lo..hi + 1];
    assert RangeSlice(items, i, j) == slice;
    var r := Ids(slice);
    assert slice[i - lo] == items[i] && r[i - lo] == items[i].id;
    assert slice[j - lo] == items[j] && r[j - lo] == items[j].id;
  }

  /** An anchor that is no longer displayed makes `findIndex` return -1, and the slice
      then starts at the last item: the range is empty unless the clicked item is last. */
  lemma RangeStaleAnchor(items: seq<FileItem>, anchor: string, id: string)
    requires !HasId(items, anchor) && HasId(items, id)
    ensures FindIndex(items, id) < |items| - 1 ==> RangeIds(items, anchor, id) == []
    ensures FindIndex(items, id) == |items| - 1 ==> RangeIds(items, anchor, id) == [id]
  {
  }

  /** `prev.filter(x => x !== id)`. */
  function Without(s: seq<string>, id: string): (r: seq<string>)
    ensures forall x :: x in r <==> x in s && x != id
    ensures |r| <= |s|
    ensures Embeds(r, s)
    ensures multiset(r) == multiset(s)[id := 0]
  {
    if s == [] then []
    else
      assert s == [s[0]] + s[1..];
      if s[0] == id then Without(s[1..], id)
      else
        var rest := Without(s[1..], id);
        assert ([s[0]] + rest)[1..] == rest;
        [s[0]] + rest
  }

  /** Ctrl-click: remove the id when selected, append it otherwise. */
  function ToggleSelected(prev: seq<string>, id: string): (r: seq<string>)
    ensures id in r <==> id !in prev
    ensures forall x :: x != id ==> (x in r <==> x in prev)
    ensures id !in prev ==> r == prev + [id]
    ensures id in prev ==> Embeds(r, prev) && multiset(r) == multiset(prev)[id := 0]
  {
    if id in prev then Without(prev, id) else prev + [id]
  }

  /** Two ctrl-clicks on an unselected item give the selection back. */
  lemma ToggleSelectedTwice(prev: seq<string>, id: string)
    requires id !in prev
    ensures ToggleSelected(ToggleSelected(prev, id), id) == prev
  {
    WithoutAbsentLast(prev, id);
  }

  lemma {:induction false} WithoutAbsentLast(s: seq<string>, id: string)
    requires id !in s
    ensures Without(s + [id], id) == s
  {
    if s != [] {
      assert (s + [id])[1..] == s[1..] + [id];
      WithoutAbsentLast(s[1..], id);
    }
  }

  /** The selection and the shift-click anchor of the Drive. */
  datatype Selection = Selection(ids: seq<string>, lastClicked: Option<string>)

  /** `lastClickedId` tested for truthiness: null and the empty string are false. */
  predicate HasAnchor(sel: Selection)
  {
    sel.lastClicked.Some? && sel.lastClicked.value != []
  }

  /** `handleFileSelect` on the selection: shift with an anchor selects a range and keeps
      the anchor; ctrl (or meta) toggles; a plain click selects only the item. */
  function Click(sel: Selection, items: seq<FileItem>, id: string, shift: bool, ctrlOrMeta: bool): (r: Selection)
    ensures shift && HasAnchor(sel) ==> r == Selection(RangeIds(items, sel.lastClicked.value, id), sel.lastClicked)
    ensures !(shift && HasAnchor(sel)) ==> r.lastClicked == Some(id)
    ensures !(shift && HasAnchor(sel)) && ctrlOrMeta ==> (id in r.ids <==> id !in sel.ids)
    ensures !(shift && HasAnchor(sel)) && ctrlOrMeta ==> r == Selection(ToggleSelected(sel.ids, id), Some(id))
    ensures !(shift && HasAnchor(sel)) && !ctrlOrMeta ==> r.ids == [id]
  {
    if shift && HasAnchor(sel) then Selection(RangeIds(items, sel.lastClicked.value, id), sel.lastClicked)
    else if ctrlOrMeta then Selection(ToggleSelected(sel.ids, id), Some(id))
    else Selection([id], Some(id))
  }

  /** A click never selects an id that is not displayed. */
  lemma ClickSelectsDisplayed(sel: Selection, items: seq<FileItem>, id: string, shift: bool, ctrlOrMeta: bool)
    requires forall x :: x in sel.ids ==> HasId(items, x)
    requires HasId(items, id)
    ensures forall x :: x in Click(sel, items, id, shift, ctrlOrMeta).ids ==> HasId(items, x)
  {
  }

  /** `handleDoubleClick` on the recent list: the opened id first, its older entry dropped. */
  function PushRecent(prev: seq<string>, id: string): (r: seq<string>)
    ensures r != [] && r[0] == id
    ensures forall x :: x in r <==> x == id || x in prev
    ensures |r| <= |prev| + 1
    ensures Embeds(r[1..], prev) && multiset(r[1..]) == multiset(prev)[id := 0]
  {
    assert ([id] + Without(prev, id))[1..] == Without(prev, id);
    [id] + Without(prev, id)
  }

  predicate NoDuplicates(s: seq<string>)
  {
    forall i, j :: 0 <= i < j < |s| ==> s[i] != s[j]
  }

  lemma {:induction false} WithoutKeepsDistinct(s: seq<string>, id: string)
    requires NoDuplicates(s)
    ensures NoDuplicates(Without(s, id))
  {
    if s != [] {
      WithoutKeepsDistinct(s[1..], id);
      if s[0] != id {
        var rest := Without(s[1..], id);
        assert s[0] !in s[1..];
        assert s[0] !in rest;
        var r := [s[0]] + rest;
        forall i, j | 0 <= i < j < |r| ensures r[i] != r[j] {
          if i == 0 { assert r[j] == rest[j - 1] && r[j] in rest; }
          else { assert r[i] == rest[i - 1] && r[j] == rest[j - 1]; }
        }
      }
    }
  }

  /** Opening files never lists one twice, and re-opening the newest changes nothing. */
  lemma PushRecentProperties(prev: seq<string>, id: string)
    requires NoDuplicates(prev)
    ensures NoDuplicates(PushRecent(prev, id))
    ensures PushRecent(PushRecent(prev, id), id) == PushRecent(prev, id)
  {
    WithoutKeepsDistinct(prev, id);
    var rest := Without(prev, id);
    var r := [id] + rest;
    forall i, j | 0 <= i < j < |r| ensures r[i] != r[j] {
      if i == 0 { assert r[j] == rest[j - 1] && r[j] in rest; }
      else { assert r[i] == rest[i - 1] && r[j] == rest[j - 1]; }
    }
    WithoutAbsent(rest, id);
  }

  lemma {:induction false} WithoutAbsent(s: seq<string>, id: string)
    requires id !in s
    ensures Without(s, id) == s
  {
    if s != [] {
      WithoutAbsent(s[1..], id);
      assert s == [s[0]] + s[1..];
    }
  }

  /** `files.filter(f => selectedFileIds.includes(f.id))`: in file order, not selection order. */
  function SelectedFiles(files: seq<FileItem>, ids: seq<string>): (r: seq<FileItem>)
    ensures forall f :: f in r <==> f in files && f.id in ids
    ensures forall f :: multiset(r)[f] == if f.id in ids then multiset(files)[f] else 0
    ensures Embeds(r, files)
  {
    if files == [] then []
    else
      assert files == [files[0]] + files[1..];
      var rest := SelectedFiles(files[1..], ids);
      if files[0].id in ids then
        var r := [files[0]] + rest;
        assert r[1..] == rest;
        r
      else rest
  }

  /** The permissions whose e-mail the earlier list does not already hold. */
  function NewUsers(prev: seq<UserPermission>, users: seq<UserPermission>): (r: seq<UserPermission>)
    ensures forall u :: u in r <==> u in users && !HasEmail(prev, u.email)
    ensures forall u :: multiset(r)[u] == if !HasEmail(prev, u.email) then multiset(users)[u] else 0
    ensures Embeds(r, users)
  {
    if users == [] then []
    else
      assert users == [users[0]] + users[1..];
      var rest := NewUsers(prev, users[1..]);
      if !HasEmail(prev, users[0].email) then
        var r := [users[0]] + rest;
        assert r[1..] == rest;
        r
      else rest
  }

  /** `setSharedWith` in `handleShare`: the old list, then the newcomers. */
  function ShareMerge(prev: seq<UserPermission>, users: seq<UserPermission>): (r: seq<UserPermission>)
    ensures |r| >= |prev| && r[..|prev|] == prev
  {
    prev + NewUsers(prev, users)
  }

  lemma {:induction false} EmbedsDistinct(a: seq<UserPermission>, b: seq<UserPermission>)
    requires Embeds(a, b) && DistinctEmails(b)
    ensures DistinctEmails(a)
    decreases |b|
  {
    if a != [] && b != [] {
      if a[0] == b[0] && Embeds(a[1..], b[1..]) {
        EmbedsDistinct(a[1..], b[1..]);
        forall j | 0 < j < |a| ensures a[0].email != a[j].email {
          assert a[j] in a[1..];
          EmbedsMember(a[1..], b[1..], a[j]);
          var k :| 0 <= k < |b[1..]| && b[1..][k] == a[j];
          assert b[k + 1] == a[j];
        }
        forall i, j | 0 < i < j < |a| ensures a[i].email != a[j].email {
          assert a[i] == a[1..][i - 1] && a[j] == a[1..][j - 1];
        }
      } else {
        EmbedsDistinct(a, b[1..]);
      }
    }
  }

  lemma {:induction false} EmbedsMember<T>(a: seq<T>, b: seq<T>, x: T)
    requires Embeds(a, b) && x in a
    ensures x in b
    decreases |b|
  {
    if a[0] == b[0] && Embeds(a[1..], b[1..]) {
      if x != a[0] { EmbedsMember(a[1..], b[1..], x); }
    } else {
      EmbedsMember(a, b[1..], x);
    }
  }

  /** Sharing keeps everyone already shared with, adds everyone invited, adds nobody else,
      and, given a list without repeated addresses from the dialog, never lists an address twice. */
  lemma ShareMergeProperties(prev: seq<UserPermission>, users: seq<UserPermission>)
    ensures forall u :: u in users ==> HasEmail(ShareMerge(prev, users), u.email)
    ensures forall u :: u in ShareMerge(prev, users) ==> u in prev || u in users
    ensures DistinctEmails(prev) && DistinctEmails(users) ==> DistinctEmails(ShareMerge(prev, users))
  {
    var added := NewUsers(prev, users);
    var r := prev + added;
    forall u | u in users ensures HasEmail(r, u.email) {
      if HasEmail(prev, u.email) {
        var i :| 0 <= i < |prev| && prev[i].email == u.email;
        assert r[i] == prev[i];
      } else {
        var k :| 0 <= k < |added| && added[k] == u;
        assert r[|prev| + k] == u;
      }
    }
    if DistinctEmails(prev) && DistinctEmails(users) {
      EmbedsDistinct(added, users);
      forall i, j | 0 <= i < j < |r| ensures r[i].email != r[j].email {
        if j >= |prev| {
          if i < |prev| {
            assert r[j] == added[j - |prev|] && r[j] in added;
            assert !HasEmail(prev, r[j].email);
          } else {
            assert r[i] == added[i - |prev|] && r[j] == added[j - |prev|];
          }
        }
      }
    }
  }

  /** `email.split('@')[0]`: everything before the first '@'. */
  function LocalPart(email: string): (r: string)
    ensures IsPrefix(r, email) && '@' !in r
    ensures |r| < |email| ==> email[|r|] == '@'
  {
    if email == [] then []
    else if email[0] == '@' then []
    else [email[0]] + LocalPart(email[1..])
  }

  /** `sharedWith.filter(u => u.role === Role.Editor)`: the editors, in list order. */
  function Editors(users: seq<UserPermission>): (r: seq<UserPermission>)
    ensures forall u :: u in r <==> u in users && u.role == Editor
    ensures forall u :: multiset(r)[u] == if u.role == Editor then multiset(users)[u] else 0
    ensures Embeds(r, users)
  {
    if users == [] then []
    else
      assert users == [users[0]] + users[1..];
      var rest := Editors(users[1..]);
      if users[0].role == Editor then
        var r := [users[0]] + rest;
        assert r[1..] == rest;
        r
      else rest
  }

  /** `activeCollaborators`: the editors, in the order they were shared with, each named
      by the local part of their address. */
  function ActiveCollaborators(sharedWith: seq<UserPermission>): (r: seq<Collaborator>)
    ensures forall c :: c in r <==> exists u :: u in sharedWith && u.role == Editor && c == Collaborator(u.email, LocalPart(u.email))
    ensures |r| == |Editors(sharedWith)|
    ensures forall k :: 0 <= k < |r| ==> r[k].email == Editors(sharedWith)[k].email && r[k].name == LocalPart(r[k].email)
  {
    var es := Editors(sharedWith);
    var r := seq(|es|, k requires 0 <= k < |es| => Collaborator(es[k].email, LocalPart(es[k].email)));
    ActiveCollaboratorsMembers(sharedWith, es, r);
    r
  }

  /** The records built one per editor are exactly the editors' records. */
  lemma ActiveCollaboratorsMembers(sharedWith: seq<UserPermission>, es: seq<UserPermission>, r: seq<Collaborator>)
    requires forall u :: u in es <==> u in sharedWith && u.role == Editor
    requires |r| == |es| && forall k :: 0 <= k < |r| ==> r[k] == Collaborator(es[k].email, LocalPart(es[k].email))
    ensures forall c :: c in r <==> exists u :: u in sharedWith && u.role == Editor && c == Collaborator(u.email, LocalPart(u.email))
  {
    forall c | c in r ensures exists u :: u in sharedWith && u.role == Editor && c == Collaborator(u.email, LocalPart(u.email)) {
      var k :| 0 <= k < |r| && r[k] == c;
      assert es[k] in es;
    }
    forall u | u in sharedWith && u.role == Editor ensures Collaborator(u.email, LocalPart(u.email)) in r {
      var k :| 0 <= k < |es| && es[k] == u;
      assert r[k] == Collaborator(u.email, LocalPart(u.email));
    }
  }

  /** The display name `handleShare` gives a new editor: only the two colleagues are known. */
  function KnownName(email: string): (r: string)
    ensures r == "Coleg A" <==> email == "colegA@gmail.com"
    ensures r == "Coleg B" <==> email == "colegB@gmail.com"
    ensures r in {"Coleg A", "Coleg B", "Unknown"}
  {
    if email == "colegB@gmail.com" then "Coleg B"
    else if email == "colegA@gmail.com" then "Coleg A"
    else "Unknown"
  }

  predicate HasCollaborator(cs: seq<Collaborator>, email: string)
  {
    exists i :: 0 <= i < |cs| && cs[i].email == email
  }

  /** The invited editors whose address is not yet among the collaborators, in invitation
      order. */
  function NewEditors(prev: seq<Collaborator>, users: seq<UserPermission>): (r: seq<UserPermission>)
    ensures forall u :: u in r <==> u in users && u.role == Editor && !HasCollaborator(prev, u.email)
    ensures forall u :: multiset(r)[u] == if u.role == Editor && !HasCollaborator(prev, u.email) then multiset(users)[u] else 0
    ensures Embeds(r, users)
  {
    if users == [] then []
    else
      assert users == [users[0]] + users[1..];
      var rest := NewEditors(prev, users[1..]);
      var u := users[0];
      if u.role == Editor && !HasCollaborator(prev, u.email) then
        var r := [u] + rest;
        assert r[1..] == rest;
        r
      else rest
  }

  /** The invited editors not yet among the collaborators, as collaborator records, in
      invitation order. */
  function NewCollaborators(prev: seq<Collaborator>, users: seq<UserPermission>): (r: seq<Collaborator>)
    ensures forall c :: c in r <==> exists u :: u in users && u.role == Editor && !HasCollaborator(prev, u.email)
                                             && c == Collaborator(u.email, KnownName(u.email))
    ensures |r| == |NewEditors(prev, users)|
    ensures forall k :: 0 <= k < |r| ==> r[k].email == NewEditors(prev, users)[k].email && r[k].name == KnownName(r[k].email)
  {
    var es := NewEditors(prev, users);
    var r := seq(|es|, k requires 0 <= k < |es| => Collaborator(es[k].email, KnownName(es[k].email)));
    NewCollaboratorsMembers(prev, users, es, r);
    r
  }

  /** The records built one per new editor are exactly the new editors' records. */
  lemma NewCollaboratorsMembers(prev: seq<Collaborator>, users: seq<UserPermission>, es: seq<UserPermission>, r: seq<Collaborator>)
    requires forall u :: u in es <==> u in users && u.role == Editor && !HasCollaborator(prev, u.email)
    requires |r| == |es| && forall k :: 0 <= k < |r| ==> r[k] == Collaborator(es[k].email, KnownName(es[k].email))
    ensures forall c :: c in r <==> exists u :: u in users && u.role == Editor && !HasCollaborator(prev, u.email)
                                             && c == Collaborator(u.email, KnownName(u.email))
  {
    forall c | c in r ensures exists u :: u in users && u.role == Editor && !HasCollaborator(prev, u.email)
                                       && c == Collaborator(u.email, KnownName(u.email)) {
      var k :| 0 <= k < |r| && r[k] == c;
      assert es[k] in es;
    }
    forall u | u in users && u.role == Editor && !HasCollaborator(prev, u.email)
      ensures Collaborator(u.email, KnownName(u.email)) in r {
      var k :| 0 <= k < |es| && es[k] == u;
      assert r[k] == Collaborator(u.email, KnownName(u.email));
    }
  }

  /** `onCollaboratorsChange` in `handleShare`: the old list, then the new editors. */
  function CollaboratorsMerge(prev: seq<Collaborator>, users: seq<UserPermission>): (r: seq<Collaborator>)
    ensures |r| >= |prev| && r[..|prev|] == prev
  {
    prev + NewCollaborators(prev, users)
  }

  /** After sharing, every invited editor is a collaborator and every viewer-only
      newcomer is not added. */
  lemma CollaboratorsMergeCovers(prev: seq<Collaborator>, users: seq<UserPermission>)
    ensures forall u :: u in users && u.role == Editor ==> HasCollaborator(CollaboratorsMerge(prev, users), u.email)
    ensures forall c :: c in CollaboratorsMerge(prev, users) && c !in prev ==>
              exists u :: u in users && u.role == Editor && u.email == c.email
  {
    MergeCoversEditors(prev, users, NewCollaborators(prev, users));
  }

  /** The same for any list of additions that holds exactly the new editors' records. */
  lemma MergeCoversEditors(prev: seq<Collaborator>, users: seq<UserPermission>, added: seq<Collaborator>)
    requires forall c :: c in added <==> exists u :: u in users && u.role == Editor && !HasCollaborator(prev, u.email)
                                                   && c == Collaborator(u.email, KnownName(u.email))
    ensures forall u :: u in users && u.role == Editor ==> HasCollaborator(prev + added, u.email)
    ensures forall c :: c in prev + added && c !in prev ==>
              exists u :: u in users && u.role == Editor && u.email == c.email
  {
    var r := prev + added;
    forall u | u in users && u.role == Editor ensures HasCollaborator(r, u.email) {
      if HasCollaborator(prev, u.email) {
        var i :| 0 <= i < |prev| && prev[i].email == u.email;
        assert r[i] == prev[i];
      } else {
        var c := Collaborator(u.email, KnownName(u.email));
        assert c in added;
        var k :| 0 <= k < |added| && added[k] == c;
        assert r[|prev| + k] == c;
      }
    }
    forall c | c in r && c !in prev ensures exists u :: u in users && u.role == Editor && u.email == c.email {
      assert c in added;
      var u :| u in users && u.role == Editor && !HasCollaborator(prev, u.email)
               && c == Collaborator(u.email, KnownName(u.email));
      assert u.email == c.email;
    }
  }

  /** The activity text `handleShare` logs on the selected files. */
  function ShareActivity(users: seq<UserPermission>): (r: string)
    ensures IsPrefix("Shared with ", r)
    ensures users == [] ==> r == "Shared with "
    ensures |users| == 1 ==> r == "Shared with " + users[0].email
    ensures r == "Shared with " + Join(Emails(users), ", ")
  {
    "Shared with " + Join(Emails(users), ", ")
  }

  /** Inviting one more person appends ", " and that person's address to the logged text. */
  lemma ShareActivitySnoc(users: seq<UserPermission>, u: UserPermission)
    requires users != []
    ensures ShareActivity(users + [u]) == ShareActivity(users) + ", " + u.email
  {
    assert Emails(users + [u]) == Emails(users) + [u.email];
    JoinSnoc(Emails(users), u.email, ", ");
  }

  /** The names of the selected files, joined by ", ". */
  function Names(files: seq<FileItem>): (r: seq<string>)
    ensures |r| == |files| && forall i :: 0 <= i < |files| ==> r[i] == files[i].name
  {
    seq(|files|, i requires 0 <= i < |files| => files[i].name)
  }

  /** The invitation `handleShare` hands to the mail app. */
  function InvitationDraft(selectedFiles: seq<FileItem>, users: seq<UserPermission>, message: string): (d: MailDraft)
    ensures d.to == Emails(users) && d.body == message
    ensures IsPrefix("Invitation to collaborate on: ", d.subject)
    ensures d.subject == "Invitation to collaborate on: " + Join(Names(selectedFiles), ", ")
  {
    MailDraft(Emails(users), "Invitation to collaborate on: " + Join(Names(selectedFiles), ", "), message)
  }
}

=== FILE: drive_view.dfy ===
/** What the Drive lists (components/GoogleDrive.tsx, `displayedItems` and `handleSort`):
    a search over the whole Drive, or one of five views sorted folders-first by the
    chosen column. `localeCompare` is modelled by `StrCompare`, a lexicographic
    order on character codes. */
module DriveView {
  import opened Types
  import opened Strings

  datatype View = MyDrive | SharedWithMe | Recent | Starred | Trash

  /** The search filter: not trashed, and the lower-cased name includes the lower-cased query. */
  predicate MatchesSearch(f: FileItem, query: string)
  {
    !f.isInTrash && Contains(Lower(f.name), Lower(query))
  }

  /** The early return for a non-empty query: matches in file order, unsorted. */
  function SearchResults(files: seq<FileItem>, query: string): (r: seq<FileItem>)
    ensures forall f :: f in r <==> f in files && MatchesSearch(f, query)
    ensures forall f :: multiset(r)[f] == if MatchesSearch(f, query) then multiset(files)[f] else 0
    ensures Embeds(r, files)
  {
    if files == [] then []
    else
      assert files == [files[0]] + files[1..];
      var rest := SearchResults(files[1..], query);
      if MatchesSearch(files[0], query) then
        var r := [files[0]] + rest;
        assert r[1..] == rest;
        r
      else
        rest
  }

  /** Which files the trash, shared, starred and drive views keep. */
  predicate InView(f: FileItem, view: View, currentFolderId: Option<string>)
  {
    match view
    case Trash => f.isInTrash
    case SharedWithMe => !f.isInTrash && f.owner != CurrentUser
    case Starred => !f.isInTrash && f.isStarred
    case MyDrive => !f.isInTrash && f.parentId == currentFolderId
    case Recent => true
  }

  /** The `filter` of the non-recent views, in file order. */
  function FilterView(files: seq<FileItem>, view: View, currentFolderId: Option<string>): (r: seq<FileItem>)
    ensures forall f :: f in r <==> f in files && InView(f, view, currentFolderId)
    ensures forall f :: multiset(r)[f] == if InView(f, view, currentFolderId) then multiset(files)[f] else 0
    ensures Embeds(r, files)
  {
    if files == [] then []
    else
      assert files == [files[0]] + files[1..];
      var rest := FilterView(files[1..], view, currentFolderId);
      if InView(files[0], view, currentFolderId) then
        var r := [files[0]] + rest;
        assert r[1..] == rest;
        r
      else
        rest
  }

  /** `new Map(items.map(f => [f.id, f])).get(id)`: a Map built from pairs keeps the
      LAST file carrying an id. */
  function FindLast(files: seq<FileItem>, id: string): (r: Option<FileItem>)
    ensures r.None? <==> !HasId(files, id)
    ensures r.Some? ==> exists i :: 0 <= i < |files| && files[i] == r.value && files[i].id == id
                                  && forall j :: i < j < |files| ==> files[j].id != id
  {
    if files == [] then None
    else if files[|files| - 1].id == id then Some(files[|files| - 1])
    else
      var init := files[..|files| - 1];
      var r := FindLast(init, id);
      assert HasId(files, id) ==> HasId(init, id) by {
        if HasId(files, id) {
          var i :| 0 <= i < |files| && files[i].id == id;
          assert init[i].id == id;
        }
      }
      if r.Some? then
        var i :| 0 <= i < |init| && init[i] == r.value && init[i].id == id
                 && forall j :: i < j < |init| ==> init[j].id != id;
        assert files[i] == r.value;
        r
      else r
  }

  /** The recent view: recentFileIds resolved to files, ids no file carries dropped. */
  function RecentItems(files: seq<FileItem>, recentIds: seq<string>): (r: seq<FileItem>)
    ensures |r| <= |recentIds|
    ensures forall f :: f in r ==> f in files && f.id in recentIds
    ensures forall id :: id in recentIds && HasId(files, id) ==> FindLast(files, id).value in r
  {
    if recentIds == [] then []
    else
      var rest := RecentItems(files, recentIds[1..]);
      match FindLast(files, recentIds[0])
      case Some(f) =>
        var i :| 0 <= i < |files| && files[i] == f && files[i].id == recentIds[0];
        [f] + rest
      case None => rest
  }

  /** Resolving the ids of two lists one after the other is resolving their concatenation. */
  lemma {:induction false} RecentItemsAppend(files: seq<FileItem>, a: seq<string>, b: seq<string>)
    ensures RecentItems(files, a + b) == RecentItems(files, a) + RecentItems(files, b)
    decreases |a|
  {
    if a == [] {
      assert a + b == b;
    } else {
      assert (a + b)[1..] == a[1..] + b;
      RecentItemsAppend(files, a[1..], b);
    }
  }

  /** One id resolves to the last file carrying it, or to nothing. */
  lemma RecentItemsSingle(files: seq<FileItem>, id: string)
    ensures RecentItems(files, [id]) == if HasId(files, id) then [FindLast(files, id).value] else []
  {
    assert [id][1..] == [];
  }

  /** When every recent id resolves, the view lists one file per id, in the order of the ids. */
  lemma {:induction false} RecentItemsResolved(files: seq<FileItem>, recentIds: seq<string>)
    requires forall k :: 0 <= k < |recentIds| ==> HasId(files, recentIds[k])
    ensures |RecentItems(files, recentIds)| == |recentIds|
    ensures forall k :: 0 <= k < |recentIds| ==> RecentItems(files, recentIds)[k] == FindLast(files, recentIds[k]).value
  {
    if recentIds != [] {
      var tail := recentIds[1..];
      assert forall k :: 0 <= k < |tail| ==> tail[k] == recentIds[k + 1];
      RecentItemsResolved(files, tail);
      var r := RecentItems(files, recentIds);
      assert r == [FindLast(files, recentIds[0]).value] + RecentItems(files, tail);
      forall k | 0 <= k < |recentIds| ensures r[k] == FindLast(files, recentIds[k]).value {
        if k > 0 { assert r[k] == RecentItems(files, tail)[k - 1]; }
      }
    }
  }

  /** The list a view shows before sorting. */
  function ViewItems(files: seq<FileItem>, view: View, currentFolderId: Option<string>, recentIds: seq<string>): (r: seq<FileItem>)
    ensures forall f :: f in r ==> f in files
    ensures view != Recent ==> Embeds(r, files) && forall f :: f in files && InView(f, view, currentFolderId) ==> f in r
    ensures view == Recent ==> forall f :: f in r ==> f.id in recentIds
  {
    if view == Recent then RecentItems(files, recentIds) else FilterView(files, view, currentFolderId)
  }

  /** The column a sort key reads; every column is a string. */
  function SortField(f: FileItem, key: SortKey): string
  {
    match key
    case Name => f.name
    case Owner => f.owner
    case Modified => f.modified
  }

  /** The comparator passed to `items.sort`. */
  function Compare(a: FileItem, b: FileItem, cfg: SortConfig): (r: int)
    ensures a.kind == Folder && b.kind != Folder ==> r == -1
    ensures a.kind != Folder && b.kind == Folder ==> r == 1
  {
    if a.kind == Folder && b.kind != Folder then -1
    else if a.kind != Folder && b.kind == Folder then 1
    else
      var comparison := StrCompare(SortField(a, cfg.key), SortField(b, cfg.key));
      if cfg.direction == Ascending then comparison else -comparison
  }

  /** "a may stay before b". */
  predicate Le(a: FileItem, b: FileItem, cfg: SortConfig)
  {
    Compare(a, b, cfg) <= 0
  }

  /** Between two folders or two non-folders, descending is ascending negated. */
  lemma DescendingNegates(a: FileItem, b: FileItem, key: SortKey)
    requires (a.kind == Folder) == (b.kind == Folder)
    ensures Compare(a, b, SortConfig(key, Descending)) == -Compare(a, b, SortConfig(key, Ascending))
  {
  }

  /** The comparator is antisymmetric, so any two items are ordered one way or the other. */
  lemma CompareAntisymmetric(a: FileItem, b: FileItem, cfg: SortConfig)
    ensures Compare(b, a, cfg) == -Compare(a, b, cfg)
    ensures Le(a, b, cfg) || Le(b, a, cfg)
  {
    StrCompareAntisymmetric(SortField(a, cfg.key), SortField(b, cfg.key));
  }

  /** The comparator is transitive: it is consistent, so `sort` has a well-defined result. */
  lemma LeTransitive(a: FileItem, b: FileItem, c: FileItem, cfg: SortConfig)
    requires Le(a, b, cfg) && Le(b, c, cfg)
    ensures Le(a, c, cfg)
  {
    var x, y, z := SortField(a, cfg.key), SortField(b, cfg.key), SortField(c, cfg.key);
    if (a.kind == Folder) == (b.kind == Folder) == (c.kind == Folder) {
      if cfg.direction == Ascending {
        StrCompareTransitive(x, y, z);
      } else {
        StrCompareAntisymmetric(x, y);
        StrCompareAntisymmetric(y, z);
        StrCompareAntisymmetric(x, z);
        StrCompareTransitive(z, y, x);
      }
    }
  }

  predicate SortedBy(s: seq<FileItem>, cfg: SortConfig)
  {
    forall i, j :: 0 <= i < j < |s| ==> Le(s[i], s[j], cfg)
  }

  /** Insert `x` after every element that may precede it (keeps the sort stable). */
  function Insert(t: seq<FileItem>, x: FileItem, cfg: SortConfig): (r: seq<FileItem>)
    requires SortedBy(t, cfg)
    ensures multiset(r) == multiset(t) + multiset{x}
    ensures SortedBy(r, cfg)
  {
    if t == [] then [x]
    else
      var last := t[|t| - 1];
      var init := t[..|t| - 1];
      assert t == init + [last];
      if Le(last, x, cfg) then
        AllPrecede(t, x, cfg);
        AppendSorted(t, x, cfg);
        t + [x]
      else
        CompareAntisymmetric(last, x, cfg);
        var front := Insert(init, x, cfg);
        FrontPrecedes(t, front, x, cfg);
        AppendSorted(front, last, cfg);
        front + [last]
  }

  /** In a sorted list, everything may precede an item the last element may precede. */
  lemma AllPrecede(t: seq<FileItem>, x: FileItem, cfg: SortConfig)
    requires SortedBy(t, cfg) && t != [] && Le(t[|t| - 1], x, cfg)
    ensures forall i :: 0 <= i < |t| ==> Le(t[i], x, cfg)
  {
    forall i | 0 <= i < |t| ensures Le(t[i], x, cfg) {
      if i < |t| - 1 { LeTransitive(t[i], t[|t| - 1], x, cfg); }
    }
  }

  /** Appending an item every element may precede keeps a list sorted. */
  lemma AppendSorted(t: seq<FileItem>, x: FileItem, cfg: SortConfig)
    requires SortedBy(t, cfg) && forall i :: 0 <= i < |t| ==> Le(t[i], x, cfg)
    ensures SortedBy(t + [x], cfg)
  {
    var r := t + [x];
    forall i, j | 0 <= i < j < |r| ensures Le(r[i], r[j], cfg) {
      assert r[i] == t[i];
      if j < |t| { assert r[j] == t[j]; }
    }
  }

  /** After inserting `x` into all but the last element, the last element may follow
      everything. */
  lemma FrontPrecedes(t: seq<FileItem>, front: seq<FileItem>, x: FileItem, cfg: SortConfig)
    requires SortedBy(t, cfg) && t != [] && Le(x, t[|t| - 1], cfg)
    requires multiset(front) == multiset(t[..|t| - 1]) + multiset{x}
    ensures forall i :: 0 <= i < |front| ==> Le(front[i], t[|t| - 1], cfg)
  {
    var init := t[..|t| - 1];
    forall i | 0 <= i < |front| ensures Le(front[i], t[|t| - 1], cfg) {
      var e := front[i];
      assert e in multiset(front);
      if e != x {
        assert e in multiset(init);
        var k :| 0 <= k < |init| && init[k] == e;
        assert t[k] == e;
      }
    }
  }

  /** The comparator's ties: both folders or both not, with the same sort column. */
  predicate Tie(a: FileItem, b: FileItem, cfg: SortConfig)
  {
    (a.kind == Folder) == (b.kind == Folder) && SortField(a, cfg.key) == SortField(b, cfg.key)
  }

  /** The comparator returns 0 exactly on ties. */
  lemma CompareZero(a: FileItem, b: FileItem, cfg: SortConfig)
    ensures Compare(a, b, cfg) == 0 <==> Tie(a, b, cfg)
  {
  }

  /** The items of `s` tied with `y`, in their order in `s`. */
  function TiedWith(s: seq<FileItem>, y: FileItem, cfg: SortConfig): seq<FileItem>
  {
    if s == [] then []
    else TiedWith(s[..|s| - 1], y, cfg) + (if Tie(s[|s| - 1], y, cfg) then [s[|s| - 1]] else [])
  }

  /** The ties of `s` with one more item appended. */
  lemma TiedSnoc(s: seq<FileItem>, e: FileItem, y: FileItem, cfg: SortConfig)
    ensures TiedWith(s + [e], y, cfg) == TiedWith(s, y, cfg) + (if Tie(e, y, cfg) then [e] else [])
  {
    assert (s + [e])[..|s|] == s;
  }

  /** An item that does not tie with `x` may move behind it without changing any ties. */
  lemma TiesMoveBehind(init: seq<FileItem>, front: seq<FileItem>, last: FileItem, x: FileItem, y: FileItem, cfg: SortConfig)
    requires TiedWith(front, y, cfg) == TiedWith(init, y, cfg) + (if Tie(x, y, cfg) then [x] else [])
    requires !Tie(last, x, cfg)
    ensures TiedWith(front + [last], y, cfg) == TiedWith(init + [last], y, cfg) + (if Tie(x, y, cfg) then [x] else [])
  {
    TiedSnoc(front, last, y, cfg);
    TiedSnoc(init, last, y, cfg);
    var a := TiedWith(init, y, cfg);
    if Tie(x, y, cfg) {
      assert !Tie(last, y, cfg);
      assert a + [x] + [] == a + [] + [x];
    } else if Tie(last, y, cfg) {
      assert a + [] + [last] == a + [last] + [];
    } else {
      assert a + [] + [] == a + [] + [];
    }
  }

  /** Inserting `x` places it after every item it ties with. */
  lemma {:induction false} InsertKeepsTies(t: seq<FileItem>, x: FileItem, y: FileItem, cfg: SortConfig)
    requires SortedBy(t, cfg)
    ensures TiedWith(Insert(t, x, cfg), y, cfg) == TiedWith(t, y, cfg) + (if Tie(x, y, cfg) then [x] else [])
    decreases |t|
  {
    if t == [] {
      TiedSnoc([], x, y, cfg);
      assert [] + [x] == [x];
    } else {
      var last := t[|t| - 1];
      var init := t[..|t| - 1];
      assert t == init + [last];
      if Le(last, x, cfg) {
        assert Insert(t, x, cfg) == t + [x];
        TiedSnoc(t, x, y, cfg);
      } else {
        var front := Insert(init, x, cfg);
        assert Insert(t, x, cfg) == front + [last];
        InsertKeepsTies(init, x, y, cfg);
        CompareZero(last, x, cfg);
        TiesMoveBehind(init, front, last, x, y, cfg);
      }
    }
  }

  /** `items.sort(compare)`: an insertion sort, stable like the built-in one. */
  function SortItems(s: seq<FileItem>, cfg: SortConfig): (r: seq<FileItem>)
    ensures multiset(r) == multiset(s)
    ensures SortedBy(r, cfg)
  {
    if s == [] then []
    else
      assert s == s[..|s| - 1] + [s[|s| - 1]];
      Insert(SortItems(s[..|s| - 1], cfg), s[|s| - 1], cfg)
  }

  /** Sorting is stable: the items tied with any `y` keep their relative order. */
  lemma {:induction false} SortStable(s: seq<FileItem>, y: FileItem, cfg: SortConfig)
    ensures TiedWith(SortItems(s, cfg), y, cfg) == TiedWith(s, y, cfg)
    decreases |s|
  {
    if s != [] {
      var init := s[..|s| - 1];
      SortStable(init, y, cfg);
      InsertKeepsTies(SortItems(init, cfg), s[|s| - 1], y, cfg);
    }
  }

  /** In a sorted list every folder comes before every non-folder, in either direction. */
  lemma FoldersFirst(s: seq<FileItem>, cfg: SortConfig)
    requires SortedBy(s, cfg)
    ensures forall i, j :: 0 <= i < j < |s| && s[j].kind == Folder ==> s[i].kind == Folder
  {
  }

  /** `displayedItems`: a non-empty query searches (unsorted); otherwise the active view, sorted. */
  function DisplayedItems(files: seq<FileItem>, view: View, query: string, currentFolderId: Option<string>,
                          recentIds: seq<string>, cfg: SortConfig): (r: seq<FileItem>)
    ensures forall f :: f in r ==> f in files
    ensures query != [] ==> forall f :: f in r ==> !f.isInTrash
    ensures query == [] ==> SortedBy(r, cfg)
  {
    if query != [] then SearchResults(files, query)
    else
      var items := ViewItems(files, view, currentFolderId, recentIds);
      var r := SortItems(items, cfg);
      assert forall f :: f in r ==> f in multiset(items);
      r
  }

  /** What each view displays: the search matches in file order, or the view's files
      re-ordered folders-first by the sort configuration. */
  lemma DisplayedContents(files: seq<FileItem>, view: View, query: string, currentFolderId: Option<string>,
                          recentIds: seq<string>, cfg: SortConfig)
    ensures var r := DisplayedItems(files, view, query, currentFolderId, recentIds, cfg);
            && (query != [] ==> Embeds(r, files) && forall f :: f in r <==> f in files && MatchesSearch(f, query))
            && (query == [] && view != Recent ==>
                  (forall f :: f in r <==> f in files && InView(f, view, currentFolderId)) && SortedBy(r, cfg))
            && (query == [] && view == Recent ==>
                  multiset(r) == multiset(RecentItems(files, recentIds)) && SortedBy(r, cfg))
            && (query == [] ==> forall i, j :: 0 <= i < j < |r| && r[j].kind == Folder ==> r[i].kind == Folder)
  {
    var r := DisplayedItems(files, view, query, currentFolderId, recentIds, cfg);
    if query == [] {
      var items := ViewItems(files, view, currentFolderId, recentIds);
      assert multiset(r) == multiset(items);
      forall f ensures f in r <==> f in items {
        assert f in r <==> f in multiset(r);
        assert f in items <==> f in multiset(items);
      }
      FoldersFirst(r, cfg);
    }
  }

  /** handleSort: the current key while ascending turns descending; any other click is ascending. */
  function NextSort(prev: SortConfig, key: SortKey): (r: SortConfig)
    ensures r.key == key
    ensures r.direction == Descending <==> prev.key == key && prev.direction == Ascending
  {
    SortConfig(key, if prev.key == key && prev.direction == Ascending then Descending else Ascending)
  }

  /** Clicking the current column twice gives back the configuration. */
  lemma NextSortTwice(c: SortConfig)
    ensures NextSort(NextSort(c, c.key), c.key) == c
  {
  }
}

=== FILE: file_items.dfy ===
/** A file's row in the list view (components/FileListItem.tsx) and its tile in the grid
    view (components/FileGridItem.tsx), which handle renaming, opening and hints alike;
    the tile also shows the upload progress as an overlay. */
module FileItems {
  import opened Types
  import opened Strings

  /** Which callback a rename submission calls. */
  datatype RenameOutcome = RenameTo(id: string, newName: string) | CancelRename

  /** handleRenameSubmit: the trimmed draft renames the file when it is not blank and not
      the current name; otherwise the rename is cancelled. */
  function RenameDecision(item: FileItem, draft: string): (r: RenameOutcome)
    ensures r.RenameTo? <==> Trim(draft) != [] && Trim(draft) != item.name
    ensures r.RenameTo? ==> r.id == item.id && r.newName == Trim(draft)
  {
    var trimmed := Trim(draft);
    if trimmed != [] && trimmed != item.name then RenameTo(item.id, trimmed) else CancelRename
  }

  /** A name a rename produced has no surrounding white space, and submitting it again
      for the renamed file cancels. */
  lemma RenameSettles(item: FileItem, draft: string)
    requires RenameDecision(item, draft).RenameTo?
    ensures var n := RenameDecision(item, draft).newName;
            Trim(n) == n && RenameDecision(item.(name := n), n) == CancelRename
  {
    TrimIdempotent(draft);
  }

  /** The row or tile pulses when the hint names it. */
  predicate IsHinted(hintTarget: Option<string>, item: FileItem)
  {
    hintTarget == Some("file-" + item.id)
  }

  /** A hint picks out at most one file id. */
  lemma {:induction false} HintNamesOneId(hintTarget: Option<string>, a: FileItem, b: FileItem)
    requires IsHinted(hintTarget, a) && IsHinted(hintTarget, b)
    ensures a.id == b.id
  {
    assert a.id == ("file-" + a.id)[5..];
    assert b.id == ("file-" + b.id)[5..];
  }

  /** The vertical offset of the grid tile's upload overlay, in percent: 100 minus the
      progress, with no progress counting as 0. */
  function OverlayOffset(item: FileItem): (r: int)
    ensures item.uploadProgress.None? ==> r == 100
    ensures item.uploadProgress.Some? && 0 <= item.uploadProgress.value <= 100 ==> 0 <= r <= 100
    ensures item.uploadProgress.Some? ==> r + item.uploadProgress.value == 100
  {
    100 - (if item.uploadProgress.Some? then item.uploadProgress.value else 0)
  }

  /** A row or tile and its rename draft. */
  class ItemView {
    var item: FileItem
    var name: string

    constructor (item: FileItem)
      ensures this.item == item && name == item.name
    {
      this.item := item;
      name := item.name;
    }

    /** The parent renders the row again with a new `item` prop. The draft is state made by
        `useState(item.name)`, which reads its argument only on the first render, so the
        draft keeps its text. */
    method Rerender(newItem: FileItem)
      modifies this`item
      ensures item == newItem && name == old(name)
    {
      item := newItem;
    }

    /** The rename field's onChange. */
    method Edit(value: string)
      modifies this`name
      ensures name == value
    {
      name := value;
    }

    /** The rename field's onBlur. */
    method Blur() returns (outcome: RenameOutcome)
      ensures outcome == RenameDecision(item, name)
    {
      outcome := RenameDecision(item, name);
    }

    /** The rename field's handleKeyDown: Enter submits; Escape cancels and puts the
        current name back in the field; other keys only type. */
    method RenameKeyDown(key: string) returns (outcome: Option<RenameOutcome>)
      modifies this`name
      ensures key == "Enter" ==> outcome == Some(RenameDecision(item, old(name))) && name == old(name)
      ensures key == "Escape" ==> outcome == Some(CancelRename) && name == item.name
      ensures key != "Enter" && key != "Escape" ==> outcome.None? && name == old(name)
    {
      if key == "Enter" {
        outcome := Some(RenameDecision(item, name));
      } else if key == "Escape" {
        outcome := Some(CancelRename);
        name := item.name;
      } else {
        outcome := None;
      }
    }

    /** Enter on the row or tile opens the item, unless it is being renamed. */
    method KeyDown(key: string, isRenaming: bool) returns (open: bool)
      ensures open <==> key == "Enter" && !isRenaming
    {
      open := key == "Enter" && !isRenaming;
    }
  }
}

=== FILE: fixtures.dfy ===
/** The data the simulation starts from (constants.tsx): the six files of the Drive and
    the two contacts the share dialog suggests. */
module Fixtures {
  import opened Types

  const Suggestions: seq<Suggestion> := [
    Suggestion("Coleg A", "colegA@gmail.com", Online),
    Suggestion("Coleg B", "colegB@gmail.com", Online)
  ]

  const InitialFiles: seq<FileItem> := [
    FileItem("1", "Proiect.docx", Doc, CurrentUser, "2024-03-15", Some("https://i.imgur.com/4z1q2h1.png"), None,
             false, 1572864, false, [ActivityLog("Created", "2024-03-15")], false, None,
             Some([Version("v3", CurrentUser, "2024-03-15"), Version("v2", "Coleg B", "2024-03-14"),
                   Version("v1", CurrentUser, "2024-03-13")])),
    FileItem("2", "Budget.xlsx", Sheet, CurrentUser, "2024-03-12", Some("https://i.imgur.com/gK2R5A6.png"), None,
             false, 8388608, true, [ActivityLog("Created", "2024-03-12")], false, None, None),
    FileItem("3", "Prezentare.pptx", Slide, CurrentUser, "2024-03-10", Some("https://i.imgur.com/u8xAv3g.png"), None,
             false, 2097152, false, [ActivityLog("Created", "2024-03-10")], false, None, None),
    FileItem("4", "Q3 Report.docx", Doc, "colegB@gmail.com", "2024-03-18", Some("https://i.imgur.com/4z1q2h1.png"), None,
             false, 3145728, false, [ActivityLog("Shared with you", "2024-03-18")], false, None, None),
    FileItem("5", "Photos", Folder, CurrentUser, "2024-03-09", None, None,
             false, 0, true, [ActivityLog("Created", "2024-03-09")], false, None, None),
    FileItem("6", "Holiday Snaps.docx", Doc, CurrentUser, "2024-03-09", Some("https://i.imgur.com/4z1q2h1.png"), Some("5"),
             false, 5242880, false, [ActivityLog("Created", "2024-03-09")], false, None, None)
  ]

  /** The starting files carry distinct ids and only file 6 lives in a folder, Photos. */
  lemma InitialFilesShape()
    ensures forall i, j :: 0 <= i < j < |InitialFiles| ==> InitialFiles[i].id != InitialFiles[j].id
    ensures forall i :: 0 <= i < |InitialFiles| && i != 5 ==> InitialFiles[i].parentId.None?
    ensures InitialFiles[5].parentId == Some(InitialFiles[4].id) && InitialFiles[4].kind == Folder
  {
  }
}

=== FILE: google_drive.dfy ===
/** The Drive component's state and handlers (components/GoogleDrive.tsx). The file
    list, the share list and the collaborator list belong to the desktop and reach
    the Drive with their setters; they are fields here because the Drive's handlers
    are what change them. The current folder belongs to the navigation history and
    is passed in; requests to navigate come back as results, and so do the toasts. */
module GoogleDrive {
  import opened Types
  import opened Strings
  import opened DriveFiles
  import opened DriveView
  import opened DriveSelect

  /** A toast the handler asks for. */
  datatype Notice = Notice(message: string, kind: ToastType)

  /** A call of `onNavigate`, or none. */
  datatype NavRequest = NoNavigation | NavigateTo(folderId: Option<string>)

  /** What a keyboard shortcut did besides changing state. */
  datatype KeyOutcome = KeyOutcome(notice: Option<Notice>, focusSearch: bool)

  /** One context-menu entry: its text and the `disabled` flag `handleFileContextMenu`
      gives it. ContextMenu does not read the flag (see `LiveAsWritten`). */
  datatype MenuEntry = MenuEntry(text: string, disabled: bool)

  /** The entries `handleFileContextMenu` offers for `item`; `selectedCount` is the
      selection the menu was opened with. */
  function ContextMenuEntries(view: View, item: FileItem, selectedCount: nat): (r: seq<MenuEntry>)
    ensures view == Trash ==> r == [MenuEntry("Restore", false), MenuEntry("Delete forever", false)]
    ensures view != Trash ==>
              && |r| == 7
              && r[0] == MenuEntry("Preview", item.kind == Folder)
              && r[1] == MenuEntry("Share", false)
              && r[2] == MenuEntry("Make a copy", false)
              && r[3] == MenuEntry("Rename", selectedCount > 1)
              && r[4] == MenuEntry("Version history", item.kind == Folder)
              && r[5] == MenuEntry(if item.isStarred then "Unstar" else "Star", false)
              && r[6] == MenuEntry("Delete", false)
              && forall i :: 0 <= i < 7 && i != 0 && i != 3 && i != 4 ==> !r[i].disabled
  {
    if view == Trash then [MenuEntry("Restore", false), MenuEntry("Delete forever", false)]
    else [MenuEntry("Preview", item.kind == Folder),
          MenuEntry("Share", false),
          MenuEntry("Make a copy", false),
          MenuEntry("Rename", selectedCount > 1),
          MenuEntry("Version history", item.kind == Folder),
          MenuEntry(if item.isStarred then "Unstar" else "Star", false),
          MenuEntry("Delete", false)]
  }

  /** Which entries ContextMenu lets the user click, as written: its options carry only a
      label and an action, and every option becomes a button that runs the action. */
  function LiveAsWritten(entries: seq<MenuEntry>): (r: seq<bool>)
    ensures |r| == |entries| && forall i :: 0 <= i < |r| ==> r[i]
  {
    seq(|entries|, i => true)
  }

  /** Which entries the flags are meant to leave clickable: exactly those not disabled. */
  function LiveIntended(entries: seq<MenuEntry>): (r: seq<bool>)
    ensures |r| == |entries| && forall i :: 0 <= i < |r| ==> (r[i] <==> !entries[i].disabled)
  {
    seq(|entries|, i requires 0 <= i < |entries| => !entries[i].disabled)
  }

  /** As written, Preview on a folder and Rename with several items selected can be
      clicked; honouring the flags, neither can. */
  lemma DisabledEntriesStayLive(view: View, item: FileItem, selectedCount: nat)
    requires view != Trash
    ensures var entries := ContextMenuEntries(view, item, selectedCount);
            && (item.kind == Folder ==> LiveAsWritten(entries)[0] && !LiveIntended(entries)[0])
            && (item.kind == Folder ==> LiveAsWritten(entries)[4] && !LiveIntended(entries)[4])
            && (selectedCount > 1 ==> LiveAsWritten(entries)[3] && !LiveIntended(entries)[3])
  {
  }

  /** Honouring the flags, the trash menu and the Share, Make a copy, Star and Delete
      entries stay clickable, and Preview, Rename and Version history are clickable
      exactly when their conditions fail. */
  lemma IntendedLiveEntries(view: View, item: FileItem, selectedCount: nat)
    ensures var live := LiveIntended(ContextMenuEntries(view, item, selectedCount));
            && (view == Trash ==> live == [true, true])
            && (view != Trash ==> live == [item.kind != Folder, true, true, selectedCount <= 1,
                                           item.kind != Folder, true, true])
  {
    var live := LiveIntended(ContextMenuEntries(view, item, selectedCount));
    if view != Trash {
      assert live == [item.kind != Folder, true, true, selectedCount <= 1, item.kind != Folder, true, true];
    }
  }

  /** The ids a context-menu action should act on: the selection the right-click leaves,
      which is the old selection when the item was already in it and otherwise the
      selection of a click on the item. */
  function MenuTargets(sel: Selection, displayed: seq<FileItem>, item: FileItem, shift: bool, ctrlOrMeta: bool): (r: seq<string>)
    ensures item.id in sel.ids ==> r == sel.ids
    ensures item.id !in sel.ids ==> r == Click(sel, displayed, item.id, shift, ctrlOrMeta).ids
  {
    if item.id in sel.ids then sel.ids else Click(sel, displayed, item.id, shift, ctrlOrMeta).ids
  }

  /** The right-clicked item is always among the targets, unless a shift-click ranges from
      an anchor or to an item that is not displayed. */
  lemma MenuTargetsHoldItem(sel: Selection, displayed: seq<FileItem>, item: FileItem, shift: bool, ctrlOrMeta: bool)
    requires shift && HasAnchor(sel) ==> HasId(displayed, sel.lastClicked.value) && HasId(displayed, item.id)
    ensures item.id in MenuTargets(sel, displayed, item, shift, ctrlOrMeta)
  {
    if item.id !in sel.ids && shift && HasAnchor(sel) {
      RangeBetween(displayed, sel.lastClicked.value, item.id);
    }
  }

  /** The ids the menu's actions act on as the source wires them: `showContextMenu` stores
      the closures of the render in which the right-click happened, and `handleDeleteItems`,
      `handleRestoreItems`, `handleDeleteForever`, `handleStarItems`, `handleCopyItems` and
      `openShareModal` read that render's `selectedFileIds`, from before the click. */
  function MenuTargetsAsWritten(sel: Selection, displayed: seq<FileItem>, item: FileItem, shift: bool, ctrlOrMeta: bool): (r: seq<string>)
    ensures |r| == |sel.ids| && forall i :: 0 <= i < |r| ==> r[i] == sel.ids[i]
  {
    sel.ids
  }

  /** With nothing selected, right-clicking a file and choosing Delete trashes nothing and
      reports 0 items; the intended targets trash exactly that file. */
  lemma StaleMenuDeleteMissesItem(item: FileItem, now: string)
    requires !item.isInTrash
    ensures var files, sel := [item], Selection([], None);
            var stale := MenuTargetsAsWritten(sel, files, item, false, false);
            var meant := MenuTargets(sel, files, item, false, false);
            && stale == [] && NatToString(|stale|) == "0"
            && SetTrash(files, stale, true, now) == files
            && !SetTrash(files, stale, true, now)[0].isInTrash
            && meant == [item.id]
            && SetTrash(files, meant, true, now)[0].isInTrash
  {
    var files, sel := [item], Selection([], None);
    var stale := MenuTargetsAsWritten(sel, files, item, false, false);
    assert stale == [];
    var r := SetTrash(files, stale, true, now);
    assert |r| == 1 && r[0] == files[0];
    assert r == files;
  }

  class Drive {
    var files: seq<FileItem>
    var sharedWith: seq<UserPermission>
    var collaborators: seq<Collaborator>
    var recentIds: seq<string>
    var selectedIds: seq<string>
    var lastClicked: Option<string>
    var shareOpen: bool
    var view: View
    var query: string
    var renaming: Option<string>
    var sortConfig: SortConfig
    var previewing: Option<FileItem>

    /** The recent list never holds an id twice and the share list never holds an address twice. */
    predicate Valid()
      reads this
    {
      NoDuplicates(recentIds) && DistinctEmails(sharedWith)
    }

    /** The component's first render: nothing selected, My Drive, sorted by name ascending. */
    constructor (files0: seq<FileItem>, sharedWith0: seq<UserPermission>, collaborators0: seq<Collaborator>)
      requires DistinctEmails(sharedWith0)
      ensures Valid()
      ensures files == files0 && sharedWith == sharedWith0 && collaborators == collaborators0
      ensures recentIds == [] && selectedIds == [] && lastClicked == None && !shareOpen
      ensures view == MyDrive && query == [] && renaming == None && previewing == None
      ensures sortConfig == SortConfig(Name, Ascending) && AtFirstRender()
    {
      files, sharedWith, collaborators := files0, sharedWith0, collaborators0;
      recentIds, selectedIds, lastClicked, shareOpen := [], [], None, false;
      view, query, renaming, previewing := MyDrive, [], None, None;
      sortConfig := SortConfig(Name, Ascending);
    }

    /** The component-local state of the first render. */
    predicate AtFirstRender()
      reads this
    {
      && recentIds == [] && selectedIds == [] && lastClicked == None && !shareOpen
      && view == MyDrive && query == [] && renaming == None && previewing == None
      && sortConfig == SortConfig(Name, Ascending)
    }

    /** Mounting the component again (the desktop unmounts it while its window is
        closed): every `useState` starts over; the lists the desktop owns are kept. */
    method Remount()
      modifies this`recentIds, this`selectedIds, this`lastClicked, this`shareOpen, this`view,
               this`query, this`renaming, this`sortConfig, this`previewing
      ensures AtFirstRender()
      ensures Valid() <==> DistinctEmails(sharedWith)
    {
      recentIds, selectedIds, lastClicked, shareOpen := [], [], None, false;
      view, query, renaming, previewing := MyDrive, [], None, None;
      sortConfig := SortConfig(Name, Ascending);
    }

    /** What the Drive shows in the current folder. */
    function Displayed(currentFolderId: Option<string>): (r: seq<FileItem>)
      reads this
      ensures forall f :: f in r ==> f in files
      ensures query != [] ==> forall f :: f in r ==> !f.isInTrash
      ensures query == [] ==> SortedBy(r, sortConfig)
    {
      DisplayedItems(files, view, query, currentFolderId, recentIds, sortConfig)
    }

    /** handleDeleteItems: the selected files go to the trash. */
    method DeleteItems(now: string) returns (notice: Notice)
      modifies this`files
      ensures files == SetTrash(old(files), selectedIds, true, now)
      ensures notice == Notice(NatToString(|selectedIds|) + " item(s) moved to Trash.", Info)
    {
      files := SetTrash(files, selectedIds, true, now);
      notice := Notice(NatToString(|selectedIds|) + " item(s) moved to Trash.", Info);
    }

    /** handleRestoreItems: the selected files leave the trash. */
    method RestoreItems(now: string) returns (notice: Notice)
      modifies this`files
      ensures files == SetTrash(old(files), selectedIds, false, now)
      ensures notice == Notice(NatToString(|selectedIds|) + " item(s) restored.", Info)
    {
      files := SetTrash(files, selectedIds, false, now);
      notice := Notice(NatToString(|selectedIds|) + " item(s) restored.", Info);
    }

    /** handleDeleteForever: the selected files are dropped and the selection is emptied. */
    method DeleteItemsForever() returns (notice: Notice)
      modifies this`files, this`selectedIds
      ensures files == DeleteForever(old(files), old(selectedIds))
      ensures selectedIds == []
      ensures notice == Notice(NatToString(|old(selectedIds)|) + " item(s) deleted forever.", Warning)
    {
      notice := Notice(NatToString(|selectedIds|) + " item(s) deleted forever.", Warning);
      files := DeleteForever(files, selectedIds);
      selectedIds := [];
    }

    /** handleStarItems: each selected star flips, then one activity entry is logged whose
        text was decided before the flip. */
    method StarItems(now: string) returns (notice: Notice)
      modifies this`files
      ensures files == LogActivity(ToggleStar(old(files), selectedIds), selectedIds,
                                   StarActionLabel(old(files), selectedIds), now)
      ensures notice == Notice("Toggled star on " + NatToString(|selectedIds|) + " item(s).", Info)
    {
      var action := StarActionLabel(files, selectedIds);
      files := ToggleStar(files, selectedIds);
      notice := Notice("Toggled star on " + NatToString(|selectedIds|) + " item(s).", Info);
      files := LogActivity(files, selectedIds, action, now);
    }

    /** handleCopyItems: one copy per selected file that exists, appended after all files. */
    method CopyItems(newIds: seq<string>, now: string) returns (notice: Notice)
      requires |newIds| == |selectedIds|
      modifies this`files
      ensures files == old(files) + CopiesFor(old(files), selectedIds, newIds, now)
      ensures notice == Notice("Created " + NatToString(CountFound(old(files), selectedIds)) + " copy/copies.", Success)
    {
      var copies := MakeCopies(files, selectedIds, newIds, now);
      CopiesShape(files, selectedIds, newIds, now);
      files := files + copies;
      notice := Notice("Created " + NatToString(|copies|) + " copy/copies.", Success);
    }

    /** handleRenameFile: new name and time, then a 'Renamed to' entry; renaming ends. */
    method RenameFile(fileId: string, newName: string, now: string) returns (notice: Notice)
      modifies this`files, this`renaming
      ensures files == LogActivity(Rename(old(files), fileId, newName, now), [fileId], RenameLabel(newName), now)
      ensures renaming == None
      ensures notice == Notice("File renamed", Success)
    {
      files := Rename(files, fileId, newName, now);
      notice := Notice("File renamed", Success);
      files := LogActivity(files, [fileId], RenameLabel(newName), now);
      renaming := None;
    }

    /** handleCancelRename. */
    method CancelRename()
      modifies this`renaming
      ensures renaming == None
    {
      renaming := None;
    }

    /** handleCreateFolder: `answer` is what the prompt returned (`None` when cancelled);
        an empty answer creates nothing. The new folder is appended, then logActivity
        adds a second 'Created' entry to it. */
    method CreateFolder(answer: Option<string>, id: string, now: string, currentFolderId: Option<string>)
      returns (notice: Option<Notice>)
      modifies this`files
      ensures answer.None? || answer.value == [] ==> files == old(files) && notice.None?
      ensures answer.Some? && answer.value != [] ==>
                files == LogActivity(old(files) + [NewFolder(id, answer.value, currentFolderId, now)], [id], "Created", now)
                && notice == Some(Notice("Folder created", Success))
    {
      notice := None;
      if answer.Some? && answer.value != [] {
        files := files + [NewFolder(id, answer.value, currentFolderId, now)];
        files := LogActivity(files, [id], "Created", now);
        notice := Some(Notice("Folder created", Success));
      }
    }

    /** handleFileUpload: `chosen` is the picked file's name and size, if any. */
    method UploadFile(chosen: Option<(string, nat)>, id: string, now: string, currentFolderId: Option<string>)
      modifies this`files
      ensures chosen.None? ==> files == old(files)
      ensures chosen.Some? ==> files == old(files) + [NewUpload(id, chosen.value.0, chosen.value.1, currentFolderId, now)]
    {
      if chosen.Some? {
        files := files + [NewUpload(id, chosen.value.0, chosen.value.1, currentFolderId, now)];
      }
    }

    /** One run of the upload interval for the file `id`: the tick that reaches 100 percent
        also logs 'Uploaded item' and announces the upload. */
    method UploadIntervalTick(id: string, now: string) returns (notice: Option<Notice>)
      modifies this`files
      ensures !UploadFinishes(old(files), id) ==> files == UploadTick(old(files), id) && notice.None?
      ensures UploadFinishes(old(files), id) ==>
                files == LogActivity(UploadTick(old(files), id), [id], "Uploaded item", now)
                && notice == Some(Notice("File uploaded successfully", Success))
    {
      var finishes := UploadFinishes(files, id);
      files := UploadTick(files, id);
      notice := None;
      if finishes {
        notice := Some(Notice("File uploaded successfully", Success));
        files := LogActivity(files, [id], "Uploaded item", now);
      }
    }

    /** handleSort. */
    method SortBy(key: SortKey)
      modifies this`sortConfig
      ensures sortConfig == NextSort(old(sortConfig), key)
    {
      sortConfig := NextSort(sortConfig, key);
    }

    /** handleFileSelect: renaming stops, a 'Selected' entry is logged, and the selection
        follows the click over the items displayed when the click happened. */
    method SelectFile(id: string, shift: bool, ctrlOrMeta: bool, now: string, currentFolderId: Option<string>)
      modifies this`renaming, this`files, this`selectedIds, this`lastClicked
      ensures renaming == None
      ensures files == LogActivity(old(files), [id], "Selected", now)
      ensures Selection(selectedIds, lastClicked)
              == Click(Selection(old(selectedIds), old(lastClicked)), old(Displayed(currentFolderId)), id, shift, ctrlOrMeta)
    {
      var items := Displayed(currentFolderId);
      renaming := None;
      files := LogActivity(files, [id], "Selected", now);
      var sel := Click(Selection(selectedIds, lastClicked), items, id, shift, ctrlOrMeta);
      selectedIds, lastClicked := sel.ids, sel.lastClicked;
    }

    /** handleDoubleClick: a folder is opened by navigating into it; any other file is
        previewed, moved to the front of the recent list and logged as opened. */
    method DoubleClick(item: FileItem, now: string) returns (nav: NavRequest)
      requires Valid()
      modifies this`previewing, this`recentIds, this`files
      ensures Valid()
      ensures item.kind == Folder ==> nav == NavigateTo(Some(item.id)) && unchanged(this)
      ensures item.kind != Folder ==>
                && nav == NoNavigation && previewing == Some(item)
                && recentIds == PushRecent(old(recentIds), item.id)
                && files == LogActivity(old(files), [item.id], "Opened item", now)
    {
      if item.kind == Folder {
        nav := NavigateTo(Some(item.id));
      } else {
        nav := NoNavigation;
        previewing := Some(item);
        PushRecentProperties(recentIds, item.id);
        recentIds := PushRecent(recentIds, item.id);
        files := LogActivity(files, [item.id], "Opened item", now);
      }
    }

    /** openShareModal: the dialog opens only with something selected. */
    method OpenShareModal()
      modifies this`shareOpen
      ensures shareOpen == (old(shareOpen) || selectedIds != [])
    {
      if |selectedIds| > 0 {
        shareOpen := true;
      }
    }

    /** handleShare: newcomers join the share list, new editors join the collaborators,
        the selected files log the share, and an invitation goes to the mail app. */
    method Share(users: seq<UserPermission>, message: string, now: string) returns (draft: MailDraft)
      requires Valid()
      modifies this`sharedWith, this`collaborators, this`files
      ensures DistinctEmails(users) ==> Valid()
      ensures sharedWith == ShareMerge(old(sharedWith), users)
      ensures collaborators == CollaboratorsMerge(old(collaborators), users)
      ensures files == LogActivity(old(files), selectedIds, ShareActivity(users), now)
      ensures draft == InvitationDraft(SelectedFiles(old(files), selectedIds), users, message)
    {
      draft := InvitationDraft(SelectedFiles(files, selectedIds), users, message);
      ShareLists(users);
      files := LogActivity(files, selectedIds, ShareActivity(users), now);
    }

    /** The two list updates of handleShare: `setSharedWith` and `onCollaboratorsChange`. */
    method ShareLists(users: seq<UserPermission>)
      requires Valid()
      modifies this`sharedWith, this`collaborators
      ensures DistinctEmails(users) ==> Valid()
      ensures sharedWith == ShareMerge(old(sharedWith), users)
      ensures collaborators == CollaboratorsMerge(old(collaborators), users)
    {
      ShareMergeProperties(sharedWith, users);
      sharedWith := ShareMerge(sharedWith, users);
      collaborators := CollaboratorsMerge(collaborators, users);
    }

    /** handleTransferOwnership: only with exactly one file selected. */
    method TransferOwnershipTo(newOwner: string, now: string) returns (notice: Option<Notice>)
      modifies this`files
      ensures |selectedIds| != 1 ==> files == old(files) && notice.None?
      ensures |selectedIds| == 1 ==>
                files == LogActivity(TransferOwnership(old(files), selectedIds[0], newOwner), selectedIds,
                                     TransferLabel(old(files), selectedIds[0], newOwner), now)
                && notice == Some(Notice("Ownership transferred to " + newOwner, Success))
    {
      notice := None;
      if |selectedIds| == 1 {
        var fileId := selectedIds[0];
        var action := TransferLabel(files, fileId, newOwner);
        files := TransferOwnership(files, fileId, newOwner);
        files := LogActivity(files, [fileId], action, now);
        assert [fileId] == selectedIds;
        notice := Some(Notice("Ownership transferred to " + newOwner, Success));
      }
    }

    /** changeActiveView: switching view also returns to the root folder. The search is
        cleared by the effect that watches the view and the current folder, which runs
        only when one of them changes: re-selecting the view already shown while at the
        root keeps the search. */
    method ChangeView(v: View, currentFolderId: Option<string>) returns (nav: NavRequest)
      modifies this`view, this`query
      ensures view == v && nav == NavigateTo(None)
      ensures query == if v != old(view) || currentFolderId != None then [] else old(query)
    {
      if v != view || currentFolderId != None {
        query := [];
      }
      view := v;
      nav := NavigateTo(None);
    }

    /** The same effect when the current folder changes by any other navigation. */
    method FolderChanged()
      modifies this`query
      ensures query == []
    {
      query := [];
    }

    /** The keydown listener. Typing into a field is ignored; Delete trashes a non-empty
        selection; F2 renames a single selected file; Ctrl/Cmd+F focuses the search box. */
    method KeyDown(inTextField: bool, key: string, ctrlOrMeta: bool, now: string) returns (outcome: KeyOutcome)
      modifies this`files, this`renaming
      ensures inTextField ==> unchanged(this) && outcome == KeyOutcome(None, false)
      ensures !inTextField && key == "Delete" && selectedIds != [] ==>
                && files == SetTrash(old(files), selectedIds, true, now)
                && outcome.notice == Some(Notice(NatToString(|selectedIds|) + " item(s) moved to Trash.", Info))
      ensures !(!inTextField && key == "Delete" && selectedIds != []) ==> files == old(files) && outcome.notice.None?
      ensures !inTextField && key == "F2" && |selectedIds| == 1 ==> renaming == Some(selectedIds[0])
      ensures !(!inTextField && key == "F2" && |selectedIds| == 1) ==> renaming == old(renaming)
      ensures outcome.focusSearch <==> !inTextField && ctrlOrMeta && key == "f"
    {
      outcome := KeyOutcome(None, false);
      if inTextField {
        return;
      }
      if key == "Delete" && |selectedIds| > 0 {
        var notice := DeleteItems(now);
        outcome := outcome.(notice := Some(notice));
      }
      if key == "F2" && |selectedIds| == 1 {
        renaming := Some(selectedIds[0]);
      }
      if ctrlOrMeta && key == "f" {
        outcome := outcome.(focusSearch := true);
      }
    }

    /** handleFileContextMenu: right-clicking an unselected item selects it as a click
        would; the entries are built from the selection the menu was opened with. */
    method OpenContextMenu(item: FileItem, shift: bool, ctrlOrMeta: bool, now: string, currentFolderId: Option<string>)
      returns (entries: seq<MenuEntry>)
      modifies this`renaming, this`files, this`selectedIds, this`lastClicked
      ensures entries == ContextMenuEntries(view, item, |old(selectedIds)|)
      ensures selectedIds == MenuTargets(Selection(old(selectedIds), old(lastClicked)), old(Displayed(currentFolderId)), item, shift, ctrlOrMeta)
      ensures item.id in old(selectedIds) ==> unchanged(this)
      ensures item.id !in old(selectedIds) ==>
                files == LogActivity(old(files), [item.id], "Selected", now)
                && Selection(selectedIds, lastClicked)
                   == Click(Selection(old(selectedIds), old(lastClicked)), old(Displayed(currentFolderId)), item.id, shift, ctrlOrMeta)
    {
      entries := ContextMenuEntries(view, item, |selectedIds|);
      if item.id !in selectedIds {
        SelectFile(item.id, shift, ctrlOrMeta, now, currentFolderId);
      }
    }
  }
}

=== FILE: keyed_queue.dfy ===
/** What the toast and the notification providers share: a list of records that carry
    numeric ids handed out by a counter, appended at the end and removed by id. */
module KeyedQueue {
  import opened Types

  /** A record and the id it was given. */
  datatype Keyed<T> = Keyed(id: nat, body: T)

  /** Ids strictly increase along the list, so no two records share one. */
  predicate IncreasingIds<T>(s: seq<Keyed<T>>)
  {
    forall i, j :: 0 <= i < j < |s| ==> s[i].id < s[j].id
  }

  /** Every id is below the counter's next value. */
  predicate IdsBelow<T>(s: seq<Keyed<T>>, next: nat)
  {
    forall i :: 0 <= i < |s| ==> s[i].id < next
  }

  predicate HasKey<T>(s: seq<Keyed<T>>, id: nat)
  {
    exists i :: 0 <= i < |s| && s[i].id == id
  }

  /** `list.filter(x => x.id !== id)`. */
  function RemoveId<T>(s: seq<Keyed<T>>, id: nat): (r: seq<Keyed<T>>)
    ensures forall i :: 0 <= i < |r| ==> r[i] in s && r[i].id != id
    ensures forall i :: 0 <= i < |s| && s[i].id != id ==> s[i] in r
    ensures Embeds(r, s)
    ensures !HasKey(s, id) ==> r == s
  {
    if s == [] then []
    else
      var rest := RemoveId(s[1..], id);
      if s[0].id != id then
        var r := [s[0]] + rest;
        assert r[1..] == rest;
        assert !HasKey(s, id) ==> !HasKey(s[1..], id) by {
          if HasKey(s[1..], id) {
            var i :| 0 <= i < |s[1..]| && s[1..][i].id == id;
            assert s[i + 1].id == id;
          }
        }
        r
      else rest
  }

  /** Appending a record with the counter's value keeps ids increasing and below the
      advanced counter. */
  lemma AppendKeepsOrder<T>(s: seq<Keyed<T>>, next: nat, body: T)
    requires IncreasingIds(s) && IdsBelow(s, next)
    ensures IncreasingIds(s + [Keyed(next, body)]) && IdsBelow(s + [Keyed(next, body)], next + 1)
  {
  }

  /** Removal keeps ids increasing and below the counter. */
  lemma {:induction false} RemoveKeepsOrder<T>(s: seq<Keyed<T>>, id: nat, next: nat)
    requires IncreasingIds(s) && IdsBelow(s, next)
    ensures IncreasingIds(RemoveId(s, id)) && IdsBelow(RemoveId(s, id), next)
  {
    var r := RemoveId(s, id);
    forall i | 0 <= i < |r| ensures r[i].id < next {
      var k :| 0 <= k < |s| && s[k] == r[i];
    }
    RemoveKeepsIncreasing(s, id);
  }

  lemma {:induction false} RemoveKeepsIncreasing<T>(s: seq<Keyed<T>>, id: nat)
    requires IncreasingIds(s)
    ensures IncreasingIds(RemoveId(s, id))
  {
    if s != [] {
      var tail := s[1..];
      assert IncreasingIds(tail) by {
        forall i, j | 0 <= i < j < |tail| ensures tail[i].id < tail[j].id {
          assert tail[i] == s[i + 1] && tail[j] == s[j + 1];
        }
      }
      RemoveKeepsIncreasing(tail, id);
      if s[0].id != id {
        RemoveKeepsAbove(tail, id, s[0].id);
        PrependIncreasing(s[0], RemoveId(tail, id));
      }
    }
  }

  /** Ids above a bound stay above it after a removal. */
  lemma RemoveKeepsAbove<T>(s: seq<Keyed<T>>, id: nat, lo: nat)
    requires forall k :: 0 <= k < |s| ==> lo < s[k].id
    ensures forall j :: 0 <= j < |RemoveId(s, id)| ==> lo < RemoveId(s, id)[j].id
  {
    var r := RemoveId(s, id);
    forall j | 0 <= j < |r| ensures lo < r[j].id {
      var k :| 0 <= k < |s| && s[k] == r[j];
    }
  }

  lemma PrependIncreasing<T>(x: Keyed<T>, s: seq<Keyed<T>>)
    requires IncreasingIds(s)
    requires forall j :: 0 <= j < |s| ==> x.id < s[j].id
    ensures IncreasingIds([x] + s)
  {
    var r := [x] + s;
    forall i, j | 0 <= i < j < |r| ensures r[i].id < r[j].id {
      assert r[j] == s[j - 1];
      if i > 0 {
        assert r[i] == s[i - 1];
      }
    }
  }

  /** What a `useContext` hook gives: the provider's value, or the error it throws outside
      a provider. */
  datatype Hook<T> = Provided(value: T) | Thrown(message: string)

  function UseContext<T>(context: Option<T>, message: string): (r: Hook<T>)
    ensures context.None? <==> r == Thrown(message)
    ensures context.Some? ==> r == Provided(context.value)
  {
    match context
    case Some(v) => Provided(v)
    case None => Thrown(message)
  }
}

=== FILE: mail_app.dfy ===
/** The mail window (components/MailAppWindowContent.tsx): the inbox list, the open
    message, and marking a message as read when it is opened. */
module MailApp {
  import opened Types
  import opened Desktop

  /** `emails.map(e => e.id === id ? { ...e, read: true } : e)`. */
  function MarkRead(emails: seq<Email>, id: string): (r: seq<Email>)
    ensures |r| == |emails|
    ensures forall i :: 0 <= i < |emails| && emails[i].id == id ==> r[i] == emails[i].(read := true)
    ensures forall i :: 0 <= i < |emails| && emails[i].id != id ==> r[i] == emails[i]
  {
    seq(|emails|, i requires 0 <= i < |emails| => if emails[i].id == id then emails[i].(read := true) else emails[i])
  }

  /** The inbox after handleSelectEmail: the list is touched only when the clicked message,
      as it was rendered, is unread. */
  function SelectEmails(emails: seq<Email>, clicked: Email): (r: seq<Email>)
    ensures clicked.read ==> r == emails
    ensures !clicked.read ==> r == MarkRead(emails, clicked.id)
  {
    if !clicked.read then MarkRead(emails, clicked.id) else emails
  }

  /** Opening a message a second time, even from the stale rendering that still shows it
      unread, changes nothing more. */
  lemma SelectTwice(emails: seq<Email>, clicked: Email)
    ensures SelectEmails(SelectEmails(emails, clicked), clicked) == SelectEmails(emails, clicked)
  {
  }

  /** Some message with that id is unread. */
  predicate HasUnread(emails: seq<Email>, id: string)
  {
    exists i :: 0 <= i < |emails| && emails[i].id == id && !emails[i].read
  }

  /** Marking as read never raises the unread count, and lowers it when a message with
      that id was unread. */
  lemma {:induction false} MarkReadLowersUnread(emails: seq<Email>, id: string)
    ensures UnreadCount(MarkRead(emails, id)) <= UnreadCount(emails)
    ensures HasUnread(emails, id) ==> UnreadCount(MarkRead(emails, id)) < UnreadCount(emails)
  {
    if emails != [] {
      assert MarkRead(emails, id)[1..] == MarkRead(emails[1..], id);
      MarkReadLowersUnread(emails[1..], id);
      if HasUnread(emails, id) && !(emails[0].id == id && !emails[0].read) {
        var i :| 0 <= i < |emails| && emails[i].id == id && !emails[i].read;
        assert emails[1..][i - 1] == emails[i];
      }
    }
  }

  /** The message open when the window first renders: the newest one, if any. */
  function InitialSelection(emails: seq<Email>): (r: Option<Email>)
    ensures emails == [] <==> r.None?
    ensures r.Some? ==> r.value == emails[0]
  {
    if |emails| > 0 then Some(emails[0]) else None
  }

  /** The window's own state; the inbox itself belongs to the shell. */
  class MailWindow {
    const shell: Shell
    var selected: Option<Email>

    constructor (shell: Shell)
      ensures this.shell == shell && selected == InitialSelection(shell.emails)
    {
      this.shell := shell;
      selected := InitialSelection(shell.emails);
    }

    /** handleSelectEmail: the message opens and, if it was unread, is marked read in the
        shell's inbox. */
    method SelectEmail(clicked: Email)
      modifies this`selected, shell`emails
      ensures selected == Some(clicked)
      ensures shell.emails == SelectEmails(old(shell.emails), clicked)
      ensures UnreadCount(shell.emails) <= UnreadCount(old(shell.emails))
    {
      selected := Some(clicked);
      if !clicked.read {
        MarkReadLowersUnread(shell.emails, clicked.id);
        shell.emails := MarkRead(shell.emails, clicked.id);
      }
    }
  }
}

=== FILE: notification_context.dfy ===
/** The simulated operating-system notifications (contexts/WindowsNotificationContext.tsx),
    each with an id from a counter. */
module NotificationContext {
  import opened Types
  import opened KeyedQueue

  /** A notification's title and message; its id is kept by `Keyed` and its icon, a
      rendered element, is not part of this model. */
  datatype NotificationBody = NotificationBody(title: string, message: string)

  /** The provider's list together with the counter `notificationId`. */
  class NotificationStore {
    var notifications: seq<Keyed<NotificationBody>>
    var nextId: nat

    predicate Valid()
      reads this
    {
      IncreasingIds(notifications) && IdsBelow(notifications, nextId)
    }

    constructor ()
      ensures Valid() && notifications == [] && nextId == 0
    {
      notifications, nextId := [], 0;
    }

    /** addNotification: one notification with the next id goes to the end of the list. */
    method AddNotification(title: string, message: string)
      requires Valid()
      modifies this`notifications, this`nextId
      ensures Valid()
      ensures notifications == old(notifications) + [Keyed(old(nextId), NotificationBody(title, message))]
      ensures nextId == old(nextId) + 1
    {
      AppendKeepsOrder(notifications, nextId, NotificationBody(title, message));
      notifications := notifications + [Keyed(nextId, NotificationBody(title, message))];
      nextId := nextId + 1;
    }

    /** removeNotification: those with that id go, the others stay in order; an absent id
        changes nothing. */
    method RemoveNotification(id: nat)
      requires Valid()
      modifies this`notifications
      ensures Valid()
      ensures notifications == RemoveId(old(notifications), id)
      ensures !HasKey(old(notifications), id) ==> notifications == old(notifications)
    {
      RemoveKeepsOrder(notifications, id, nextId);
      notifications := RemoveId(notifications, id);
    }
  }

  /** useWindowsNotification: the provider's store, or the error thrown outside one. */
  function UseWindowsNotification(context: Option<NotificationStore>): (r: Hook<NotificationStore>)
    ensures context.None? ==> r == Thrown("useWindowsNotification must be used within a WindowsNotificationProvider")
    ensures context.Some? ==> r == Provided(context.value)
  {
    UseContext(context, "useWindowsNotification must be used within a WindowsNotificationProvider")
  }
}

=== FILE: person_pill.dfy ===
/** One waiting person in the share dialog (components/PersonPill.tsx): a name, an
    initial, and a menu of roles that may offer a transfer of ownership. */
module PersonPill {
  import opened Types
  import opened Strings
  import opened Fixtures

  /** `SUGGESTIONS.find(s => s.email === email)`: the first suggestion with exactly that
      address. */
  function FindSuggestion(suggestions: seq<Suggestion>, email: string): (r: Option<Suggestion>)
    ensures r.None? <==> forall i :: 0 <= i < |suggestions| ==> suggestions[i].email != email
    ensures r.Some? ==> exists i :: 0 <= i < |suggestions| && suggestions[i] == r.value && r.value.email == email
                                  && forall j :: 0 <= j < i ==> suggestions[j].email != email
  {
    if suggestions == [] then None
    else if suggestions[0].email == email then Some(suggestions[0])
    else
      var rest := FindSuggestion(suggestions[1..], email);
      assert rest.Some? ==> exists i :: 0 <= i < |suggestions[1..]| && suggestions[1..][i] == rest.value
                              && rest.value.email == email
                              && forall j :: 0 <= j < i ==> suggestions[1..][j].email != email;
      rest
  }

  /** The name shown on the pill: the contact's name for a suggested address, the address
      itself otherwise. */
  function DisplayName(email: string): (r: string)
    ensures (exists i :: 0 <= i < |Suggestions| && Suggestions[i].email == email) ==>
              exists i :: 0 <= i < |Suggestions| && Suggestions[i].email == email && r == Suggestions[i].name
    ensures (forall i :: 0 <= i < |Suggestions| ==> Suggestions[i].email != email) ==> r == email
  {
    match FindSuggestion(Suggestions, email)
    case Some(s) => s.name
    case None => email
  }

  /** The letter on the pill's avatar: the display name's first character, upper-cased. */
  function PillInitial(email: string): (r: string)
    ensures DisplayName(email) != [] ==> r == [UpperChar(DisplayName(email)[0])]
    ensures DisplayName(email) == [] ==> r == []
  {
    InitialOf(DisplayName(email))
  }

  /** The pills of the two colleagues show their names and initials. */
  lemma ColleaguePills()
    ensures DisplayName("colegA@gmail.com") == "Coleg A" && PillInitial("colegA@gmail.com") == "C"
    ensures DisplayName("colegB@gmail.com") == "Coleg B"
    ensures DisplayName("someone@example.com") == "someone@example.com"
    ensures PillInitial("someone@example.com") == "S"
  {
    assert "someone@example.com" != Suggestions[0].email;
    assert "someone@example.com"[0] != Suggestions[1].email[0];
  }

  /** The entries of the role menu. */
  datatype MenuOption = ViewerOption | EditorOption | MakeOwnerOption

  /** Viewer and Editor always; "Make owner" only for an editor when the dialog allows
      transfers. */
  function MenuOptions(role: Role, canTransferOwnership: bool): (r: seq<MenuOption>)
    ensures |r| >= 2 && r[..2] == [ViewerOption, EditorOption]
    ensures MakeOwnerOption in r <==> role == Editor && canTransferOwnership
    ensures |r| == 2 + (if role == Editor && canTransferOwnership then 1 else 0)
  {
    [ViewerOption, EditorOption] + (if role == Editor && canTransferOwnership then [MakeOwnerOption] else [])
  }

  /** The callback a pill invokes on its dialog. */
  datatype PillRequest = ChangeRole(email: string, role: Role) | MakeOwner(email: string) | Remove(email: string)

  class Pill {
    const person: UserPermission
    const canTransferOwnership: bool
    var isMenuOpen: bool

    constructor (person: UserPermission, canTransferOwnership: bool)
      ensures this.person == person && this.canTransferOwnership == canTransferOwnership && !isMenuOpen
    {
      this.person := person;
      this.canTransferOwnership := canTransferOwnership;
      isMenuOpen := false;
    }

    /** The role button opens and closes the menu. */
    method ToggleMenu()
      modifies this`isMenuOpen
      ensures isMenuOpen == !old(isMenuOpen)
    {
      isMenuOpen := !isMenuOpen;
    }

    /** handleSelectOption: an entry of the open menu runs its callback and the menu closes. */
    method Choose(option: MenuOption) returns (request: PillRequest)
      requires isMenuOpen && option in MenuOptions(person.role, canTransferOwnership)
      modifies this`isMenuOpen
      ensures !isMenuOpen
      ensures option == ViewerOption ==> request == ChangeRole(person.email, Viewer)
      ensures option == EditorOption ==> request == ChangeRole(person.email, Editor)
      ensures option == MakeOwnerOption ==> request == MakeOwner(person.email) && person.role == Editor
    {
      match option {
        case ViewerOption => request := ChangeRole(person.email, Viewer);
        case EditorOption => request := ChangeRole(person.email, Editor);
        case MakeOwnerOption => request := MakeOwner(person.email);
      }
      isMenuOpen := false;
    }

    /** The remove button asks the dialog to drop this address. */
    method RemoveClick() returns (request: PillRequest)
      ensures request == Remove(person.email)
    {
      request := Remove(person.email);
    }

    /** A mousedown outside the menu closes it. */
    method ClickOutside()
      modifies this`isMenuOpen
      ensures !isMenuOpen
    {
      isMenuOpen := false;
    }
  }
}

=== FILE: share_modal.dfy ===
/** The share dialog (components/ShareModal.tsx): a list of people waiting to be invited,
    validated against the contact suggestions and against who already has access,
    sent after a delay together with the invitation message. */
module ShareModal {
  import opened Types
  import opened Strings
  import opened Fixtures

  datatype Access = Restricted | Anyone

  /** The invitation text the dialog starts with. */
  const DefaultMessage: string := "Vă trimit fișierul pentru revizuire."

  const AlreadyAddedError: string := "This person has already been added."
  const InvalidEmailError: string := "Please enter a valid email from suggestions."

  /** `isAlreadyAdded`: the address is waiting already or already has access. */
  predicate IsAlreadyAdded(people: seq<UserPermission>, shared: seq<UserPermission>, email: string)
  {
    HasEmail(people, email) || HasEmail(shared, email)
  }

  /** removePerson: every entry with that address goes, the others stay in order. */
  function RemoveEmail(people: seq<UserPermission>, email: string): (r: seq<UserPermission>)
    ensures forall p :: p in r <==> p in people && p.email != email
    ensures !HasEmail(r, email)
    ensures Embeds(r, people)
    ensures forall p :: multiset(r)[p] == if p.email != email then multiset(people)[p] else 0
  {
    if people == [] then []
    else
      assert people == [people[0]] + people[1..];
      var rest := RemoveEmail(people[1..], email);
      if people[0].email != email then
        var r := [people[0]] + rest;
        assert r[1..] == rest;
        assert !HasEmail(r, email) by {
          forall i | 0 <= i < |r| ensures r[i].email != email {
            if i > 0 { assert r[i] == rest[i - 1]; }
          }
        }
        r
      else rest
  }

  /** handleRoleChange: only the entry with that address changes, and only its role. */
  function ChangeRole(people: seq<UserPermission>, email: string, role: Role): (r: seq<UserPermission>)
    ensures |r| == |people| && Emails(r) == Emails(people)
    ensures forall i :: 0 <= i < |people| && people[i].email == email ==> r[i] == people[i].(role := role)
    ensures forall i :: 0 <= i < |people| && people[i].email != email ==> r[i] == people[i]
  {
    seq(|people|, i requires 0 <= i < |people| => if people[i].email == email then people[i].(role := role) else people[i])
  }

  /** The suggestion whose address equals the input, ignoring case. */
  function MatchSuggestion(suggestions: seq<Suggestion>, input: string): (r: Option<Suggestion>)
    ensures r.None? <==> forall i :: 0 <= i < |suggestions| ==> Lower(suggestions[i].email) != Lower(input)
    ensures r.Some? ==> r.value in suggestions && Lower(r.value.email) == Lower(input)
    ensures r.Some? ==> exists i :: 0 <= i < |suggestions| && suggestions[i] == r.value
                                  && forall j :: 0 <= j < i ==> Lower(suggestions[j].email) != Lower(input)
  {
    if suggestions == [] then None
    else if Lower(suggestions[0].email) == Lower(input) then Some(suggestions[0])
    else
      var r := MatchSuggestion(suggestions[1..], input);
      assert forall i :: 1 <= i < |suggestions| ==> suggestions[i] == suggestions[1..][i - 1];
      if r.Some? then
        var i :| 0 <= i < |suggestions[1..]| && suggestions[1..][i] == r.value
                 && forall j :: 0 <= j < i ==> Lower(suggestions[1..][j].email) != Lower(input);
        assert suggestions[i + 1] == r.value;
        r
      else r
  }

  /** Two inputs that differ only in case find the same suggestion. */
  lemma {:induction false} MatchCaseInsensitive(suggestions: seq<Suggestion>, a: string, b: string)
    requires Lower(a) == Lower(b)
    ensures MatchSuggestion(suggestions, a) == MatchSuggestion(suggestions, b)
    decreases |suggestions|
  {
    if suggestions != [] {
      MatchCaseInsensitive(suggestions[1..], a, b);
    }
  }

  /** Typing a colleague's address in any case finds the canonical address. */
  lemma MatchIgnoresCase()
    ensures MatchSuggestion(Suggestions, "COLEGA@GMAIL.COM") == Some(Suggestions[0])
  {
    assert Lower("COLEGA@GMAIL.COM") == Lower(Suggestions[0].email);
  }

  /** The second colleague is found past the first, whose address differs in one letter. */
  lemma MatchSecondColleague()
    ensures MatchSuggestion(Suggestions, "colegb@gmail.com") == Some(Suggestions[1])
  {
    var input := "colegb@gmail.com";
    assert Lower(input)[5] == LowerChar(input[5]) == 'b';
    assert Lower(Suggestions[0].email)[5] == LowerChar('A') == 'a';
    assert Lower(input) == Lower(Suggestions[1].email);
    assert Suggestions[1..][0] == Suggestions[1];
  }

  /** An address that is no colleague's finds nothing. */
  lemma MatchUnknownAddress()
    ensures MatchSuggestion(Suggestions, "colegc@gmail.com").None?
  {
    assert Lower("colegc@gmail.com")[5] != Lower(Suggestions[0].email)[5];
    assert Lower("colegc@gmail.com")[5] != Lower(Suggestions[1].email)[5];
  }

  /** The suggestion's name or address includes the input, ignoring case. */
  predicate MentionsInput(s: Suggestion, input: string)
  {
    Contains(Lower(s.name), Lower(input)) || Contains(Lower(s.email), Lower(input))
  }

  /** filteredSuggestions: nothing for an empty input; otherwise the suggestions that
      mention the input and are neither waiting nor already sharing. */
  function FilteredSuggestions(suggestions: seq<Suggestion>, input: string, people: seq<UserPermission>,
                               shared: seq<UserPermission>): (r: seq<Suggestion>)
    ensures input == [] ==> r == []
    ensures input != [] ==> forall s :: s in r <==> s in suggestions && MentionsInput(s, input)
                                                     && !HasEmail(people, s.email) && !HasEmail(shared, s.email)
    ensures Embeds(r, suggestions)
    ensures input != [] ==> forall s :: multiset(r)[s] == if MentionsInput(s, input) && !HasEmail(people, s.email)
                                                            && !HasEmail(shared, s.email)
                                                         then multiset(suggestions)[s] else 0
  {
    if input == [] then []
    else if suggestions == [] then []
    else
      assert suggestions == [suggestions[0]] + suggestions[1..];
      var rest := FilteredSuggestions(suggestions[1..], input, people, shared);
      var s := suggestions[0];
      if MentionsInput(s, input) && !HasEmail(people, s.email) && !HasEmail(shared, s.email) then
        var r := [s] + rest;
        assert r[1..] == rest;
        r
      else rest
  }

  /** The entries handed to `onShare`: each gets the expiration date when expiration is on,
      and none otherwise. */
  function WithExpiration(people: seq<UserPermission>, enabled: bool, date: Option<string>): (r: seq<UserPermission>)
    ensures |r| == |people| && Emails(r) == Emails(people)
    ensures forall i :: 0 <= i < |people| ==>
              r[i].role == people[i].role && r[i].expiresOn == (if enabled then date else None)
  {
    seq(|people|, i requires 0 <= i < |people| => people[i].(expiresOn := if enabled then date else None))
  }

  /** The dialog's title. */
  function Title(fileNames: seq<string>): (r: string)
    ensures |fileNames| == 1 ==> r == "Share \"" + fileNames[0] + "\""
    ensures |fileNames| != 1 ==> r == "Share " + NatToString(|fileNames|) + " items"
  {
    if |fileNames| == 1 then "Share \"" + fileNames[0] + "\"" else "Share " + NatToString(|fileNames|) + " items"
  }

  /** What `handleCopyLink` does besides writing the clipboard: the restricted link
      completes the tutorial task, and a toast always follows. */
  datatype CopyOutcome = CopyOutcome(restrictedCopied: bool, toast: string)

  function CopyLink(access: Access): (r: CopyOutcome)
    ensures r.restrictedCopied <==> access == Restricted
    ensures r.toast == "Link copied to clipboard"
  {
    CopyOutcome(access == Restricted, "Link copied to clipboard")
  }

  /** What the delayed part of `handleSend` sees: the render that scheduled it. */
  datatype PendingSend = PendingSend(people: seq<UserPermission>, message: string,
                                     expirationEnabled: bool, expirationDate: Option<string>)

  /** The calls the delayed part makes: `onShare` with its arguments, the toast and the
      desktop notification (only with someone to invite), then `onClose`. */
  datatype SendOutcome = SendOutcome(share: Option<(seq<UserPermission>, string)>, toast: Option<string>,
                                     notification: Option<(string, string)>)

  function CompleteSend(p: PendingSend): (r: SendOutcome)
    ensures p.people == [] ==> r == SendOutcome(None, None, None)
    ensures p.people != [] ==>
              && r.share == Some((WithExpiration(p.people, p.expirationEnabled, p.expirationDate), p.message))
              && r.toast == Some("Items shared successfully")
              && r.notification == Some(("Mail Delivery Subsystem",
                   "Invitation to collaborate sent to " + NatToString(|p.people|) + " user(s)."))
  {
    var withExpiration := WithExpiration(p.people, p.expirationEnabled, p.expirationDate);
    if |withExpiration| > 0 then
      SendOutcome(Some((withExpiration, p.message)), Some("Items shared successfully"),
                  Some(("Mail Delivery Subsystem", "Invitation to collaborate sent to " + NatToString(|p.people|) + " user(s).")))
    else SendOutcome(None, None, None)
  }

  class ShareDialog {
    const fileNames: seq<string>
    const currentSharedUsers: seq<UserPermission>
    var people: seq<UserPermission>
    var inputValue: string
    var message: string
    var error: Option<string>
    var access: Access
    var isSending: bool
    var expirationEnabled: bool
    var expirationDate: Option<string>
    var suggestionsVisible: bool
    var isDirty: bool

    /** The waiting addresses are distinct and none of them has access yet; a changed
        form is marked dirty. */
    predicate Valid()
      reads this
    {
      && DistinctEmails(people)
      && (forall i :: 0 <= i < |people| ==> !HasEmail(currentSharedUsers, people[i].email))
      && (people != [] || message != DefaultMessage ==> isDirty)
    }

    constructor (fileNames: seq<string>, currentSharedUsers: seq<UserPermission>)
      ensures Valid()
      ensures this.fileNames == fileNames && this.currentSharedUsers == currentSharedUsers
      ensures people == [] && inputValue == [] && message == DefaultMessage && error == None
      ensures access == Restricted && !isSending && !expirationEnabled && expirationDate == None
      ensures !suggestionsVisible && !isDirty
    {
      this.fileNames := fileNames;
      this.currentSharedUsers := currentSharedUsers;
      people, inputValue, message, error := [], [], DefaultMessage, None;
      access, isSending, expirationEnabled, expirationDate := Restricted, false, false, None;
      suggestionsVisible, isDirty := false, false;
    }

    /** The effect that marks the form dirty once someone is waiting or the message changed. */
    method MarkDirty()
      modifies this`isDirty
      ensures isDirty == (old(isDirty) || people != [] || message != DefaultMessage)
    {
      if |people| > 0 || message != DefaultMessage {
        isDirty := true;
      }
    }

    /** addPerson: appended only when the address is neither waiting nor sharing;
        otherwise only the error is set. */
    method AddPerson(person: UserPermission)
      requires Valid()
      modifies this`people, this`inputValue, this`error, this`isDirty
      ensures Valid()
      ensures !IsAlreadyAdded(old(people), currentSharedUsers, person.email) ==>
                people == old(people) + [person] && inputValue == [] && error == None
      ensures IsAlreadyAdded(old(people), currentSharedUsers, person.email) ==>
                people == old(people) && inputValue == old(inputValue) && error == Some(AlreadyAddedError)
      ensures isDirty == (old(isDirty) || people != [] || message != DefaultMessage)
    {
      if !IsAlreadyAdded(people, currentSharedUsers, person.email) {
        people := people + [person];
        inputValue := [];
        error := None;
      } else {
        error := Some(AlreadyAddedError);
      }
      MarkDirty();
    }

    /** removePerson. */
    method RemovePerson(email: string)
      requires Valid()
      modifies this`people, this`isDirty
      ensures Valid()
      ensures people == RemoveEmail(old(people), email)
      ensures isDirty == (old(isDirty) || people != [] || message != DefaultMessage)
    {
      EmbedsDistinctSubset(RemoveEmail(people, email), people, currentSharedUsers);
      people := RemoveEmail(people, email);
      MarkDirty();
    }

    /** handleRoleChange. */
    method RoleChange(email: string, role: Role)
      requires Valid()
      modifies this`people, this`isDirty
      ensures Valid()
      ensures people == ChangeRole(old(people), email, role)
      ensures isDirty == (old(isDirty) || people != [] || message != DefaultMessage)
    {
      var r := ChangeRole(people, email, role);
      assert forall i :: 0 <= i < |people| ==> r[i].email == Emails(r)[i] == people[i].email;
      people := r;
      MarkDirty();
    }

    /** The input's onChange: the text is stored and the error cleared. */
    method TypeInput(value: string)
      modifies this`inputValue, this`error
      ensures inputValue == value && error == None
    {
      inputValue := value;
      error := None;
    }

    /** The message box's onChange. */
    method EditMessage(value: string)
      requires Valid()
      modifies this`message, this`isDirty
      ensures Valid() && message == value
      ensures isDirty == (old(isDirty) || people != [] || message != DefaultMessage)
    {
      message := value;
      MarkDirty();
    }

    /** handleAddFromInput: a non-empty input that equals a suggestion's address, ignoring
        case, adds that canonical address as a viewer; anything else is an error. */
    method AddFromInput()
      requires Valid()
      modifies this`people, this`inputValue, this`error, this`isDirty
      ensures Valid()
      ensures old(inputValue) != [] && MatchSuggestion(Suggestions, old(inputValue)).Some? ==>
                var email := MatchSuggestion(Suggestions, old(inputValue)).value.email;
                (!IsAlreadyAdded(old(people), currentSharedUsers, email) ==>
                   people == old(people) + [UserPermission(email, Viewer, None)] && inputValue == [] && error == None)
                && (IsAlreadyAdded(old(people), currentSharedUsers, email) ==>
                   people == old(people) && inputValue == old(inputValue) && error == Some(AlreadyAddedError))
      ensures !(old(inputValue) != [] && MatchSuggestion(Suggestions, old(inputValue)).Some?) ==>
                people == old(people) && inputValue == old(inputValue) && error == Some(InvalidEmailError)
      ensures isDirty == (old(isDirty) || people != [] || message != DefaultMessage)
    {
      var found := MatchSuggestion(Suggestions, inputValue);
      if inputValue != [] && found.Some? {
        AddPerson(UserPermission(found.value.email, Viewer, None));
      } else {
        error := Some(InvalidEmailError);
      }
    }

    /** handleAddFromSuggestion: the suggestion is added as a viewer and the list closes. */
    method AddFromSuggestion(s: Suggestion)
      requires Valid()
      modifies this`people, this`inputValue, this`error, this`isDirty, this`suggestionsVisible
      ensures Valid()
      ensures !IsAlreadyAdded(old(people), currentSharedUsers, s.email) ==>
                people == old(people) + [UserPermission(s.email, Viewer, None)] && error == None
      ensures IsAlreadyAdded(old(people), currentSharedUsers, s.email) ==>
                people == old(people) && error == Some(AlreadyAddedError)
      ensures inputValue == [] && !suggestionsVisible
      ensures isDirty == (old(isDirty) || people != [] || message != DefaultMessage)
    {
      AddPerson(UserPermission(s.email, Viewer, None));
      inputValue := [];
      suggestionsVisible := false;
    }

    /** The suggestions shown under the input. */
    function Filtered(): (r: seq<Suggestion>)
      reads this
      ensures inputValue == [] ==> r == []
      ensures forall s :: s in r ==> s in Suggestions && !HasEmail(people, s.email) && !HasEmail(currentSharedUsers, s.email)
    {
      FilteredSuggestions(Suggestions, inputValue, people, currentSharedUsers)
    }

    /** The Send button is disabled while sending or with nobody to invite. */
    predicate SendDisabled(): (r: bool)
      reads this
      ensures !r ==> people != [] && !isSending
      ensures isSending ==> r
    {
      isSending || people == []
    }

    /** "Make owner" is offered only when exactly one file is being shared. */
    predicate CanTransferOwnership(): (r: bool)
      reads this
      ensures r ==> fileNames != [] && fileNames == [fileNames[0]]
    {
      |fileNames| == 1
    }

    /** handleSend: ignored while a send is pending; otherwise the dialog starts sending and
        the delayed part is given the current form. Every role is set, so the
        "access level" error cannot arise. */
    method Send() returns (pending: Option<PendingSend>)
      modifies this`isSending
      ensures old(isSending) ==> pending.None? && isSending
      ensures !old(isSending) ==>
                && isSending
                && pending ==Some(PendingSend(people, message, expirationEnabled, expirationDate))
    {
      if isSending {
        return None;
      }
      isSending := true;
      pending := Some(PendingSend(people, message, expirationEnabled, expirationDate));
    }

    /** The delayed part of handleSend: the outcome of the captured form; sending ends and
        the dialog asks to close. */
    method SendTimerFires(p: PendingSend) returns (outcome: SendOutcome, close: bool)
      modifies this`isSending
      ensures outcome == CompleteSend(p) && !isSending && close
    {
      outcome := CompleteSend(p);
      isSending := false;
      close := true;
    }

    /** handleClose: with unsaved changes the dialog closes only if the user confirms. */
    method Close(confirmed: bool) returns (close: bool)
      ensures close == (!isDirty || confirmed)
    {
      close := if isDirty then confirmed else true;
    }

    /** handleTransferOwnershipClick: on confirmation, the transfer is requested and the
        dialog closes. */
    method TransferOwnershipClick(email: string, confirmed: bool) returns (transferTo: Option<string>, close: bool)
      ensures confirmed ==> transferTo == Some(email) && close
      ensures !confirmed ==> transferTo.None? && !close
    {
      if confirmed {
        transferTo, close := Some(email), true;
      } else {
        transferTo, close := None, false;
      }
    }

    method ChooseAccess(a: Access)
      modifies this`access
      ensures access == a
    {
      access := a;
    }

    /** handleCopyLink. */
    method CopyLinkClick() returns (outcome: CopyOutcome)
      ensures outcome == CopyLink(access)
    {
      outcome := CopyLink(access);
    }
  }

  /** A sub-list of the waiting people keeps the dialog's invariant. */
  lemma {:induction false} EmbedsDistinctSubset(a: seq<UserPermission>, b: seq<UserPermission>, shared: seq<UserPermission>)
    requires Embeds(a, b) && DistinctEmails(b)
    requires forall i :: 0 <= i < |b| ==> !HasEmail(shared, b[i].email)
    ensures DistinctEmails(a)
    ensures forall i :: 0 <= i < |a| ==> !HasEmail(shared, a[i].email)
    decreases |b|
  {
    if a != [] {
      if a[0] == b[0] && Embeds(a[1..], b[1..]) {
        EmbedsDistinctSubset(a[1..], b[1..], shared);
        forall j | 0 < j < |a| ensures a[0].email != a[j].email {
          var k := EmbedsIndex(a[1..], b[1..], j - 1);
          assert b[k + 1] == a[j];
        }
        forall i, j | 0 < i < j < |a| ensures a[i].email != a[j].email {
          assert a[i] == a[1..][i - 1] && a[j] == a[1..][j - 1];
        }
        forall i | 0 < i < |a| ensures !HasEmail(shared, a[i].email) {
          assert a[i] == a[1..][i - 1];
        }
      } else {
        EmbedsDistinctSubset(a, b[1..], shared);
      }
    }
  }

  /** Where an element of an embedded sequence sits in the longer one. */
  lemma {:induction false} EmbedsIndex(a: seq<UserPermission>, b: seq<UserPermission>, i: nat) returns (k: nat)
    requires Embeds(a, b) && i < |a|
    ensures k < |b| && b[k] == a[i]
    decreases |b|
  {
    if a[0] == b[0] && Embeds(a[1..], b[1..]) {
      if i == 0 {
        k := 0;
      } else {
        k := EmbedsIndex(a[1..], b[1..], i - 1);
        k := k + 1;
      }
    } else {
      k := EmbedsIndex(a, b[1..], i);
      k := k + 1;
    }
  }
}

=== FILE: storage_indicator.dfy ===
/** The storage gauge under the Drive's navigation (components/StorageIndicator.tsx). */
module StorageIndicator {
  import opened Types
  import opened DetailsPanel

  /** The quota: 15 GiB. */
  const TotalStorage: nat := 15 * 1024 * 1024 * 1024

  lemma TotalStorageBytes()
    ensures TotalStorage == 16106127360
  {
  }

  /** usedStorage: the sizes of the files that are not in the trash. */
  function UsedStorage(files: seq<FileItem>): (r: nat)
    ensures r <= TotalSize(files)
    ensures forall i :: 0 <= i < |files| && !files[i].isInTrash ==> files[i].size <= r
  {
    if files == [] then 0 else (if files[0].isInTrash then 0 else files[0].size) + UsedStorage(files[1..])
  }

  /** The files outside the trash, in order. */
  function Live(files: seq<FileItem>): (r: seq<FileItem>)
    ensures forall f :: f in r <==> f in files && !f.isInTrash
    ensures forall f :: multiset(r)[f] == if !f.isInTrash then multiset(files)[f] else 0
  {
    if files == [] then []
    else
      assert files == [files[0]] + files[1..];
      if files[0].isInTrash then Live(files[1..]) else [files[0]] + Live(files[1..])
  }

  /** Used storage is the total size of the files outside the trash. */
  lemma {:induction false} UsedStorageIsLiveTotal(files: seq<FileItem>)
    ensures UsedStorage(files) == TotalSize(Live(files))
  {
    if files != [] {
      UsedStorageIsLiveTotal(files[1..]);
      if !files[0].isInTrash {
        assert ([files[0]] + Live(files[1..]))[1..] == Live(files[1..]);
      }
    }
  }

  /** Moving one file to the trash lowers used storage by exactly its size. */
  lemma {:induction false} TrashingFreesItsSize(files: seq<FileItem>, i: nat)
    requires i < |files| && !files[i].isInTrash
    ensures UsedStorage(files[i := files[i].(isInTrash := true)]) == UsedStorage(files) - files[i].size
  {
    if i > 0 {
      assert files[i := files[i].(isInTrash := true)][1..] == files[1..][i - 1 := files[i].(isInTrash := true)];
      TrashingFreesItsSize(files[1..], i - 1);
    }
  }

  /** `Math.pow(1024, i)`. */
  function Pow1024(i: nat): (r: nat)
    ensures r >= 1
  {
    if i == 0 then 1 else 1024 * Pow1024(i - 1)
  }

  /** The unit formatBytes picks: the largest power of 1024 not above the size, computed
      exactly rather than through floating-point logarithms. */
  function UnitIndex(bytes: nat): (i: nat)
    requires bytes > 0
    ensures Pow1024(i) <= bytes < Pow1024(i + 1)
  {
    if bytes < 1024 then 0 else 1 + UnitIndex(bytes / 1024)
  }

  const Units: seq<string> := ["Bytes", "KB", "MB", "GB", "TB"]

  /** What formatBytes prints: the text "0 Bytes" for nothing; otherwise, short of the
      scaled number itself, the unit (`undefined` past terabytes, where the unit list ends) and the
      number of decimals, which a negative request raises to zero. */
  datatype BytesLabel = Exact(text: string) | Scaled(unit: string, unitIndex: nat, decimals: nat)

  function FormatBytes(bytes: nat, decimals: int): (r: BytesLabel)
    ensures bytes == 0 <==> r == Exact("0 Bytes")
    ensures r.Scaled? ==> Pow1024(r.unitIndex) <= bytes < Pow1024(r.unitIndex + 1)
    ensures r.Scaled? ==> r.decimals == (if decimals < 0 then 0 else decimals)
    ensures r.Scaled? && r.unitIndex < |Units| ==> r.unit == Units[r.unitIndex]
    ensures r.Scaled? && r.unitIndex >= |Units| ==> r.unit == "undefined"
  {
    if bytes == 0 then Exact("0 Bytes")
    else
      var i := UnitIndex(bytes);
      Scaled(if i < |Units| then Units[i] else "undefined", i, if decimals < 0 then 0 else decimals)
  }

  /** The quota is written in gigabytes with no decimals. */
  lemma QuotaIsInGigabytes()
    ensures FormatBytes(TotalStorage, 0) == Scaled("GB", 3, 0)
  {
    assert Pow1024(3) == 1073741824;
    assert Pow1024(4) == 1099511627776;
  }
}

=== FILE: strings.dfy ===
/** The JavaScript string operations the components rely on, over `seq<char>`.
    Case mapping covers the ASCII letters only; `trim` removes the characters
    ECMAScript counts as white space or line terminators. */
module Strings {

  predicate IsAsciiUpper(c: char) { 'A' <= c <= 'Z' }

  predicate IsAsciiLower(c: char) { 'a' <= c <= 'z' }

  function LowerChar(c: char): (r: char)
    ensures IsAsciiUpper(c) ==> IsAsciiLower(r) && r as int == c as int + 32
    ensures !IsAsciiUpper(c) ==> r == c
  {
    if IsAsciiUpper(c) then (c as int + 32) as char else c
  }

  function UpperChar(c: char): (r: char)
    ensures IsAsciiLower(c) ==> IsAsciiUpper(r) && r as int == c as int - 32
    ensures !IsAsciiLower(c) ==> r == c
  {
    if IsAsciiLower(c) then (c as int - 32) as char else c
  }

  /** `s.toLowerCase()`. */
  function Lower(s: string): (r: string)
    ensures |r| == |s|
    ensures forall i :: 0 <= i < |s| ==> r[i] == LowerChar(s[i]) && !IsAsciiUpper(r[i])
  {
    seq(|s|, i requires 0 <= i < |s| => LowerChar(s[i]))
  }

  /** Lower-casing twice changes nothing more. */
  lemma LowerIdempotent(s: string)
    ensures Lower(Lower(s)) == Lower(s)
  {
    assert forall i :: 0 <= i < |s| ==> Lower(Lower(s))[i] == Lower(s)[i];
  }

  /** `s.charAt(0).toUpperCase()`: empty for the empty string. */
  function InitialOf(s: string): (r: string)
    ensures s == [] ==> r == []
    ensures s != [] ==> |r| == 1 && r[0] == UpperChar(s[0]) && !IsAsciiLower(r[0])
  {
    if s == [] then [] else [UpperChar(s[0])]
  }

  predicate IsPrefix(p: string, s: string)
  {
    |p| <= |s| && s[..|p|] == p
  }

  /** `s.includes(sub)`. */
  predicate Contains(s: string, sub: string)
    decreases |s|
  {
    IsPrefix(sub, s) || (s != [] && Contains(s[1..], sub))
  }

  /** `sub` occurs in `s` starting at position `k`. */
  predicate OccursAt(s: string, sub: string, k: int)
  {
    0 <= k && k + |sub| <= |s| && s[k..k + |sub|] == sub
  }

  /** `includes` holds exactly when `sub` occurs at some position of `s`. */
  lemma {:induction false} ContainsAt(s: string, sub: string)
    ensures Contains(s, sub) <==> exists k :: OccursAt(s, sub, k)
    decreases |s|
  {
    if s == [] {
      if exists k :: OccursAt(s, sub, k) {
        var k :| OccursAt(s, sub, k);
        assert |sub| == 0;
        assert IsPrefix(sub, s);
      }
      if Contains(s, sub) {
        assert OccursAt(s, sub, 0);
      }
    } else {
      ContainsAt(s[1..], sub);
      if IsPrefix(sub, s) {
        assert OccursAt(s, sub, 0);
      } else if Contains(s[1..], sub) {
        var k :| OccursAt(s[1..], sub, k);
        assert s[k + 1..k + 1 + |sub|] == s[1..][k..k + |sub|];
        assert OccursAt(s, sub, k + 1);
      }
      if exists k :: OccursAt(s, sub, k) {
        var k :| OccursAt(s, sub, k);
        if k > 0 {
          assert s[1..][k - 1..k - 1 + |sub|] == s[k..k + |sub|];
          assert OccursAt(s[1..], sub, k - 1);
        } else {
          assert IsPrefix(sub, s);
        }
      }
    }
  }

  /** Every string includes the empty string. */
  lemma ContainsEmpty(s: string)
    ensures Contains(s, [])
  {
  }

  /** The characters `String.prototype.trim` removes: white space and line terminators. */
  predicate IsJsWhitespace(c: char)
  {
    c == ' ' || c == '\t' || c == '\n' || c == '\r' || c == '\U{000B}' || c == '\U{000C}'
    || c == '\U{00A0}' || c == '\U{FEFF}' || c == '\U{1680}'
    || ('\U{2000}' <= c <= '\U{200A}')
    || c == '\U{2028}' || c == '\U{2029}' || c == '\U{202F}' || c == '\U{205F}' || c == '\U{3000}'
  }

  function TrimStart(s: string): (r: string)
    ensures |r| <= |s| && r == s[|s| - |r|..]
    ensures r != [] ==> !IsJsWhitespace(r[0])
    ensures forall i :: 0 <= i < |s| - |r| ==> IsJsWhitespace(s[i])
  {
    if s != [] && IsJsWhitespace(s[0]) then TrimStart(s[1..]) else s
  }

  function TrimEnd(s: string): (r: string)
    ensures |r| <= |s| && r == s[..|r|]
    ensures r != [] ==> !IsJsWhitespace(r[|r| - 1])
    ensures forall i :: |r| <= i < |s| ==> IsJsWhitespace(s[i])
  {
    if s != [] && IsJsWhitespace(s[|s| - 1]) then TrimEnd(s[..|s| - 1]) else s
  }

  /** `s.trim()`: the longest middle part without surrounding white space. */
  function Trim(s: string): (r: string)
    ensures exists a, b :: 0 <= a <= b <= |s| && r == s[a..b]
                          && (forall i :: 0 <= i < a ==> IsJsWhitespace(s[i]))
                          && (forall i :: b <= i < |s| ==> IsJsWhitespace(s[i]))
    ensures r != [] ==> !IsJsWhitespace(r[0]) && !IsJsWhitespace(r[|r| - 1])
  {
    var t := TrimStart(s);
    var r := TrimEnd(t);
    TrimCutOffs(s, t, r);
    r
  }

  /** The cut-offs of `TrimStart` then `TrimEnd` are white space on both sides of the middle part. */
  lemma TrimCutOffs(s: string, t: string, r: string)
    requires |t| <= |s| && t == s[|s| - |t|..] && forall i :: 0 <= i < |s| - |t| ==> IsJsWhitespace(s[i])
    requires |r| <= |t| && r == t[..|r|] && forall i :: |r| <= i < |t| ==> IsJsWhitespace(t[i])
    ensures exists a, b :: 0 <= a <= b <= |s| && r == s[a..b]
                          && (forall i :: 0 <= i < a ==> IsJsWhitespace(s[i]))
                          && (forall i :: b <= i < |s| ==> IsJsWhitespace(s[i]))
  {
    var a, b := |s| - |t|, |s| - |t| + |r|;
    assert r == s[a..b];
    forall i | b <= i < |s|
      ensures IsJsWhitespace(s[i])
    {
      assert s[i] == t[i - a];
    }
  }

  /** Trimming twice is trimming once. */
  lemma TrimIdempotent(s: string)
    ensures Trim(Trim(s)) == Trim(s)
  {
    var r := Trim(s);
    if r != [] {
      assert TrimStart(r) == r;
      assert TrimEnd(r) == r;
    }
  }

  /** A string made only of white space trims to the empty string, which JavaScript treats as false. */
  lemma TrimAllWhitespace(s: string)
    requires forall i :: 0 <= i < |s| ==> IsJsWhitespace(s[i])
    ensures Trim(s) == []
  {
  }

  /** `parts.join(sep)`. */
  function Join(parts: seq<string>, sep: string): (r: string)
    ensures parts == [] ==> r == []
    ensures |parts| == 1 ==> r == parts[0]
    ensures |parts| >= 2 ==> r == parts[0] + sep + Join(parts[1..], sep)
  {
    if parts == [] then []
    else if |parts| == 1 then parts[0]
    else parts[0] + sep + Join(parts[1..], sep)
  }

  /** Joining one more part appends the separator and that part. */
  lemma {:induction false} JoinSnoc(parts: seq<string>, p: string, sep: string)
    requires parts != []
    ensures Join(parts + [p], sep) == Join(parts, sep) + sep + p
    decreases |parts|
  {
    if |parts| > 1 {
      assert (parts + [p])[1..] == parts[1..] + [p];
      JoinSnoc(parts[1..], p, sep);
    }
  }

  lemma MulStep(n: nat, k: nat)
    requires n >= 1
    ensures (n - 1) * k + k == n * k
  {
  }

  /** The total length of the parts. */
  function TotalLength(parts: seq<string>): nat
  {
    if parts == [] then 0 else |parts[0]| + TotalLength(parts[1..])
  }

  /** The joined text is every part plus one separator between each two. */
  lemma {:induction false} JoinLength(parts: seq<string>, sep: string)
    requires parts != []
    ensures |Join(parts, sep)| == TotalLength(parts) + (|parts| - 1) * |sep|
    decreases |parts|
  {
    if |parts| > 1 {
      var tail := parts[1..];
      JoinLength(tail, sep);
      assert |Join(parts, sep)| == |parts[0]| + |sep| + |Join(tail, sep)|;
      assert TotalLength(parts) == |parts[0]| + TotalLength(tail);
      MulStep(|tail|, |sep|);
    }
  }

  function DigitChar(d: nat): (r: char)
    requires d < 10
    ensures '0' <= r <= '9'
  {
    ('0' as int + d) as char
  }

  /** Decimal rendering of a non-negative integer, as `${n}` does. */
  function NatToString(n: nat): (r: string)
    ensures r != []
    ensures forall i :: 0 <= i < |r| ==> '0' <= r[i] <= '9'
    ensures n > 0 ==> r[0] != '0'
    decreases n
  {
    if n < 10 then [DigitChar(n)] else NatToString(n / 10) + [DigitChar(n % 10)]
  }

  /** The value a string of decimal digits stands for. */
  function DigitsValue(s: string): nat
    requires forall i :: 0 <= i < |s| ==> '0' <= s[i] <= '9'
  {
    if s == [] then 0 else DigitsValue(s[..|s| - 1]) * 10 + (s[|s| - 1] as int - '0' as int)
  }

  /** The decimal rendering reads back as the number it renders. */
  lemma {:induction false} NatToStringValue(n: nat)
    ensures DigitsValue(NatToString(n)) == n
    decreases n
  {
    if n >= 10 {
      NatToStringValue(n / 10);
      var s := NatToString(n);
      assert s[..|s| - 1] == NatToString(n / 10);
    }
  }

  /** Decimal rendering of any integer, with a leading '-' for negatives. */
  function IntToString(i: int): (r: string)
    ensures i >= 0 ==> r == NatToString(i)
    ensures i < 0 ==> r == "-" + NatToString(-i)
  {
    if i >= 0 then NatToString(i) else "-" + NatToString(-i)
  }

  /** Lexicographic comparison by character code; it stands for `localeCompare`:
      negative, zero or positive as `x` sorts before, together with or after `y`. */
  function StrCompare(x: string, y: string): (r: int)
    ensures -1 <= r <= 1
    ensures r == 0 <==> x == y
  {
    if x == [] && y == [] then 0
    else if x == [] then -1
    else if y == [] then 1
    else if x[0] < y[0] then -1
    else if x[0] > y[0] then 1
    else
      var r := StrCompare(x[1..], y[1..]);
      assert r == 0 <==> x == y by {
        if x[1..] == y[1..] { assert x == [x[0]] + x[1..] && y == [y[0]] + y[1..]; }
      }
      r
  }

  /** Swapping the arguments negates the comparison. */
  lemma {:induction false} StrCompareAntisymmetric(x: string, y: string)
    ensures StrCompare(y, x) == -StrCompare(x, y)
  {
    if x != [] && y != [] && x[0] == y[0] {
      StrCompareAntisymmetric(x[1..], y[1..]);
    }
  }

  /** "Sorts no later than" is transitive. */
  lemma {:induction false} StrCompareTransitive(x: string, y: string, z: string)
    requires StrCompare(x, y) <= 0 && StrCompare(y, z) <= 0
    ensures StrCompare(x, z) <= 0
  {
    if x != [] && y != [] && z != [] && x[0] == y[0] && y[0] == z[0] {
      StrCompareTransitive(x[1..], y[1..], z[1..]);
    }
  }
}

=== FILE: toast_context.dfy ===
/** The toast provider (contexts/ToastContext.tsx): short messages stacked in the corner,
    each with an id from a counter. */
module ToastContext {
  import opened Types
  import opened KeyedQueue

  /** A toast's message and kind; its id is kept by `Keyed`. */
  datatype ToastBody = ToastBody(message: string, kind: ToastType)

  /** The provider's list together with the counter `toastId`. */
  class ToastStore {
    var toasts: seq<Keyed<ToastBody>>
    var nextId: nat

    /** Ids strictly increase along the list and stay below the counter. */
    predicate Valid()
      reads this
    {
      IncreasingIds(toasts) && IdsBelow(toasts, nextId)
    }

    constructor ()
      ensures Valid() && toasts == [] && nextId == 0
    {
      toasts, nextId := [], 0;
    }

    /** addToast: one toast with the next id goes to the end of the list. */
    method AddToast(message: string, kind: ToastType)
      requires Valid()
      modifies this`toasts, this`nextId
      ensures Valid()
      ensures toasts == old(toasts) + [Keyed(old(nextId), ToastBody(message, kind))]
      ensures nextId == old(nextId) + 1
    {
      AppendKeepsOrder(toasts, nextId, ToastBody(message, kind));
      toasts := toasts + [Keyed(nextId, ToastBody(message, kind))];
      nextId := nextId + 1;
    }

    /** removeToast: the toasts with that id go, the others stay in order; an id that is
        not there changes nothing. */
    method RemoveToast(id: nat)
      requires Valid()
      modifies this`toasts
      ensures Valid()
      ensures toasts == RemoveId(old(toasts), id)
      ensures !HasKey(old(toasts), id) ==> toasts == old(toasts)
    {
      RemoveKeepsOrder(toasts, id, nextId);
      toasts := RemoveId(toasts, id);
    }
  }

  /** useToast: the provider's store, or the error thrown outside a provider. */
  function UseToast(context: Option<ToastStore>): (r: Hook<ToastStore>)
    ensures context.None? ==> r == Thrown("useToast must be used within a ToastProvider")
    ensures context.Some? ==> r == Provided(context.value)
  {
    UseContext(context, "useToast must be used within a ToastProvider")
  }
}

=== FILE: tutorial.dfy ===
/** The scored tutorial of the desktop (App.tsx): six tasks, each a predicate over the
    Drive's files, the share list and whether the restricted link was copied; the score,
    the hint shown after inactivity, and the final evaluation. */
module Tutorial {
  import opened Types
  import opened Strings

  /** What a task waits for. Every predicate of the task list has one of these shapes. */
  datatype Goal =
    | FileHasActivity(fileId: string, action: string)
    | SharedWith(email: string)
    | SharedAs(email: string, role: Role)
    | LinkCopied

  datatype Task = Task(id: nat, text: string, hintId: string, points: nat, goal: Goal)

  /** What the task predicates look at. */
  datatype GameState = GameState(files: seq<FileItem>, sharedWith: seq<UserPermission>, hasCopiedLink: bool)

  predicate HasAction(f: FileItem, action: string)
  {
    exists k :: 0 <= k < |f.activity| && f.activity[k].action == action
  }

  /** `task.isCompleted(state)`. */
  predicate IsCompleted(t: Task, s: GameState)
  {
    match t.goal
    case FileHasActivity(fileId, action) =>
      exists i :: 0 <= i < |s.files| && s.files[i].id == fileId && HasAction(s.files[i], action)
    case SharedWith(email) => HasEmail(s.sharedWith, email)
    case SharedAs(email, role) =>
      exists i :: 0 <= i < |s.sharedWith| && s.sharedWith[i].email == email && s.sharedWith[i].role == role
    case LinkCopied => s.hasCopiedLink
  }

  /** TASKS. */
  const Tasks: seq<Task> := [
    Task(1, "Select 'Proiect.docx'", "file-1", 10, FileHasActivity("1", "Selected")),
    Task(2, "Share with colegA@gmail.com", "share-button", 15, SharedWith("colegA@gmail.com")),
    Task(3, "Set colegA's permission to Viewer", "share-modal-input", 15, SharedAs("colegA@gmail.com", Viewer)),
    Task(4, "Share with colegB@gmail.com", "share-modal-input", 15, SharedWith("colegB@gmail.com")),
    Task(5, "Set colegB's permission to Editor", "share-modal-input", 15, SharedAs("colegB@gmail.com", Editor)),
    Task(6, "Copy the restricted link", "copy-link-button", 30, LinkCopied)
  ]

  /** `tasks.reduce((sum, task) => sum + task.points, 0)`. */
  function SumPoints(tasks: seq<Task>): nat
  {
    if tasks == [] then 0 else SumPoints(tasks[..|tasks| - 1]) + tasks[|tasks| - 1].points
  }

  /** MAX_SCORE. */
  function MaxScore(): (r: nat)
    ensures r == 100
  {
    assert SumPoints(Tasks[..1]) == 10 by { assert Tasks[..1][..0] == []; }
    assert SumPoints(Tasks[..2]) == 25 by { assert Tasks[..2][..1] == Tasks[..1]; }
    assert SumPoints(Tasks[..3]) == 40 by { assert Tasks[..3][..2] == Tasks[..2]; }
    assert SumPoints(Tasks[..4]) == 55 by { assert Tasks[..4][..3] == Tasks[..3]; }
    assert SumPoints(Tasks[..5]) == 70 by { assert Tasks[..5][..4] == Tasks[..4]; }
    assert Tasks[..6] == Tasks;
    SumPoints(Tasks)
  }

  /** What one task adds to the score. */
  function Earned(t: Task, s: GameState): (r: nat)
    ensures r <= t.points
    ensures IsCompleted(t, s) ==> r == t.points
    ensures !IsCompleted(t, s) ==> r == 0
  {
    if IsCompleted(t, s) then t.points else 0
  }

  /** The score effect: the points of the completed tasks. */
  function Score(tasks: seq<Task>, s: GameState): (r: nat)
    ensures r <= SumPoints(tasks)
  {
    if tasks == [] then 0 else Score(tasks[..|tasks| - 1], s) + Earned(tasks[|tasks| - 1], s)
  }

  /** The score never exceeds MAX_SCORE. */
  lemma ScoreAtMostMax(s: GameState)
    ensures Score(Tasks, s) <= MaxScore() == 100
  {
  }

  predicate AllCompleted(tasks: seq<Task>, s: GameState)
  {
    forall i :: 0 <= i < |tasks| ==> IsCompleted(tasks[i], s)
  }

  /** With every task worth something, the full score means every task is done, and back. */
  lemma {:induction false} FullScoreIffAllCompleted(tasks: seq<Task>, s: GameState)
    requires forall i :: 0 <= i < |tasks| ==> tasks[i].points > 0
    ensures Score(tasks, s) == SumPoints(tasks) <==> AllCompleted(tasks, s)
  {
    if tasks != [] {
      var init := tasks[..|tasks| - 1];
      FullScoreIffAllCompleted(init, s);
      if AllCompleted(tasks, s) {
        assert forall i :: 0 <= i < |init| ==> init[i] == tasks[i];
      }
      if Score(tasks, s) == SumPoints(tasks) {
        forall i | 0 <= i < |tasks| ensures IsCompleted(tasks[i], s) {
          if i < |init| { assert init[i] == tasks[i]; }
        }
      }
    }
  }

  /** Every task of the tutorial is worth something, so a score of 100 means all are done. */
  lemma TutorialFullScore(s: GameState)
    ensures Score(Tasks, s) == 100 <==> AllCompleted(Tasks, s)
  {
    FullScoreIffAllCompleted(Tasks, s);
    assert MaxScore() == 100;
  }

  /** Setting colegA's permission to Viewer completes sharing with colegA. */
  lemma Task3ImpliesTask2(s: GameState)
    ensures IsCompleted(Tasks[2], s) ==> IsCompleted(Tasks[1], s)
  {
  }

  /** Setting colegB's permission to Editor completes sharing with colegB. */
  lemma Task5ImpliesTask4(s: GameState)
    ensures IsCompleted(Tasks[4], s) ==> IsCompleted(Tasks[3], s)
  {
  }

  /** `tasks.find(task => !task.isCompleted(state))`. */
  function FirstUncompleted(tasks: seq<Task>, s: GameState): (r: Option<Task>)
    ensures r.None? <==> AllCompleted(tasks, s)
    ensures r.Some? ==> exists i :: 0 <= i < |tasks| && tasks[i] == r.value && !IsCompleted(tasks[i], s)
                                  && forall j :: 0 <= j < i ==> IsCompleted(tasks[j], s)
  {
    if tasks == [] then None
    else if !IsCompleted(tasks[0], s) then Some(tasks[0])
    else
      var r := FirstUncompleted(tasks[1..], s);
      assert AllCompleted(tasks[1..], s) ==> AllCompleted(tasks, s) by {
        if AllCompleted(tasks[1..], s) {
          forall i | 0 < i < |tasks| ensures IsCompleted(tasks[i], s) { assert tasks[i] == tasks[1..][i - 1]; }
        }
      }
      if r.Some? then
        var tail := tasks[1..];
        var i :| 0 <= i < |tail| && tail[i] == r.value && !IsCompleted(tail[i], s)
                 && forall j :: 0 <= j < i ==> IsCompleted(tail[j], s);
        assert tasks[i + 1] == r.value;
        assert forall j :: 1 <= j < i + 1 ==> tasks[j] == tail[j - 1];
        r
      else r
  }

  /** showHint: the hint becomes the first uncompleted task's target; with every task
      done, the hint stays as it was. */
  function ShowHint(prev: Option<string>, tasks: seq<Task>, s: GameState): (r: Option<string>)
    ensures AllCompleted(tasks, s) ==> r == prev
    ensures !AllCompleted(tasks, s) ==> exists i :: 0 <= i < |tasks| && r == Some(tasks[i].hintId)
                                                 && !IsCompleted(tasks[i], s)
                                                 && forall j :: 0 <= j < i ==> IsCompleted(tasks[j], s)
  {
    match FirstUncompleted(tasks, s)
    case None => prev
    case Some(t) => Some(t.hintId)
  }

  /** The number of completed tasks. */
  function CompletedCount(tasks: seq<Task>, s: GameState): (n: nat)
    ensures n <= |tasks|
  {
    if tasks == [] then 0
    else CompletedCount(tasks[..|tasks| - 1], s) + (if IsCompleted(tasks[|tasks| - 1], s) then 1 else 0)
  }

  /** One line of the justification. */
  function DetailLine(t: Task, s: GameState): (r: string)
    ensures IsPrefix("- " + t.text + ": ", r)
    ensures IsCompleted(t, s) ==> r[|t.text| + 4..] == NatToString(t.points) + " puncte"
    ensures !IsCompleted(t, s) ==> r[|t.text| + 4..] == "0 puncte (nefinalizat)"
  {
    var head := "- " + t.text + ": ";
    if IsCompleted(t, s) then
      var r := "- " + t.text + ": " + NatToString(t.points) + " puncte";
      assert r == head + (NatToString(t.points) + " puncte");
      assert r[..|head|] == head && r[|head|..] == NatToString(t.points) + " puncte";
      r
    else
      var r := "- " + t.text + ": 0 puncte (nefinalizat)";
      assert r == head + "0 puncte (nefinalizat)";
      assert r[..|head|] == head && r[|head|..] == "0 puncte (nefinalizat)";
      r
  }

  /** The justification's lines, one per task, in task order. */
  function DetailLines(tasks: seq<Task>, s: GameState): (r: seq<string>)
    ensures |r| == |tasks|
    ensures forall i :: 0 <= i < |tasks| ==> r[i] == DetailLine(tasks[i], s)
  {
    seq(|tasks|, i requires 0 <= i < |tasks| => DetailLine(tasks[i], s))
  }

  /** The justification text sent with the result. */
  function Justification(tasks: seq<Task>, s: GameState): (r: string)
    ensures IsPrefix("Detalii punctaj:\n", r)
    ensures tasks == [] ==> r == "Detalii punctaj:\n"
    ensures |tasks| == 1 ==> r == "Detalii punctaj:\n" + DetailLine(tasks[0], s)
    ensures r == "Detalii punctaj:\n" + Join(DetailLines(tasks, s), "\n")
  {
    "Detalii punctaj:\n" + Join(DetailLines(tasks, s), "\n")
  }

  /** One more task adds a line break and that task's line to the justification. */
  lemma JustificationSnoc(tasks: seq<Task>, t: Task, s: GameState)
    requires tasks != []
    ensures Justification(tasks + [t], s) == Justification(tasks, s) + "\n" + DetailLine(t, s)
  {
    var lines := DetailLines(tasks + [t], s);
    assert lines == DetailLines(tasks, s) + [DetailLine(t, s)] by {
      forall k | 0 <= k < |lines| ensures lines[k] == (DetailLines(tasks, s) + [DetailLine(t, s)])[k] {
        assert (tasks + [t])[k] == if k < |tasks| then tasks[k] else t;
      }
    }
    JoinSnoc(DetailLines(tasks, s), DetailLine(t, s), "\n");
  }

  /** handleCheckEvaluation's loop over the tasks: the score, the number of completed
      tasks and one detail line per task, in task order. */
  method Evaluate(tasks: seq<Task>, s: GameState) returns (finalScore: nat, tasksCompleted: nat, justification: string)
    ensures finalScore == Score(tasks, s) && finalScore <= SumPoints(tasks)
    ensures tasksCompleted == CompletedCount(tasks, s) && tasksCompleted <= |tasks|
    ensures justification == Justification(tasks, s)
  {
    finalScore, tasksCompleted := 0, 0;
    var detailsParts: seq<string> := [];
    for i := 0 to |tasks|
      invariant finalScore == Score(tasks[..i], s)
      invariant tasksCompleted == CompletedCount(tasks[..i], s)
      invariant detailsParts == DetailLines(tasks[..i], s)
    {
      EvaluateStep(tasks, s, i);
      if IsCompleted(tasks[i], s) {
        finalScore := finalScore + tasks[i].points;
        tasksCompleted := tasksCompleted + 1;
        detailsParts := detailsParts + ["- " + tasks[i].text + ": " + NatToString(tasks[i].points) + " puncte"];
      } else {
        detailsParts := detailsParts + ["- " + tasks[i].text + ": 0 puncte (nefinalizat)"];
      }
    }
    assert tasks[..|tasks|] == tasks;
    justification := "Detalii punctaj:\n" + Join(detailsParts, "\n");
  }

  lemma EvaluateStep(tasks: seq<Task>, s: GameState, i: nat)
    requires i < |tasks|
    ensures Score(tasks[..i + 1], s) == Score(tasks[..i], s) + Earned(tasks[i], s)
    ensures CompletedCount(tasks[..i + 1], s) == CompletedCount(tasks[..i], s) + (if IsCompleted(tasks[i], s) then 1 else 0)
    ensures DetailLines(tasks[..i + 1], s) == DetailLines(tasks[..i], s) + [DetailLine(tasks[i], s)]
  {
    assert tasks[..i + 1][..i] == tasks[..i];
    var a := DetailLines(tasks[..i + 1], s);
    var b := DetailLines(tasks[..i], s) + [DetailLine(tasks[i], s)];
    forall k | 0 <= k < |a| ensures a[k] == b[k] {
      assert tasks[..i + 1][k] == tasks[k];
      if k < i { assert tasks[..i][k] == tasks[k]; }
    }
    assert a == b;
  }

  /** The record handed to the parent window and shown in the result window. */
  datatype EvaluationResult = EvaluationResult(score: nat, maxScore: nat, details: string,
                                               tasksCompleted: nat, totalTasks: nat)

  /** The evaluation of the tutorial's own task list. */
  method CheckEvaluation(s: GameState) returns (result: EvaluationResult)
    ensures result.score == Score(Tasks, s) && result.maxScore == 100
    ensures result.score == 100 <==> result.tasksCompleted == result.totalTasks == 6
    ensures result.details == Justification(Tasks, s)
    ensures result.tasksCompleted == CompletedCount(Tasks, s) && result.totalTasks == |Tasks| == 6
  {
    var finalScore, tasksCompleted, justification := Evaluate(Tasks, s);
    TutorialFullScore(s);
    AllCompletedCount(Tasks, s);
    result := EvaluationResult(finalScore, MaxScore(), justification, tasksCompleted, |Tasks|);
  }

  /** Every task is done exactly when the completed count reaches the number of tasks. */
  lemma {:induction false} AllCompletedCount(tasks: seq<Task>, s: GameState)
    ensures CompletedCount(tasks, s) == |tasks| <==> AllCompleted(tasks, s)
  {
    if tasks != [] {
      var init := tasks[..|tasks| - 1];
      AllCompletedCount(init, s);
      if AllCompleted(tasks, s) {
        assert forall i :: 0 <= i < |init| ==> init[i] == tasks[i];
      }
      if CompletedCount(tasks, s) == |tasks| {
        forall i | 0 <= i < |tasks| ensures IsCompleted(tasks[i], s) {
          if i < |init| { assert init[i] == tasks[i]; }
        }
      }
    }
  }
}

=== FILE: types.dfy ===
/** Records shared by the whole desktop: the Drive's file records, permissions,
    simulated e-mails, sort settings and contact suggestions.
    Optional TypeScript fields (`field?: T`) and `T | null` become `Option<T>`. */
module Types {

  datatype Option<T> = None | Some(value: T)

  /** Access level of a person a file is shared with. */
  datatype Role = Viewer | Editor

  /** The `type` field of a file record (`type` is a Dafny keyword, hence `kind`). */
  datatype FileKind = Doc | Sheet | Slide | Folder

  datatype ActivityLog = ActivityLog(action: string, date: string)

  datatype Version = Version(id: string, author: string, date: string)

  /** One file or folder of the Drive. `isUploading?` is only ever tested for
      truthiness, so an absent value is `false`; `uploadProgress?` is compared
      numerically and stays optional. Sizes are byte counts and never negative. */
  datatype FileItem = FileItem(
    id: string,
    name: string,
    kind: FileKind,
    owner: string,
    modified: string,
    previewUrl: Option<string>,
    parentId: Option<string>,
    isInTrash: bool,
    size: nat,
    isStarred: bool,
    activity: seq<ActivityLog>,
    isUploading: bool,
    uploadProgress: Option<int>,
    versions: Option<seq<Version>>)

  /** `expiresOn` is absent before sending and `null` or a date afterwards;
      both absent and `null` are `None` here. */
  datatype UserPermission = UserPermission(email: string, role: Role, expiresOn: Option<string>)

  datatype Email = Email(id: string, to: seq<string>, subject: string, body: string, date: string, read: bool)

  /** An e-mail before the mail app gives it an id, a date and the unread flag. */
  datatype MailDraft = MailDraft(to: seq<string>, subject: string, body: string)

  datatype SortKey = Name | Owner | Modified

  datatype SortDirection = Ascending | Descending

  datatype SortConfig = SortConfig(key: SortKey, direction: SortDirection)

  datatype Presence = Online | Offline

  datatype Suggestion = Suggestion(name: string, email: string, status: Presence)

  datatype Collaborator = Collaborator(email: string, name: string)

  /** A screen position and a window size, in pixels. */
  datatype Point = Point(x: int, y: int)

  datatype Size = Size(width: int, height: int)

  datatype ToastType = Success | Info | Error | Warning | Mail

  /** The user that owns everything created in the simulated Drive. */
  const CurrentUser: string := "utilizator@gmail.com"

  /** `files.find(f => f.id === id)`: the first file with that id. */
  function FindById(files: seq<FileItem>, id: string): (r: Option<FileItem>)
    ensures r.None? <==> forall i :: 0 <= i < |files| ==> files[i].id != id
    ensures r.Some? <==> HasId(files, id)
    ensures r.Some? ==> exists i :: 0 <= i < |files| && files[i] == r.value
                                  && files[i].id == id
                                  && forall j :: 0 <= j < i ==> files[j].id != id
  {
    FindFrom(files, id, 0)
  }

  /** The search of `find` from position `from` on. */
  function FindFrom(files: seq<FileItem>, id: string, from: nat): (r: Option<FileItem>)
    requires from <= |files|
    ensures r.None? <==> forall i :: from <= i < |files| ==> files[i].id != id
    ensures r.Some? ==> exists i :: from <= i < |files| && files[i] == r.value
                                  && files[i].id == id
                                  && forall j :: from <= j < i ==> files[j].id != id
    decreases |files| - from
  {
    if from == |files| then None
    else if files[from].id == id then Some(files[from])
    else FindFrom(files, id, from + 1)
  }

  /** True when some file carries the id. */
  predicate HasId(files: seq<FileItem>, id: string)
  {
    exists i :: 0 <= i < |files| && files[i].id == id
  }

  /** The ids of the files, in order. */
  function Ids(files: seq<FileItem>): (r: seq<string>)
    ensures |r| == |files|
    ensures forall i :: 0 <= i < |files| ==> r[i] == files[i].id
  {
    seq(|files|, i requires 0 <= i < |files| => files[i].id)
  }

  /** The e-mail addresses of a list of permissions, in order. */
  function Emails(users: seq<UserPermission>): (r: seq<string>)
    ensures |r| == |users|
    ensures forall i :: 0 <= i < |users| ==> r[i] == users[i].email
  {
    seq(|users|, i requires 0 <= i < |users| => users[i].email)
  }

  /** `list.some(p => p.email === email)`. */
  predicate HasEmail(users: seq<UserPermission>, email: string)
  {
    exists i :: 0 <= i < |users| && users[i].email == email
  }

  /** No two permissions name the same e-mail address. */
  predicate DistinctEmails(users: seq<UserPermission>)
  {
    forall i, j :: 0 <= i < j < |users| ==> users[i].email != users[j].email
  }

  /** `a` is `b` with some elements left out, the rest kept in order. */
  predicate Embeds<T(==)>(a: seq<T>, b: seq<T>)
    decreases |b|
  {
    if a == [] then true
    else if b == [] then false
    else (a[0] == b[0] && Embeds(a[1..], b[1..])) || Embeds(a, b[1..])
  }

  /** Every sequence embeds in itself. */
  lemma {:induction false} EmbedsRefl<T>(a: seq<T>)
    ensures Embeds(a, a)
    decreases |a|
  {
    if a != [] { EmbedsRefl(a[1..]); }
  }
}
